=== FILE: README.md ===
# Participium — a verified model of its core rules

Participium is a civic reporting platform for the city of Turin. Citizens file reports about
problems in public space, through the web client or through a Telegram bot. Municipal public
relations officers approve reports, which assigns them to technical staff, or reject them with a
reason. Staff and external maintainers then work on the reports assigned to them.

This project models in Dafny the parts of the system that make decisions:

- **The Telegram bot.** `ReportWizards`, `ReportHandlers` and `TelegramSessions` cover the
  per-chat report wizard:
  - location, then title, description, category, photos, anonymity and confirmation;
  - the table of sessions keyed by chat id;
  - the guards that forward updates to the wizard;
  - the `/link` command.

  The state the bot changes in place is modelled imperatively: a `UserSession` object and the
  module-level session map. Each handler is specified by a function from the old state to the
  new state and reply, and the wizard's promises are proved as lemmas about those functions.
- **The report lifecycle.** `ReportLifecycle` holds a report table with approve, reject and the
  two listings, as the report service's integration tests pin them down. `ReportStatuses` holds
  the status enumeration and its wire strings. `ReportUpdateValidation` and
  `CreateReportValidation` hold the two request validators.
- **The server's small decision functions.** These are:
  - the authentication guards (`Auth`);
  - the role predicates (`UserRoles`);
  - the global error handler (`ErrorHandling`);
  - the input checks of role assignment (`AssignRoleInput`);
  - the entity-to-response mappers, including WKT `POINT(lon lat)` parsing and anonymity
    masking (`Mappers`);
  - the municipality-user table, which refuses citizen and administrator rows
    (`MunicipalityUsers`).
- **Client-side helpers.** These are:
  - the registration form (`Registration`);
  - role editing (`UserDetailsEditing`);
  - the role-to-category table (`RoleMapping`);
  - the municipality dashboard's badges, filters, sort and approval outcome
    (`MunicipalityHome`);
  - the external-maintainer list (`ExternalMaintainers`);
  - the Telegram link countdown (`TelegramLinkCountdown`).

Shared pieces:

- `Wrappers` holds `Option`/`Result`.
- `Errors` holds the server's error classes.
- `Text` holds JavaScript's `trim`, `\s`, ASCII case mapping, `toString` and decimal `parseInt`.
- `Listing` holds newest-first selection from a table keyed by id.

The outside world is passed in as parameters:

- the Telegram API;
- geocoding;
- photo download;
- user lookup;
- report creation;
- the clock;
- `navigator.onLine`;
- `NODE_ENV`.

The model states how each outcome of those calls is handled.

## Model

| member | source | states |
|---|---|---|
| ReportStatuses.Parse | server/src/models/dto/ReportStatus.ts:19-27 | a string is accepted exactly when it is the wire string of some status, and then names that status |
| ReportStatuses.Wire | server/src/models/dto/ReportStatus.ts:19-27 | the string value of each of the seven statuses; `ParseWire` and `WireInjective` state that it is one-to-one and inverted by `Parse` |
| ReportStatuses.ParseWire | server/src/models/dto/ReportStatus.ts:19-27 | parsing the wire string of any of the seven statuses gives that status back |
| ReportStatuses.WireParse | server/src/models/dto/ReportStatus.ts:19-27 | every accepted string is the wire string of the status it parses to |
| ReportStatuses.WireInjective | server/src/models/dto/ReportStatus.ts:20-26 | distinct statuses have distinct wire strings |
| ReportStatuses.SevenDistinctStatuses | server/src/models/dto/ReportStatus.ts:19-27 | the value list has exactly seven entries, lists every status, and its wire strings are pairwise distinct |
| ReportStatuses.ExactSpelling | server/src/models/dto/ReportStatus.ts:20-26 | "Pending Approval" and "In External Maintenance" are spelled exactly; the enum key spelling and lower case are not accepted |
| UserRoles.TechnicalStaffComplement | server/src/models/dto/UserRole.ts:15-37 | a role is not technical staff exactly when it is citizen, administrator, public relations officer or external maintainer; "department director" is technical staff |
| UserRoles.IsTechnicalStaff | server/src/models/dto/UserRole.ts:32-37 | a role is technical staff unless it is one of four system roles; `TechnicalStaffComplement` states the complement |
| UserRoles.IsAdmin | server/src/models/dto/UserRole.ts:42-44 | only the exact name "administrator" is admin; `CaseSensitive` and `PredicatesDisjoint` state its properties |
| UserRoles.IsCitizen | server/src/models/dto/UserRole.ts:48-50 | only the exact name "citizen" is citizen; `CaseSensitive` and `PredicatesDisjoint` state its properties |
| UserRoles.CaseSensitive | server/src/models/dto/UserRole.ts:32-50 | "Administrator" is not admin but is technical staff; "Citizen" is not citizen but is technical staff |
| UserRoles.PredicatesDisjoint | server/src/models/dto/UserRole.ts:32-50 | technical staff is neither admin nor citizen, and no role is both admin and citizen |
| Auth.Capitalize | server/src/middleware/auth.js:58 | the first character is upper-cased and the rest of the role name is kept |
| Auth.IsLoggedIn | server/src/middleware/auth.js:8-13 | `next` is called exactly for an authenticated request; otherwise 401 "Not authenticated" |
| Auth.IsCitizenGuard | server/src/middleware/auth.js:18-28 | 401 before any role check; passes exactly for role "citizen"; 403 with the citizen message otherwise; throws when authenticated without a user |
| Auth.IsAdminGuard | server/src/middleware/auth.js:33-43 | 401 before any role check; passes exactly for role "admin"; 403 with the admin message otherwise; throws when authenticated without a user |
| Auth.RequireRole | server/src/middleware/auth.js:50-63 | never throws; 401 when unauthenticated; passes exactly when the user's role equals the required role; otherwise 403 "Access denied. " + capitalised role + " role required." |
| Auth.FixedGuardsAreRequireRole | server/src/middleware/auth.js:18-63 | where a user is present, the citizen and admin guards decide exactly as `requireRole` with "citizen" and "admin" |
| Auth.CitizenDenial | server/src/middleware/auth.js:24 | the generic denial for "citizen" is the citizen guard's literal message |
| Auth.AdminDenial | server/src/middleware/auth.js:39 | the generic denial for "admin" is the admin guard's literal message |
| Auth.UnauthenticatedFirst | server/src/middleware/auth.js:8-63 | every guard answers an unauthenticated request with the same 401 |
| ErrorHandling.HandleError | server/src/middleware/errorHandler.js:5-37 | the status and `error` message are those of the rule table (default 500 / "Internal server error", truthy message and status code taken, constraint → 409, validation → 400 applied last); the stack is included exactly in development |
| ErrorHandling.BareErrorIs500 | server/src/middleware/errorHandler.js:9-10 | an error with no properties gives 500 "Internal server error" |
| ErrorHandling.ValidationBeatsConstraint | server/src/middleware/errorHandler.js:22-31 | a validation error with a constraint code gives 400 and the error's own message |
| ErrorHandling.ErrorFieldPresent | server/src/middleware/errorHandler.js:28-36 | the `error` field is undefined exactly for a validation error without a message |
| ReportUpdateValidation.WireNames | server/src/middleware/validateReportUpdate.ts:9 | the listed names are the statuses' wire strings, position by position |
| ReportUpdateValidation.ValidateReportUpdate | server/src/middleware/validateReportUpdate.ts:5-17 | a missing or unknown status fails first, with the list of valid statuses; Rejected with a missing or blank reason fails with "Rejection reason is required when rejecting a report"; `next` is reached exactly when neither holds |
| ReportUpdateValidation.OtherStatusesIgnoreReason | server/src/middleware/validateReportUpdate.ts:12-16 | every valid status other than Rejected passes, whatever the reason |
| CreateReportValidation.ValidateCreateReport | server/src/middleware/reportValidation.ts:9-31 | passes exactly when the location is an object with numeric latitude in [-90, 90] and longitude in [-180, 180]; each failure gives its own message, in the order object, numeric, latitude, longitude |
| CreateReportValidation.OnlyLocationInspected | server/src/middleware/reportValidation.ts:9-31 | two bodies with the same location get the same verdict |
| CreateReportValidation.BoundsInclusive | server/src/middleware/reportValidation.ts:20-25 | the bounds ±90 and ±180 pass; 90.5 fails on latitude and -180.5 on longitude |
| AssignRoleInput.AssignRole | server/src/controllers/municipalityUserController.ts:27-50 | a non-numeric id fails with "Invalid user ID", then a missing or empty role with "Role is required", then a role outside the value set with "Invalid role specified"; otherwise the service gets the parsed id and the role |
| AssignRoleInput.NumericIdAccepted | server/src/controllers/municipalityUserController.ts:29-46 | a decimal id with a valid role reaches the service with that id |
| Mappers.MapRoles | server/src/test/unit/services/mapperService.unit.test.ts:12-36 | one role entry per user role, in order, with role and department names |
| Mappers.MapUser | server/src/test/unit/services/mapperService.unit.test.ts:12-47 | null maps to null; otherwise id, username, email, names and roles are kept and the company name is the one supplied |
| Mappers.UserWithOneRole | server/src/test/unit/services/mapperService.unit.test.ts:12-36 | the test's user maps to exactly one role, Manager in Dep1 |
| Mappers.UnsignedDecimal | server/src/test/unit/services/mapperService.unit.test.ts:57-73 | an accepted number starts with a digit and is non-negative |
| Mappers.ParseNumber | server/src/test/unit/services/mapperService.unit.test.ts:57-73 | an accepted number is non-empty; a leading '-' negates the unsigned value |
| Mappers.ParseWkt | server/src/test/unit/services/mapperService.unit.test.ts:57-73 | an accepted text starts with "POINT(" and ends with ')' |
| Mappers.WktRoundTrip | server/src/test/unit/services/mapperService.unit.test.ts:57-73 | reading `POINT(lon lat)` back gives latitude from the second number and longitude from the first |
| Mappers.NumberHasNoSpace | server/src/test/unit/services/mapperService.unit.test.ts:57-73 | a number holds no space and no ')', so the WKT fields are separated unambiguously |
| Mappers.ParseNumberOfNatString | server/src/test/unit/services/mapperService.unit.test.ts:57-73 | the decimal text of n, with or without '-', reads back as ±n |
| Mappers.DecimalTwoDigits | server/src/test/unit/services/mapperService.unit.test.ts:57-73 | a two-digit number reads as its decimal value |
| Mappers.UnsignedDecimalChars | server/src/test/unit/services/mapperService.unit.test.ts:57-73 | an accepted unsigned number holds only digits and a dot |
| Mappers.MapLocation | server/src/test/unit/services/mapperService.unit.test.ts:50-80 | a stored latitude/longitude pair is kept; a stored WKT text is parsed |
| Mappers.PointTenTwenty | server/src/test/unit/services/mapperService.unit.test.ts:57-73 | "POINT(10 20)" maps to latitude 20, longitude 10 |
| Mappers.MapPhotos | server/src/test/unit/services/mapperService.unit.test.ts:66-79 | one photo entry per photo, in order, with id and storage URL |
| Mappers.MapReport | server/src/test/unit/services/mapperService.unit.test.ts:50-94 | the report's fields are copied, the location mapped, and an anonymous report has no reporter id and no reporter |
| Mappers.AnonymousReporterHidden | server/src/test/unit/services/mapperService.unit.test.ts:82-94 | for an anonymous report, the response does not depend on the reporter at all |
| MunicipalityUsers.StoredPassword | server/src/repositories/municipalityUserRepository.ts:33 | the stored hash is salt, ':' and hash, in that order |
| MunicipalityUsers.StoredPasswordSplits | server/src/repositories/municipalityUserRepository.ts:33 | splitting the stored hash on ':' gives back the salt and the hash |
| MunicipalityUsers.FindById | server/src/repositories/municipalityUserRepository.ts:61-67 | a row is found exactly when the id exists with a municipal role, and then it is that row |
| MunicipalityUsers.IsMunicipalityUser | server/src/repositories/municipalityUserRepository.ts:123-128 | true exactly when `findMunicipalityUserById` finds the row |
| MunicipalityUsers.Create | server/src/repositories/municipalityUserRepository.ts:20-37 | fails exactly for citizen and administrator roles; otherwise the new row has the next id, the given fields and the salt:hash password |
| MunicipalityUsers.Patched | server/src/repositories/municipalityUserRepository.ts:88-98 | the given fields are replaced, the others kept, `updatedAt` set, id, creation time and password untouched |
| MunicipalityUsers.Update | server/src/repositories/municipalityUserRepository.ts:77-99 | fails exactly for missing or non-municipal rows; otherwise returns the patched row |
| MunicipalityUsers.Delete | server/src/repositories/municipalityUserRepository.ts:108-116 | fails exactly for missing or non-municipal rows; otherwise removes that id only |
| MunicipalityUsers.CreatedIsFound | server/src/repositories/municipalityUserRepository.ts:20-67 | a created user is found by its id afterwards |
| MunicipalityUsers.SystemRowsUntouchable | server/src/repositories/municipalityUserRepository.ts:82-85 | citizen and administrator rows can be neither updated nor deleted |
| MunicipalityUsers.UpdateCanLeaveMunicipalScope | server/src/repositories/municipalityUserRepository.ts:88-98 | an update may set the role to citizen, after which the row is no longer found |
| MunicipalityUsers.DeletedIsGone | server/src/repositories/municipalityUserRepository.ts:108-116 | a deleted user is not found, and a second delete fails |
| MunicipalityUsers.MunicipalityUserRepository.constructor | server/src/repositories/municipalityUserRepository.ts:10-12 | the table starts empty and valid |
| MunicipalityUsers.MunicipalityUserRepository.CreateMunicipalityUser | server/src/repositories/municipalityUserRepository.ts:20-37 | the result is `Create`; on failure the table is unchanged, on success the row is added under a fresh id; the table stays valid |
| MunicipalityUsers.MunicipalityUserRepository.FindMunicipalityUserById | server/src/repositories/municipalityUserRepository.ts:61-67 | the result is `FindById` on the current table |
| MunicipalityUsers.MunicipalityUserRepository.UpdateMunicipalityUser | server/src/repositories/municipalityUserRepository.ts:77-99 | the result is `Update`; only that row changes, and only on success |
| MunicipalityUsers.MunicipalityUserRepository.DeleteMunicipalityUser | server/src/repositories/municipalityUserRepository.ts:108-116 | fails as `Delete` does, leaving the table unchanged; otherwise removes only that id |
| MunicipalityUsers.MunicipalityUserRepository.FindAllMunicipalityUsers | server/src/repositories/municipalityUserRepository.ts:44-53 | exactly the municipal users, each once, newest first |
| MunicipalityUsers.MunicipalityUserRepository.FindUsersByRole | server/src/repositories/municipalityUserRepository.ts:137-148 | fails exactly for citizen and administrator; otherwise exactly the users with that role, newest first |
| Listing.Insert | server/src/test/integration/services/reportServiceIntegrationTest.test.ts:225-264 | inserting an id adds exactly that id to the listing |
| Listing.InsertKeepsOrder | server/src/test/integration/services/reportServiceIntegrationTest.test.ts:225-264 | inserting into a newest-first listing keeps it newest first |
| Listing.SelectNewestFirst | server/src/repositories/municipalityUserRepository.ts:44-53 | the selected ids are exactly the kept rows of the table, each once, newest first, with their rows alongside |
| Listing.SelectedRows | server/src/repositories/municipalityUserRepository.ts:44-53 | the rows of the selected ids are exactly the kept rows of the table |
| ReportLifecycle.Lookup | server/src/test/integration/services/reportServiceIntegrationTest.test.ts:569-615 | a NaN id gives "Invalid report ID", an unknown id "Report not found", and a known id its report |
| ReportLifecycle.Approve | server/src/test/integration/services/reportServiceIntegrationTest.test.ts:542-615 | lookup errors first, then "Cannot approve report with status …" for a non-pending report, then "Invalid category"; on success the report is Assigned to the given staff member with no rejection reason and the new category when one was given |
| ReportLifecycle.Reject | server/src/test/integration/services/reportServiceIntegrationTest.test.ts:696-764 | lookup errors first, then "Cannot reject report with status …", then "Rejection reason is required" for a blank reason; on success the report is Rejected with the reason and no assignee |
| ReportLifecycle.UpdatesKeepTableValid | server/src/test/integration/services/reportServiceIntegrationTest.test.ts:542-764 | approving or rejecting keeps every report's status, assignee and reason consistent |
| ReportLifecycle.ApprovedIsFinalForReview | server/src/test/integration/services/reportServiceIntegrationTest.test.ts:576-601 | once approved, a report can be neither approved nor rejected again |
| ReportLifecycle.RejectedIsFinalForReview | server/src/test/integration/services/reportServiceIntegrationTest.test.ts:718-743 | once rejected, a report can be neither approved nor rejected again |
| ReportLifecycle.CannotReviewMessages | server/src/test/integration/services/reportServiceIntegrationTest.test.ts:576-743 | the refusal messages start with "Cannot approve/reject report with status" |
| ReportLifecycle.ReportService.constructor | server/src/test/integration/services/reportServiceIntegrationTest.test.ts:12-102 | the service starts with the given table |
| ReportLifecycle.ReportService.ApproveReport | server/src/test/integration/services/reportServiceIntegrationTest.test.ts:542-615 | the result is `Approve`; only that report changes, and only on success; table validity is kept |
| ReportLifecycle.ReportService.RejectReport | server/src/test/integration/services/reportServiceIntegrationTest.test.ts:696-764 | the result is `Reject`; only that report changes, and only on success; table validity is kept |
| ReportLifecycle.ReportService.GetMyAssignedReports | server/src/test/integration/services/reportServiceIntegrationTest.test.ts:104-264 | exactly the caller's reports, narrowed to the status when one is given, in descending creation time |
| ReportLifecycle.ReportService.GetAllReports | server/src/test/integration/services/reportServiceIntegrationTest.test.ts:324-461 | a non-PRO caller asking for Pending Approval fails with the PRO-only message; otherwise exactly the reports matching the filters, each once (as many results as matching reports), with no pending report for a non-PRO caller |
| TelegramSessions.UserSession.constructor | server/src/telegramBot/reportHandler.ts:35 | a session holds the given step and data |
| TelegramSessions.SessionStore.constructor | server/src/telegramBot/reportHandler.ts:6 | the session table starts empty |
| TelegramSessions.SessionStore.Put | server/src/telegramBot/reportHandler.ts:35 | the chat's entry is set or replaced and every other entry is kept |
| TelegramSessions.SessionStore.Remove | server/src/telegramBot/reportHandler.ts:12 | only the given chat's entry is removed |
| ReportWizards.LocationErrorReply | server/src/telegramBot/reportWizard.ts:28-32 | a bad-request error gives the Turin-boundary reply; every other error the generic one |
| ReportWizards.CoordinatesEffect | server/src/telegramBot/reportWizard.ts:64-78 | a rejected location changes nothing; an accepted one is stored and then reverse-geocoded: on success the address is stored and the wizard moves to the title step with the title prompt, on failure the session keeps its step with only the location added and the reply is the error's message |
| ReportWizards.LocationEffect | server/src/telegramBot/reportWizard.ts:17-34 | a message without a location changes nothing and says so; otherwise the coordinate path runs |
| ReportWizards.AddressEffect | server/src/telegramBot/reportWizard.ts:80-91 | a failed geocode changes nothing; a found address stores its location and address and moves to the title step |
| ReportWizards.LocationInputEffect | server/src/telegramBot/reportWizard.ts:55-62 | the coordinate path is taken exactly when the text parses as coordinates, otherwise the address path |
| ReportWizards.TitleEffect | server/src/telegramBot/reportWizard.ts:93-100 | a blank title re-prompts without change; otherwise the untrimmed title is stored and the description step follows |
| ReportWizards.DescriptionEffect | server/src/telegramBot/reportWizard.ts:102-115 | a blank description re-prompts without change; otherwise it is stored and the category step follows |
| ReportWizards.PhotosCompleteEffect | server/src/telegramBot/reportWizard.ts:117-140 | with no photo the step stays; with at least one it moves to the anonymity step; the data is unchanged |
| ReportWizards.PhotoEffect | server/src/telegramBot/reportWizard.ts:331-362 | a downloaded photo is appended, anything else changes nothing; the step stays; the limit reply appears only with three or more photos |
| ReportWizards.TextEffect | server/src/telegramBot/reportWizard.ts:36-53 | empty text is ignored; otherwise the text goes to the handler of the current step |
| ReportWizards.CategoryOf | server/src/telegramBot/reportWizard.ts:146-151 | the number after the first `_` selects a category exactly when it parses and lies inside the list, and then the category at that index; otherwise no category |
| ReportWizards.CategoryButtonRoundTrip | server/src/telegramBot/reportWizard.ts:109-151 | the button built for the category at an index selects exactly that category |
| ReportWizards.AnonymousEffect | server/src/telegramBot/reportWizard.ts:191-208 | `anon_yes`/`anon_no` set anonymity true/false and move to confirmation; any other data changes nothing |
| ReportWizards.SubmitRequest | server/src/telegramBot/reportWizard.ts:281-289 | a request exists exactly when title and description are set; it carries them trimmed and anonymity defaulting to false |
| ReportWizards.SaveErrorReply | server/src/telegramBot/reportWizard.ts:302-329 | each error class gets its own reply; a bad request is matched against the six message fragments in order, the first fragment it contains choosing the reply, and a message containing none is echoed |
| ReportWizards.SaveEffect | server/src/telegramBot/reportWizard.ts:258-300 | the request is sent only for a known user; the session is dropped exactly when the report was created, and the reply then names it; any failure keeps the session |
| ReportWizards.ConfirmationEffect | server/src/telegramBot/reportWizard.ts:210-221 | `confirm_yes` saves, `confirm_no` drops the session, anything else changes nothing |
| ReportWizards.CallbackEffect | server/src/telegramBot/reportWizard.ts:142-189 | a callback whose prefix does not match the current step changes nothing; `cat_` at the category step stores the chosen category and asks for photos; `done` at the photo step, `anon_` at the anonymity step and `confirm_` at the confirmation step hand over to their handlers |
| ReportWizards.AddressPathSkipsValidation | server/src/telegramBot/reportWizard.ts:80-91 | on the address path the outcome is the same whatever location validation would say |
| ReportWizards.TitleThenDescription | server/src/telegramBot/reportWizard.ts:93-115 | a title and then a description reach the category step with both stored |
| ReportWizards.DoneButtonMatchesFatto | server/src/telegramBot/reportWizard.ts:50-51 | the Done button and the text "Fatto" have the same effect at the photo step |
| ReportWizards.DroppedOnlyByCancelOrSubmit | server/src/telegramBot/reportWizard.ts:210-221 | a callback drops the session exactly on `confirm_no`, or on `confirm_yes` when the report was created |
| ReportWizards.SubmittedRequestShape | server/src/telegramBot/reportWizard.ts:281-289 | confirming sends the trimmed title and description, category, location, address, photos and anonymity |
| ReportWizards.AnonymityChoice | server/src/telegramBot/reportWizard.ts:191-208 | the anonymity buttons set the flag and move to confirmation |
| ReportWizards.PhotosHaveNoCap | server/src/telegramBot/reportWizard.ts:336-354 | any number of photo messages append all their buffers |
| ReportWizards.MiddlewareLocationErrorsRecognised | server/src/telegramBot/reportWizard.ts:302-329 | the validator's location messages are shown as the location reply |
| ReportWizards.ReportWizard.constructor | server/src/telegramBot/reportWizard.ts:15 | the wizard holds the session table whose entries it may remove |
| ReportWizards.ReportWizard.HandleLocation | server/src/telegramBot/reportWizard.ts:17-34 | the session becomes, and the reply is, those of `LocationEffect` |
| ReportWizards.ReportWizard.ProcessCoordinates | server/src/telegramBot/reportWizard.ts:64-78 | the session becomes, and the reply is, those of `CoordinatesEffect` |
| ReportWizards.ReportWizard.ProcessAddress | server/src/telegramBot/reportWizard.ts:80-91 | the session becomes, and the reply is, those of `AddressEffect` |
| ReportWizards.ReportWizard.HandleText | server/src/telegramBot/reportWizard.ts:36-53 | the session becomes, and the reply is, those of `TextEffect` |
| ReportWizards.ReportWizard.PhotosComplete | server/src/telegramBot/reportWizard.ts:117-140 | the session becomes, and the reply is, those of `PhotosCompleteEffect` |
| ReportWizards.ReportWizard.HandlePhotos | server/src/telegramBot/reportWizard.ts:331-362 | the session becomes, and the reply is, those of `PhotoEffect` |
| ReportWizards.ReportWizard.HandleCallbackQuery | server/src/telegramBot/reportWizard.ts:142-189 | the session and the session table change as `CallbackEffect` says, and nothing else |
| ReportWizards.ReportWizard.HandleAnonymous | server/src/telegramBot/reportWizard.ts:191-208 | the session becomes, and the reply is, those of `AnonymousEffect` |
| ReportWizards.ReportWizard.HandleConfirmation | server/src/telegramBot/reportWizard.ts:210-221 | the session table changes as `ConfirmationEffect` says |
| ReportWizards.ReportWizard.SaveReport | server/src/telegramBot/reportWizard.ts:258-300 | the session table changes as `SaveEffect` says |
| ReportHandlers.Apply | server/src/telegramBot/reportHandler.ts:12-35 | a dropped session leaves the table without that chat; otherwise the chat's entry becomes the new state |
| ReportHandlers.Dispatch | server/src/telegramBot/reportHandler.ts:15-75 | each kind of update goes to its handler only when the chat's session is at the right step; no chat other than the sender's gains a session |
| ReportHandlers.OtherChatsUntouched | server/src/telegramBot/reportHandler.ts:45-75 | an update from one chat never changes another chat's session |
| ReportHandlers.NoSessionNoChange | server/src/telegramBot/reportHandler.ts:45-75 | without a session only `/newreport` does anything |
| ReportHandlers.NewReportOpensFreshSession | server/src/telegramBot/reportHandler.ts:15-43 | `/newreport` replaces the chat's session with a fresh one at the location step exactly when the chat has a username of a registered user; without a username nothing changes |
| ReportHandlers.StepGuards | server/src/telegramBot/reportHandler.ts:45-75 | location updates reach the wizard only at the location step, photo updates only at the photo step |
| ReportHandlers.SessionRemovedOnlyOnFinish | server/src/telegramBot/reportHandler.ts:12 | a session disappears exactly on `confirm_no` or on a created report |
| ReportHandlers.PhotosAccumulate | server/src/telegramBot/reportHandler.ts:69-75 | a photo at the photo step appends it to the chat's photos |
| ReportHandlers.LinkAccount | server/src/telegramBot/reportHandler.ts:77-105 | the repository is asked only when the text has exactly two space-separated parts and a six-digit code; every exception gives the same failure reply |
| ReportHandlers.DoubleSpaceRefused | server/src/telegramBot/reportHandler.ts:87-92 | two spaces before the code make three parts, so the command is refused |
| ReportHandlers.SessionUpdated | server/src/telegramBot/reportHandler.ts:6 | changing one session object in place changes only that chat's entry of the table |
| ReportHandlers.SessionRemoved | server/src/telegramBot/reportHandler.ts:12 | deleting one chat leaves the other entries as they were |
| ReportHandlers.ReportHandler.constructor | server/src/telegramBot/reportHandler.ts:6-13 | the handler starts with an empty session table |
| ReportHandlers.ReportHandler.StartReport | server/src/telegramBot/reportHandler.ts:15-43 | the table and the reply become those of the `/newreport` dispatch |
| ReportHandlers.ReportHandler.HandleLocation | server/src/telegramBot/reportHandler.ts:45-51 | the table and the reply become those of the location dispatch |
| ReportHandlers.ReportHandler.HandleText | server/src/telegramBot/reportHandler.ts:53-59 | the table and the reply become those of the text dispatch |
| ReportHandlers.ReportHandler.HandlePhotos | server/src/telegramBot/reportHandler.ts:69-75 | the table and the reply become those of the photo dispatch |
| ReportHandlers.ReportHandler.HandleCallbackQuery | server/src/telegramBot/reportHandler.ts:61-67 | the table and the reply become those of the callback dispatch; a request is sent only from a session |
| RoleMapping.Filter | client/src/utils/roleMapping.js:16-22 | a role is kept exactly when its category is listed, or the list is empty, and it keeps its category |
| RoleMapping.BaseMapping | client/src/utils/roleMapping.js:3-13 | the nine staff roles and their categories; `NineRoles` states its shape |
| RoleMapping.GetRoleDepartmentMapping | client/src/utils/roleMapping.js:1-25 | the loop builds exactly the base mapping filtered by the categories |
| RoleMapping.EmptyListKeepsAll | client/src/utils/roleMapping.js:19-20 | an empty category list keeps the whole mapping |
| RoleMapping.FilterIsRestriction | client/src/utils/roleMapping.js:16-22 | the result is the mapping restricted to some of its roles; no role is added |
| RoleMapping.FilterIdempotent | client/src/utils/roleMapping.js:17-22 | filtering twice with the same list is filtering once |
| RoleMapping.NineRoles | client/src/utils/roleMapping.js:3-13 | the base mapping has exactly the nine roles, two of which share a category |
| RoleMapping.OnlyWaste | client/src/utils/roleMapping.js:3-22 | with only "Waste" listed, only the recycling role remains |
| MunicipalityHome.Normalize | client/src/components/MunicipalityUserHome.jsx:59-61 | each character is lower-cased, with '_' read as a space, and the length is kept |
| MunicipalityHome.NormalizeIdempotent | client/src/components/MunicipalityUserHome.jsx:59-61 | normalising twice is normalising once |
| MunicipalityHome.StatusBadgeVariant | client/src/components/MunicipalityUserHome.jsx:58-77 | a missing status is grey; otherwise the colour is that of the normalised status |
| MunicipalityHome.BadgeIgnoresSpelling | client/src/components/MunicipalityUserHome.jsx:58-69 | the badge of a status equals the badge of its normalised form |
| MunicipalityHome.PendingBadge | client/src/components/MunicipalityUserHome.jsx:58-69 | "PENDING_APPROVAL" and "Pending Approval" both give the warning badge |
| MunicipalityHome.NormalizeEnumSpelling | client/src/components/MunicipalityUserHome.jsx:59-61 | "PENDING_APPROVAL" normalises to "pending approval" |
| MunicipalityHome.NormalizeWireSpelling | client/src/components/MunicipalityUserHome.jsx:59-61 | "Pending Approval" normalises to "pending approval" |
| MunicipalityHome.GreyBadges | client/src/components/MunicipalityUserHome.jsx:58-76 | a status whose normalised form is none of the five coloured spellings is grey |
| MunicipalityHome.UnmappedStatusesGrey | client/src/components/MunicipalityUserHome.jsx:58-76 | "In External Maintenance" and "Suspended" are shown grey |
| MunicipalityHome.DepartmentCategory | client/src/components/MunicipalityUserHome.jsx:79-82 | a category is found exactly for a non-empty role whose lower-case form is mapped, and is that mapping |
| MunicipalityHome.HomeMapping | client/src/components/MunicipalityUserHome.jsx:45-55 | the dashboard's own role table; `RoadMaintenanceDisagreement` states where it differs from the shared one |
| MunicipalityHome.CategoryCaseInsensitive | client/src/components/MunicipalityUserHome.jsx:79-82 | the lookup gives the same answer for a role and its lower-case form |
| MunicipalityHome.RoadMaintenanceDisagreement | client/src/components/MunicipalityUserHome.jsx:48 | the dashboard and the role mapping give road maintenance different categories |
| MunicipalityHome.StatusForApi | client/src/components/MunicipalityUserHome.jsx:85-88 | empty and "All Statuses" give no filter; anything else is passed unchanged |
| MunicipalityHome.SetupFor | client/src/components/MunicipalityUserHome.jsx:264-297 | the administrator and PRO flags hold exactly for those lower-cased role names; a user is staff exactly when they have a role that is neither; staff see only their four statuses and their department's category; only admin and PRO start on "Pending Approval", everyone else on "" |
| MunicipalityHome.StaffStatusesAreStatuses | client/src/components/MunicipalityUserHome.jsx:29-43 | the staff statuses are valid statuses, excluding Pending Approval and Rejected |
| MunicipalityHome.ReviewersStartOnPending | client/src/components/MunicipalityUserHome.jsx:292-297 | administrators and PROs start on the pending filter |
| MunicipalityHome.Synchronise | client/src/components/MunicipalityUserHome.jsx:309-332 | a staff member's category is pulled back to the department's and a status outside the staff list is cleared while a listed or empty one is kept; other users' filters are kept |
| MunicipalityHome.ReviewerFiltersKept | client/src/components/MunicipalityUserHome.jsx:309-332 | non-staff filters are left as chosen |
| MunicipalityHome.SynchroniseIdempotent | client/src/components/MunicipalityUserHome.jsx:309-332 | synchronising twice is synchronising once |
| MunicipalityHome.SortNewestFirst | client/src/components/MunicipalityUserHome.jsx:381 | the array ends up newest first and is a permutation of the loaded reports |
| MunicipalityHome.InsertAt | client/src/components/MunicipalityUserHome.jsx:381 | one insertion step extends the sorted prefix by one cell and permutes the array |
| MunicipalityHome.AcceptReport | client/src/components/MunicipalityUserHome.jsx:407-417 | a failed call, or a result carrying a non-empty error, is rethrown; a `null` result or one with no assignee means no officer found; otherwise the report is accepted with its assignee |
| Registration.ValidEmailMatchesPattern | client/src/pages/register.jsx:42-46 | the left-to-right check accepts exactly `^[^\s@]+@[^\s@]+\.[^\s@]+$` |
| Registration.ValidEmail | client/src/pages/register.jsx:42-46 | the email pattern, read left to right; `ValidEmailMatchesPattern` states that it accepts exactly the pattern's language |
| Registration.Validate | client/src/pages/register.jsx:29-66 | the form passes exactly when every check holds; each of the nine checks, once all earlier ones pass, gives its own message when it fails |
| Registration.ValidEmailNotBlank | client/src/pages/register.jsx:37-46 | a valid email is never blank |
| Registration.LengthsCountSpaces | client/src/pages/register.jsx:47-62 | the length rules count untrimmed characters |
| Registration.PayloadOf | client/src/pages/register.jsx:72-79 | the payload carries the untrimmed fields and always the role "Citizen" |
| Registration.FailureMessage | client/src/pages/register.jsx:90-108 | 409 gives the duplicate message; 400 the server's message or a default; otherwise offline or the server's message or a default |
| Registration.RegisterPage.constructor | client/src/pages/register.jsx:10-20 | the page starts with the form and no banners |
| Registration.RegisterPage.HandleRegister | client/src/pages/register.jsx:23-108 | the payload is sent exactly when validation passes; a failure shows its message; a failed call clears both passwords and shows its message; success shows the success banner |
| UserDetailsEditing.RemoveRole | client/src/components/UserDetails.jsx:36-41 | position i is dropped and the others kept in order; any other index changes nothing |
| UserDetailsEditing.DropIndexIsSlice | client/src/components/UserDetails.jsx:36-41 | filtering out one position is the slice around it |
| UserDetailsEditing.RemoveKeepsDistinct | client/src/components/UserDetails.jsx:36-41 | removing keeps the ids distinct |
| UserDetailsEditing.FindEntry | client/src/components/UserDetails.jsx:47-50 | an entry is found exactly when one matches department and role |
| UserDetailsEditing.FindEntryFirst | client/src/components/UserDetails.jsx:47-50 | the entry found is the first match |
| UserDetailsEditing.AddRole | client/src/components/UserDetails.jsx:47-63 | exactly one entry is appended at the end when a mapping matches and its id is not yet held; otherwise the roles are unchanged |
| UserDetailsEditing.AddKeepsDistinct | client/src/components/UserDetails.jsx:47-63 | adding never duplicates an id |
| UserDetailsEditing.Distinct | client/src/components/UserDetails.jsx:76-80 | the same elements, each once, in order of first occurrence |
| UserDetailsEditing.RolesOf | client/src/components/UserDetails.jsx:76-80 | exactly the roles the catalogue lists for the department |
| UserDetailsEditing.RolesOfSplits | client/src/components/UserDetails.jsx:76-80 | the roles of a joined catalogue are the roles of each part, in catalogue order |
| UserDetailsEditing.AvailableRolesForDept | client/src/components/UserDetails.jsx:76-80 | empty without a department; otherwise the department's roles, each once |
| UserDetailsEditing.RoleEditor.constructor | client/src/components/UserDetails.jsx:13-30 | the editor starts with the user's roles and no selections |
| UserDetailsEditing.RoleEditor.HandleRemoveRole | client/src/components/UserDetails.jsx:36-41 | the roles become `RemoveRole` of the old ones; roles with distinct ids keep distinct ids |
| UserDetailsEditing.RoleEditor.HandleAddRole | client/src/components/UserDetails.jsx:43-67 | nothing changes unless both selections are made; then the roles become `AddRole` and both selections are cleared; roles with distinct ids keep distinct ids |
| ExternalMaintainers.CompanyByParsedId | client/src/components/ExternalMaintainerList.jsx:139-141 | a company is found exactly when the filter parses to some company's id, and it is the first such company |
| ExternalMaintainers.CompanyByIdText | client/src/components/ExternalMaintainerList.jsx:132-136 | a company is found exactly when some company's id text equals the filter, and it is the first such company |
| ExternalMaintainers.WithCompanyName | client/src/components/ExternalMaintainerList.jsx:138-144 | exactly the users whose company name is the given one |
| ExternalMaintainers.WithCompanyNameSplits | client/src/components/ExternalMaintainerList.jsx:138 | filtering distributes over concatenation, so the order is kept |
| ExternalMaintainers.FilteredUsers | client/src/components/ExternalMaintainerList.jsx:138-144 | no filter shows everyone; otherwise exactly the users of the selected company |
| ExternalMaintainers.SelectedCompanyName | client/src/components/ExternalMaintainerList.jsx:132-136 | "All Companies" for an empty or unmatched filter; the company's name otherwise |
| ExternalMaintainers.MenuValuesAgree | client/src/components/ExternalMaintainerList.jsx:132-165 | for the values the menu offers, the list and the heading pick the same company |
| ExternalMaintainers.LookupsCanDisagree | client/src/components/ExternalMaintainerList.jsx:132-144 | the filter "7 " narrows to company 7 while the heading says "All Companies" |
| ExternalMaintainers.RoleIds | client/src/components/ExternalMaintainerList.jsx:88-93 | the roles' ids in order |
| ExternalMaintainers.EditSubmit | client/src/components/ExternalMaintainerList.jsx:77-105 | refused exactly when email, first or last name is blank; otherwise the untrimmed fields and the role ids are sent |
| ExternalMaintainers.DistinctRolesDistinctIds | client/src/components/ExternalMaintainerList.jsx:88-93 | distinct roles give a payload without repeated ids |
| TelegramLinkCountdown.FormatTime | client/src/components/TelegramLinkModal.jsx:84-88 | whole minutes, ':' and the seconds as exactly two digits |
| TelegramLinkCountdown.FormatTimeRoundTrip | client/src/components/TelegramLinkModal.jsx:84-88 | reading the text back gives the seconds, and the seconds field is below 60 |
| TelegramLinkCountdown.Remaining | client/src/components/TelegramLinkModal.jsx:26 | the whole seconds left, rounded down: never negative, zero exactly when less than a second is left, and otherwise r seconds with r*1000 <= left < (r+1)*1000 |
| TelegramLinkCountdown.RemainingMonotone | client/src/components/TelegramLinkModal.jsx:26 | a later instant never shows more time left |
| TelegramLinkCountdown.Countdown.constructor | client/src/components/TelegramLinkModal.jsx:11-13 | no code, no expiry, no time left |
| TelegramLinkCountdown.Countdown.SetCode | client/src/components/TelegramLinkModal.jsx:45-48 | the code and its expiry are set |
| TelegramLinkCountdown.Countdown.Tick | client/src/components/TelegramLinkModal.jsx:21-37 | the time left is recomputed; when it is zero the code and the expiry are cleared, otherwise they are kept |

## Left out

- Telegram and network I/O are not modelled beyond their outcomes: sending messages, downloading photos, geocoding, parsing coordinates, and the bot's launch. They are parameters of `Env`.
- Concurrency: updates are handled one at a time. The awaited calls inside a handler and the unawaited `saveReport` are not interleaved with other updates.
- The confirmation summary text (`showConfirmation`, reportWizard.ts:222-256) with its `toFixed(6)` formatting is reduced to one `Summary` reply.
- The conversion of photo buffers to data URIs is not modelled; buffers are sent as they are.
- The report service implementation is not part of this model; its behaviour is taken from the integration tests. `createReport`, category routing and the choice of assignee are left out, and the assignee is a parameter.
- ReportLifecycle.Approve: the order of the checks (lookup, then status, then category) and the text after "Cannot approve/reject report with status" are assumptions, because the tests check only message prefixes.
- ReportLifecycle.ReportService.GetAllReports: the order of the returned reports is not stated, because the tests assert none.
- ReportLifecycle.ReportService.GetMyAssignedReports and the other newest-first listings break ties in creation time by ascending id; the source does not say how ties are broken.
- The approver's role is not checked by the service model; that check belongs to the routing layer.
- Password hashing is not modelled: `PasswordData` is an opaque salt/hash pair.
- The repository's "User not found after update" error is not modelled, because in a single-threaded table it cannot happen.
- `parseInt` is modelled for decimal text only; a "0x" prefix, which makes JavaScript read hexadecimal, is not.
- Case mapping (`toLowerCase`/`toUpperCase`) is modelled for ASCII letters only.
- UserRole.ts as shown exports no `UserRole` enumeration. The controller's set of valid roles is therefore a parameter of `AssignRoleInput.AssignRole`.
- Mappers.MapPhotos: that each photo's storage URL is copied unchanged is an assumption, because the tests only check that the URL contains the stored one and the mapper implementation is not part of this model.
- MunicipalityUsers.IsMunicipalRole, and with it Create, Update, Delete, FindById, FindUsersByRole and the repository class: the repository compares roles with `UserRole.CITIZEN` and `UserRole.ADMINISTRATOR`, an enumeration UserRole.ts as shown does not export; the model assumes they are spelt "citizen" and "administrator", as the system roles are.
- Mappers.ParseWkt: the number syntax inside `POINT(...)` (an optional '-', digits, an optional fraction) is an assumption, because the mapper implementation is not part of this model.
- The department, role and error DTO mappers (mapperService.unit.test.ts:97-118) only copy fields and are left out.
- `null` and `undefined` for a missing company name are one value, `None`.
- MunicipalityHome.SortNewestFirst: whether the sort is stable is not stated.
- The registration page's redirect to login after a timeout is left out.
- The Telegram link modal's status loading, code generation request and copy-to-clipboard are left out. Only the countdown and its expiry rule are modelled, and the clock is a parameter.
- MunicipalityHome.InsertAt: its contract does not state that the cells after the sorted prefix are unchanged. Only the permutation and the sortedness of the prefix are proved.
- handleRejectReport and the modal update handler of MunicipalityUserHome.jsx are left out; they only forward to the API.

=== FILE: auth.dfy ===
/**
 * The authentication guards of server/src/middleware/auth.js. Each guard either calls `next()`,
 * answers with an HTTP error, or throws while reading `req.user.role` on a missing user.
 */
module Auth {
  import opened Wrappers
  import opened Text

  /** The parts of an Express request the guards read. */
  datatype Request = Request(authenticated: bool, user: Option<SessionUser>)

  datatype SessionUser = SessionUser(role: string)

  datatype Decision =
    | Next                                  // `next()` is called
    | Respond(status: int, error: string)  // `res.status(status).json({ error })`
    | Throws                                // a TypeError escapes the guard

  const NotAuthenticated: Decision := Respond(401, "Not authenticated")

  /** `requiredRole.charAt(0).toUpperCase() + requiredRole.slice(1)` */
  function Capitalize(s: string): (r: string)
    ensures |r| == |s| && (s != [] ==> r[0] == UpperChar(s[0]) && r[1..] == s[1..])
  {
    if s == [] then [] else [UpperChar(s[0])] + s[1..]
  }

  function AccessDenied(requiredRole: string): string {
    "Access denied. " + Capitalize(requiredRole) + " role required."
  }

  function IsLoggedIn(req: Request): (d: Decision)
    ensures d.Next? <==> req.authenticated
    ensures !d.Next? ==> d == NotAuthenticated
  {
    if req.authenticated then Next else NotAuthenticated
  }

  /** The citizen guard; it reads `req.user.role` without checking that a user is present. */
  function IsCitizenGuard(req: Request): (d: Decision)
    ensures !req.authenticated ==> d == NotAuthenticated
    ensures d.Next? <==> req.authenticated && req.user == Some(SessionUser("citizen"))
    ensures d.Throws? <==> req.authenticated && req.user.None?
    ensures d.Respond? && req.authenticated ==> d == Respond(403, "Access denied. Citizen role required.")
  {
    if !req.authenticated then NotAuthenticated
    else if req.user.None? then Throws
    else if req.user.value.role != "citizen" then Respond(403, "Access denied. Citizen role required.")
    else Next
  }

  /** The admin guard; it accepts only the role string "admin". */
  function IsAdminGuard(req: Request): (d: Decision)
    ensures !req.authenticated ==> d == NotAuthenticated
    ensures d.Next? <==> req.authenticated && req.user == Some(SessionUser("admin"))
    ensures d.Throws? <==> req.authenticated && req.user.None?
    ensures d.Respond? && req.authenticated ==> d == Respond(403, "Access denied. Admin role required.")
  {
    if !req.authenticated then NotAuthenticated
    else if req.user.None? then Throws
    else if req.user.value.role != "admin" then Respond(403, "Access denied. Admin role required.")
    else Next
  }

  /** The guard built by `requireRole(requiredRole)`. */
  function RequireRole(requiredRole: string, req: Request): (d: Decision)
    ensures !d.Throws?
    ensures !req.authenticated ==> d == NotAuthenticated
    ensures d.Next? <==> req.authenticated && req.user.Some? && req.user.value.role == requiredRole
    ensures req.authenticated && !d.Next? ==> d == Respond(403, AccessDenied(requiredRole))
  {
    if !req.authenticated then NotAuthenticated
    else if req.user.None? || req.user.value.role != requiredRole then Respond(403, AccessDenied(requiredRole))
    else Next
  }

  /** The two fixed guards are `requireRole` with the role spelled "citizen" and "admin", except on a missing user. */
  lemma FixedGuardsAreRequireRole(req: Request)
    requires !req.authenticated || req.user.Some?
    ensures IsCitizenGuard(req) == RequireRole("citizen", req)
    ensures IsAdminGuard(req) == RequireRole("admin", req)
  {
    CitizenDenial();
    AdminDenial();
  }

  lemma CitizenDenial()
    ensures AccessDenied("citizen") == "Access denied. Citizen role required."
  {
  }

  lemma AdminDenial()
    ensures AccessDenied("admin") == "Access denied. Admin role required."
  {
  }

  /** The 401 answer comes before any role check, whatever the required role. */
  lemma UnauthenticatedFirst(requiredRole: string, req: Request)
    requires !req.authenticated
    ensures IsLoggedIn(req) == IsCitizenGuard(req) == IsAdminGuard(req) == RequireRole(requiredRole, req) == NotAuthenticated
  {
  }
}

=== FILE: error_handler.dfy ===
/** The global error handler (server/src/middleware/errorHandler.js). */
module ErrorHandling {
  import opened Wrappers

  /** The properties of a thrown value the handler reads; `None` is `undefined`. */
  datatype ErrorValue = ErrorValue(
    message: Option<string>,
    statusCode: Option<int>,
    code: Option<string>,
    name: Option<string>,
    stack: Option<string>)

  /** The JSON body; a field holding `undefined` is dropped by `JSON.stringify`, modelled as `None`. */
  datatype Body = Body(error: Option<string>, stack: Option<string>)

  datatype Response = Response(status: int, body: Body)

  predicate TruthyString(s: Option<string>) { s.Some? && s.value != "" }

  predicate TruthyNumber(n: Option<int>) { n.Some? && n.value != 0 }

  /** The status the handler answers with, by priority: validation, constraint, own status, 500. */
  function ExpectedStatus(err: ErrorValue): int {
    if err.name == Some("ValidationError") then 400
    else if err.code == Some("SQLITE_CONSTRAINT") then 409
    else if TruthyNumber(err.statusCode) then err.statusCode.value
    else 500
  }

  /** The message the handler answers with, by the same priority. */
  function ExpectedMessage(err: ErrorValue): Option<string> {
    if err.name == Some("ValidationError") then err.message
    else if err.code == Some("SQLITE_CONSTRAINT") then Some("Database constraint violation")
    else if TruthyString(err.message) then err.message
    else Some("Internal server error")
  }

  /** Overwrites a default status and message rule by rule, as the middleware does. */
  method HandleError(err: ErrorValue, nodeEnv: Option<string>) returns (res: Response)
    ensures res.status == ExpectedStatus(err)
    ensures res.body.error == ExpectedMessage(err)
    ensures res.body.stack == (if nodeEnv == Some("development") then err.stack else None)
  {
    var statusCode := 500;
    var message: Option<string> := Some("Internal server error");

    if TruthyString(err.message) {
      message := err.message;
    }
    if TruthyNumber(err.statusCode) {
      statusCode := err.statusCode.value;
    }
    if err.code == Some("SQLITE_CONSTRAINT") {
      statusCode := 409;
      message := Some("Database constraint violation");
    }
    if err.name == Some("ValidationError") {
      statusCode := 400;
      message := err.message;
    }

    var stack := if nodeEnv == Some("development") then err.stack else None;
    res := Response(statusCode, Body(message, stack));
  }

  /** An error with nothing on it yields 500 "Internal server error". */
  lemma BareErrorIs500(stack: Option<string>)
    ensures ExpectedStatus(ErrorValue(None, None, None, None, stack)) == 500
    ensures ExpectedMessage(ErrorValue(None, None, None, None, stack)) == Some("Internal server error")
  {
  }

  /** The validation rule wins over the constraint rule. */
  lemma ValidationBeatsConstraint(err: ErrorValue)
    requires err.name == Some("ValidationError") && err.code == Some("SQLITE_CONSTRAINT")
    ensures ExpectedStatus(err) == 400 && ExpectedMessage(err) == err.message
  {
  }

  /** The `error` field is present except for a ValidationError that has no message. */
  lemma ErrorFieldPresent(err: ErrorValue)
    ensures ExpectedMessage(err).None? <==> err.name == Some("ValidationError") && err.message.None?
  {
  }
}

=== FILE: errors.dfy ===
/** The error classes the server throws; each carries the message a client eventually sees. */
module Errors {

  datatype AppError =
    | BadRequest(message: string)          // BadRequestError, HTTP 400
    | NotFound(message: string)            // NotFoundError, HTTP 404
    | InsufficientRights(message: string)  // InsufficientRightsError, HTTP 403
    | Unauthorized(message: string)        // UnauthorizedError, HTTP 401
    | Generic(message: string)             // a plain `Error`

  /** What an Express middleware does with a request: pass it on, or hand an error to `next`. */
  datatype Verdict = Next | Fail(error: AppError)
}

=== FILE: external_maintainer_list.dfy ===
/**
 * The list of external maintainers (client/src/components/ExternalMaintainerList.jsx):
 * filtering the maintainers by company, the company named in the filter's heading, and the
 * checks and payload of the edit form.
 */
module ExternalMaintainers {
  import opened Wrappers
  import opened Text
  import UserDetailsEditing

  datatype Company = Company(id: nat, name: string)

  /** A listed maintainer; `companyName` is `None` when the user has no company. */
  datatype Maintainer = Maintainer(id: int, username: string, email: string, companyName: Option<string>)

  const AllCompanies := "All Companies"
  const AllFieldsRequired := "All fields are required"

  // ------------------------------------------------------------------ the company filter

  /** `companies.find(c => c.id === Number.parseInt(filter))`; a `NaN` id matches nothing. */
  function CompanyByParsedId(companies: seq<Company>, filter: string): (r: Option<Company>)
    ensures r.Some? ==> r.value in companies && ParseInt(filter) == Some(r.value.id as int)
    ensures r.None? ==> forall c :: c in companies ==> ParseInt(filter) != Some(c.id as int)
    ensures r.Some? ==> exists k :: 0 <= k < |companies| && companies[k] == r.value
                                    && forall j :: 0 <= j < k ==> ParseInt(filter) != Some(companies[j].id as int)
  {
    if companies == [] then None
    else if ParseInt(filter) == Some(companies[0].id as int) then Some(companies[0])
    else
      assert forall c :: c in companies ==> c == companies[0] || c in companies[1..];
      CompanyByParsedId(companies[1..], filter)
  }

  /** `companies.find(c => c.id.toString() === filter)` */
  function CompanyByIdText(companies: seq<Company>, filter: string): (r: Option<Company>)
    ensures r.Some? ==> r.value in companies && NatToString(r.value.id) == filter
    ensures r.None? ==> forall c :: c in companies ==> NatToString(c.id) != filter
    ensures r.Some? ==> exists k :: 0 <= k < |companies| && companies[k] == r.value
                                    && forall j :: 0 <= j < k ==> NatToString(companies[j].id) != filter
  {
    if companies == [] then None
    else if NatToString(companies[0].id) == filter then Some(companies[0])
    else
      assert forall c :: c in companies ==> c == companies[0] || c in companies[1..];
      CompanyByIdText(companies[1..], filter)
  }

  /** The users whose company name is `name` (`None`: the company was not found). */
  function WithCompanyName(users: seq<Maintainer>, name: Option<string>): (r: seq<Maintainer>)
    ensures |r| <= |users|
    ensures forall u :: u in r <==> u in users && u.companyName == name
  {
    if users == [] then []
    else
      assert forall u :: u in users <==> u == users[0] || u in users[1..];
      (if users[0].companyName == name then [users[0]] else []) + WithCompanyName(users[1..], name)
  }

  /** `filteredUsers`: everyone without a filter, else the users of the selected company. */
  function FilteredUsers(users: seq<Maintainer>, companies: seq<Company>, companyFilter: string)
    : (r: seq<Maintainer>)
    ensures companyFilter == "" ==> r == users
    ensures companyFilter != "" ==>
              var selected := CompanyByParsedId(companies, companyFilter);
              forall u :: u in r <==> u in users && u.companyName == (if selected.Some? then Some(selected.value.name) else None)
  {
    if companyFilter == "" then users
    else
      var selected := CompanyByParsedId(companies, companyFilter);
      WithCompanyName(users, if selected.Some? then Some(selected.value.name) else None)
  }

  /** `getSelectedCompanyName` */
  function SelectedCompanyName(companies: seq<Company>, companyFilter: string): (r: string)
    ensures companyFilter == "" ==> r == AllCompanies
    ensures companyFilter != "" && CompanyByIdText(companies, companyFilter).Some? ==>
              r == CompanyByIdText(companies, companyFilter).value.name
    ensures CompanyByIdText(companies, companyFilter).None? ==> r == AllCompanies
  {
    if companyFilter == "" then AllCompanies
    else
      match CompanyByIdText(companies, companyFilter)
      case Some(c) => c.name
      case None => AllCompanies
  }

  // ------------------------------------------------------------------ properties

  /** Filtering keeps the order of the list: it distributes over concatenation. */
  lemma {:induction false} WithCompanyNameSplits(a: seq<Maintainer>, b: seq<Maintainer>, name: Option<string>)
    ensures WithCompanyName(a + b, name) == WithCompanyName(a, name) + WithCompanyName(b, name)
  {
    if a == [] {
      assert a + b == b;
    } else {
      assert (a + b)[1..] == a[1..] + b;
      WithCompanyNameSplits(a[1..], b, name);
    }
  }

  /**
   * For the values the company menu offers (each company's id as text), the list filter and
   * the heading pick the same company, provided ids are unique.
   */
  lemma MenuValuesAgree(companies: seq<Company>, c: Company)
    requires c in companies
    requires forall i, j :: 0 <= i < j < |companies| ==> companies[i].id != companies[j].id
    ensures CompanyByParsedId(companies, NatToString(c.id)) == Some(c)
    ensures CompanyByIdText(companies, NatToString(c.id)) == Some(c)
    ensures SelectedCompanyName(companies, NatToString(c.id)) == c.name
  {
    var t := NatToString(c.id);
    ParseIntOfNatString(c.id);
    var p := CompanyByParsedId(companies, t);
    var q := CompanyByIdText(companies, t);
    assert p.Some? && q.Some?;
    NatToStringInjective(q.value.id, c.id);
    SameIdSameCompany(companies, p.value, c);
    SameIdSameCompany(companies, q.value, c);
  }

  lemma SameIdSameCompany(companies: seq<Company>, a: Company, b: Company)
    requires a in companies && b in companies && a.id == b.id
    requires forall i, j :: 0 <= i < j < |companies| ==> companies[i].id != companies[j].id
    ensures a == b
  {
    if forall i :: 0 <= i < |companies| ==> companies[i] != a {
      assert false;
    }
    var i :| 0 <= i < |companies| && companies[i] == a;
    if forall j :: 0 <= j < |companies| ==> companies[j] != b {
      assert false;
    }
    var j :| 0 <= j < |companies| && companies[j] == b;
    if i != j {
      assert false;
    }
  }

  lemma NatToStringInjective(m: nat, n: nat)
    requires NatToString(m) == NatToString(n)
    ensures m == n
  {
    NatToStringValue(m);
    NatToStringValue(n);
  }

  /**
   * The two lookups read the filter differently: `parseInt` stops at the first non-digit,
   * `toString` equality does not, so a filter such as "7 " narrows the list to company 7
   * while the heading still says "All Companies".
   */
  lemma LookupsCanDisagree(name: string)
    ensures var companies := [Company(7, name)];
            && CompanyByParsedId(companies, "7 ") == Some(Company(7, name))
            && SelectedCompanyName(companies, "7 ") == AllCompanies
  {
    var t := "7 ";
    assert TrimStart(t) == t by {
      assert !IsSpace(t[0]);
    }
    assert Unsigned(t) == t;
    assert LeadingDigits(t[1..]) == [];
    assert LeadingDigits(t) == "7";
    assert DigitsValue("7") == 7 by {
      assert "7"[..0] == [];
    }
    assert NatToString(7) == "7";
  }

  // ------------------------------------------------------------------ editing

  /** The edit form as `UserDetails` hands it over. */
  datatype EditForm = EditForm(email: string, firstName: string, lastName: string,
                               roles: seq<UserDetailsEditing.RoleEntry>)

  /** The body sent to update the maintainer. */
  datatype EditPayload = EditPayload(email: string, firstName: string, lastName: string,
                                     departmentRoleIds: seq<int>)

  function RoleIds(roles: seq<UserDetailsEditing.RoleEntry>): (ids: seq<int>)
    ensures |ids| == |roles|
    ensures forall i :: 0 <= i < |roles| ==> ids[i] == roles[i].departmentRoleId
  {
    if roles == [] then [] else [roles[0].departmentRoleId] + RoleIds(roles[1..])
  }

  /**
   * `handleEditSubmit` up to the call: a blank email, first name or last name is refused
   * without a call; otherwise the untrimmed fields and the roles' ids, in order, are sent.
   */
  function EditSubmit(f: EditForm): (r: Result<EditPayload, string>)
    ensures r.Err? <==> IsBlank(f.email) || IsBlank(f.firstName) || IsBlank(f.lastName)
    ensures r.Err? ==> r.error == AllFieldsRequired
    ensures r.Ok? ==> r.value.email == f.email && r.value.firstName == f.firstName
                      && r.value.lastName == f.lastName && r.value.departmentRoleIds == RoleIds(f.roles)
  {
    if Trim(f.email) == [] || Trim(f.firstName) == [] || Trim(f.lastName) == [] then Err(AllFieldsRequired)
    else Ok(EditPayload(f.email, f.firstName, f.lastName, RoleIds(f.roles)))
  }

  /** Distinct role ids give a payload without repeated ids. */
  lemma DistinctRolesDistinctIds(f: EditForm)
    requires UserDetailsEditing.DistinctIds(f.roles)
    requires EditSubmit(f).Ok?
    ensures var ids := EditSubmit(f).value.departmentRoleIds;
            forall i, j :: 0 <= i < j < |ids| ==> ids[i] != ids[j]
  {
  }
}

=== FILE: listing.dfy ===
/**
 * Newest-first listings over a table keyed by id, the `ORDER BY createdAt DESC` of the
 * repositories: rows are ordered by creation time, newest first, and rows created at the
 * same instant by ascending id, so that the order is total and the listing deterministic.
 */
module Listing {

  /** Row `a` (created at `ta`) comes before row `b` (created at `tb`). */
  predicate Precedes(ta: int, a: int, tb: int, b: int) {
    ta > tb || (ta == tb && a < b)
  }

  /** `ks` lists ids of `table`, each before every later one in newest-first order. */
  predicate NewestFirst<T>(table: map<int, T>, created: T -> int, ks: seq<int>) {
    && (forall i :: 0 <= i < |ks| ==> ks[i] in table)
    && (forall i, j :: 0 <= i < j < |ks| ==>
          Precedes(created(table[ks[i]]), ks[i], created(table[ks[j]]), ks[j]))
  }

  /** Inserts id `k` into a newest-first list at its place. */
  function Insert<T>(table: map<int, T>, created: T -> int, ks: seq<int>, k: int): (r: seq<int>)
    requires k in table && forall i :: 0 <= i < |ks| ==> ks[i] in table
    ensures |r| == |ks| + 1
    ensures forall x :: x in r <==> x in ks || x == k
    ensures multiset(r) == multiset(ks) + multiset{k}
  {
    if ks == [] then [k]
    else if Precedes(created(table[k]), k, created(table[ks[0]]), ks[0]) then [k] + ks
    else
      assert ks == [ks[0]] + ks[1..];
      [ks[0]] + Insert(table, created, ks[1..], k)
  }

  /** Insertion keeps a newest-first list newest-first. */
  lemma {:induction false} InsertKeepsOrder<T>(table: map<int, T>, created: T -> int, ks: seq<int>, k: int)
    requires k in table && k !in ks && NewestFirst(table, created, ks)
    ensures NewestFirst(table, created, Insert(table, created, ks, k))
  {
    if ks == [] {
    } else if Precedes(created(table[k]), k, created(table[ks[0]]), ks[0]) {
      var r := [k] + ks;
      forall i, j | 0 <= i < j < |r|
        ensures Precedes(created(table[r[i]]), r[i], created(table[r[j]]), r[j])
      {
        if i == 0 && j > 1 {
          assert r[j] == ks[j - 1];
          assert Precedes(created(table[ks[0]]), ks[0], created(table[ks[j - 1]]), ks[j - 1]);
        }
      }
    } else {
      var head := ks[0];
      var rest := Insert(table, created, ks[1..], k);
      InsertKeepsOrder(table, created, ks[1..], k);
      var r := [head] + rest;
      assert head != k;
      forall j | 0 <= j < |rest|
        ensures Precedes(created(table[head]), head, created(table[rest[j]]), rest[j])
      {
        assert rest[j] in rest;
        if rest[j] != k {
          assert rest[j] in ks[1..];
          var m :| 0 <= m < |ks[1..]| && ks[1..][m] == rest[j];
          assert ks[m + 1] == rest[j];
        }
      }
      forall i, j | 0 <= i < j < |r|
        ensures Precedes(created(table[r[i]]), r[i], created(table[r[j]]), r[j])
      {
        if i == 0 {
          assert r[j] == rest[j - 1];
        } else {
          assert r[i] == rest[i - 1] && r[j] == rest[j - 1];
        }
      }
    }
  }

  /**
   * The rows of `table` that `keep` selects, newest first, together with their ids: every
   * selected row appears once, and no other row appears.
   */
  method SelectNewestFirst<T(==)>(table: map<int, T>, keep: T -> bool, created: T -> int)
    returns (ks: seq<int>, rows: seq<T>)
    ensures NewestFirst(table, created, ks)
    ensures forall k :: k in ks <==> k in table && keep(table[k])
    ensures |rows| == |ks| && forall i :: 0 <= i < |ks| ==> rows[i] == table[ks[i]]
    ensures forall r :: r in rows <==> r in table.Values && keep(r)
    ensures |ks| == |Selected(table, keep)|
  {
    var remaining := table.Keys;
    ks := [];
    while remaining != {}
      invariant remaining <= table.Keys
      invariant NewestFirst(table, created, ks)
      invariant forall k :: k in ks <==> k in table && k !in remaining && keep(table[k])
      decreases remaining
    {
      if forall x :: x !in remaining {
        assert false;
      }
      var k :| k in remaining;
      if keep(table[k]) {
        InsertKeepsOrder(table, created, ks, k);
        var ks' := Insert(table, created, ks, k);
        assert forall x :: x in ks' <==> x in ks || x == k by {
          assert forall x :: x in ks' <==> x in multiset(ks');
        }
        ks := ks';
      }
      remaining := remaining - {k};
    }
    rows := [];
    var i := 0;
    while i < |ks|
      invariant 0 <= i <= |ks|
      invariant |rows| == i && forall j :: 0 <= j < i ==> rows[j] == table[ks[j]]
    {
      rows := rows + [table[ks[i]]];
      i := i + 1;
    }
    SelectedRows(table, keep, ks, rows);
    DistinctSize(ks);
    assert (set k | k in ks) == Selected(table, keep);
  }

  /** The ids of the rows a selection keeps. */
  function Selected<T>(table: map<int, T>, keep: T -> bool): set<int> {
    set k | k in table && keep(table[k])
  }

  /** A list without repeated ids has as many elements as the set of its ids. */
  lemma {:induction false} DistinctSize(ks: seq<int>)
    requires forall i, j :: 0 <= i < j < |ks| ==> ks[i] != ks[j]
    ensures |set k | k in ks| == |ks|
  {
    if ks != [] {
      var t := ks[1..];
      DistinctSize(t);
      assert (set k | k in ks) == (set k | k in t) + {ks[0]};
      assert ks[0] !in (set k | k in t);
    }
  }

  /** The rows listed for a selection of ids are exactly the selected rows of the table. */
  lemma SelectedRows<T>(table: map<int, T>, keep: T -> bool, ids: seq<int>, rs: seq<T>)
    requires forall k :: k in ids <==> k in table && keep(table[k])
    requires forall i :: 0 <= i < |ids| ==> ids[i] in table
    requires |rs| == |ids| && forall i :: 0 <= i < |ids| ==> rs[i] == table[ids[i]]
    ensures forall r :: r in rs <==> r in table.Values && keep(r)
  {
    forall r | r in table.Values && keep(r)
      ensures r in rs
    {
      if forall k :: k in table ==> table[k] != r {
        assert false;
      }
      var k :| k in table && table[k] == r;
      assert k in ids;
      if forall i :: 0 <= i < |ids| ==> ids[i] != k {
        assert false;
      }
      var i :| 0 <= i < |ids| && ids[i] == k;
      assert rs[i] == r;
    }
    forall i | 0 <= i < |rs|
      ensures rs[i] in table.Values && keep(rs[i])
    {
      var k := ids[i];
      assert k in ids;
      assert k in table && keep(table[k]);
      assert table[k] in table.Values;
    }
  }
}

=== FILE: mapper.dfy ===
/**
 * The entity-to-response mappers of the server's mapper service, as its unit tests pin them
 * down (server/src/test/unit/services/mapperService.unit.test.ts): users keep their identity
 * fields and list their roles as role and department names; reports carry their location as
 * latitude/longitude, read from a WKT `POINT(longitude latitude)` text when stored that way;
 * an anonymous report never reveals its reporter; error bodies have code, message and name.
 */
module Mappers {
  import opened Wrappers
  import opened Text
  import opened ReportStatuses

  // ------------------------------------------------------------------ users

  /** One of a user's roles: the role held in a department. */
  datatype UserRoleEntity = UserRoleEntity(id: int, roleName: string, departmentName: string)

  datatype UserEntity = UserEntity(
    id: int,
    username: string,
    email: string,
    firstName: string,
    lastName: string,
    userRoles: seq<UserRoleEntity>)

  /** `{role_name, department_name}` of a user response. */
  datatype RoleResponse = RoleResponse(roleName: string, departmentName: string)

  /** The user response; `firstName`/`lastName` are sent as `first_name`/`last_name`. */
  datatype UserResponse = UserResponse(
    id: int,
    username: string,
    email: string,
    firstName: string,
    lastName: string,
    roles: seq<RoleResponse>,
    companyName: Option<string>)

  /** The roles of a user, one response entry per role, in the same order. */
  function MapRoles(rs: seq<UserRoleEntity>): (r: seq<RoleResponse>)
    ensures |r| == |rs|
    ensures forall i :: 0 <= i < |rs| ==>
              r[i].roleName == rs[i].roleName && r[i].departmentName == rs[i].departmentName
  {
    if rs == [] then [] else [RoleResponse(rs[0].roleName, rs[0].departmentName)] + MapRoles(rs[1..])
  }

  /** `mapUserEntityToUserResponse(user, companyName)`: `null` maps to `null`. */
  function MapUser(user: Option<UserEntity>, companyName: Option<string>): (r: Option<UserResponse>)
    ensures r.None? <==> user.None?
    ensures r.Some? ==>
              var u := user.value;
              && r.value.id == u.id && r.value.username == u.username && r.value.email == u.email
              && r.value.firstName == u.firstName && r.value.lastName == u.lastName
              && r.value.roles == MapRoles(u.userRoles)
              && r.value.companyName == companyName
  {
    match user
    case None => None
    case Some(u) => Some(UserResponse(u.id, u.username, u.email, u.firstName, u.lastName,
                                      MapRoles(u.userRoles), companyName))
  }

  // ------------------------------------------------------------------ locations

  /** A location in a response. */
  datatype Point = Point(latitude: real, longitude: real)

  /** How a report's location is stored: WKT text, or already as an object. */
  datatype StoredLocation = WktText(text: string) | LatLng(latitude: real, longitude: real)

  function Pow10(n: nat): (r: nat)
    ensures r >= 1
  {
    if n == 0 then 1 else 10 * Pow10(n - 1)
  }

  /** A decimal number without sign: digits, optionally followed by `.` and more digits. */
  function UnsignedDecimal(t: string): (r: Option<real>)
    ensures r.Some? ==> t != [] && IsDigit(t[0])
    ensures r.Some? ==> r.value >= 0.0
  {
    if '.' in t then
      var k := IndexOf(t, '.');
      var whole := t[..k];
      var fraction := t[k + 1..];
      if whole != [] && AllDigits(whole) && fraction != [] && AllDigits(fraction) then
        assert t[0] == whole[0];
        Some(DigitsValue(whole) as real + DigitsValue(fraction) as real / Pow10(|fraction|) as real)
      else None
    else if t != [] && AllDigits(t) then Some(DigitsValue(t) as real)
    else None
  }

  /** A decimal number with an optional leading minus sign. */
  function ParseNumber(t: string): (r: Option<real>)
    ensures r.Some? ==> t != []
    ensures r.Some? && t[0] != '-' ==> r == UnsignedDecimal(t)
    ensures r.Some? && t[0] == '-' ==> UnsignedDecimal(t[1..]).Some? && r.value == -UnsignedDecimal(t[1..]).value
  {
    if t != [] && t[0] == '-' then
      (match UnsignedDecimal(t[1..])
       case None => None
       case Some(v) => Some(-v))
    else UnsignedDecimal(t)
  }

  /**
   * A WKT point `POINT(x y)`: the first number is the longitude, the second the latitude;
   * anything else is not a point.
   */
  function ParseWkt(s: string): (r: Option<Point>)
    ensures r.Some? ==> StartsWith(s, "POINT(") && s[|s| - 1] == ')'
  {
    if |s| >= 7 && s[..6] == "POINT(" && s[|s| - 1] == ')' then
      var parts := Split(s[6..|s| - 1], ' ');
      if |parts| == 2 && ParseNumber(parts[0]).Some? && ParseNumber(parts[1]).Some? then
        Some(Point(ParseNumber(parts[1]).value, ParseNumber(parts[0]).value))
      else None
    else None
  }

  /** The WKT text of a point whose longitude and latitude are written `lon` and `lat`. */
  function WktPoint(lon: string, lat: string): string {
    "POINT(" + lon + " " + lat + ")"
  }

  /** The location of a report response. */
  function MapLocation(l: StoredLocation): (r: Option<Point>)
    ensures l.LatLng? ==> r == Some(Point(l.latitude, l.longitude))
    ensures l.WktText? ==> r == ParseWkt(l.text)
  {
    match l
    case WktText(text) => ParseWkt(text)
    case LatLng(lat, lon) => Some(Point(lat, lon))
  }

  // ------------------------------------------------------------------ reports

  datatype PhotoEntity = PhotoEntity(id: int, storageUrl: string, createdAt: int)

  datatype ReportEntity = ReportEntity(
    id: int,
    title: string,
    description: string,
    category: string,
    location: StoredLocation,
    isAnonymous: bool,
    status: ReportStatus,
    reporterId: Option<int>,
    reporter: Option<UserEntity>,
    assigneeId: Option<int>,
    assignee: Option<UserEntity>,
    photos: seq<PhotoEntity>)

  datatype PhotoResponse = PhotoResponse(id: int, storageUrl: string)

  datatype ReportResponse = ReportResponse(
    id: int,
    title: string,
    description: string,
    category: string,
    location: Option<Point>,
    isAnonymous: bool,
    status: ReportStatus,
    reporterId: Option<int>,
    reporter: Option<UserResponse>,
    assigneeId: Option<int>,
    assignee: Option<UserResponse>,
    photos: seq<PhotoResponse>)

  function MapPhotos(ps: seq<PhotoEntity>): (r: seq<PhotoResponse>)
    ensures |r| == |ps|
    ensures forall i :: 0 <= i < |ps| ==> r[i].id == ps[i].id && r[i].storageUrl == ps[i].storageUrl
  {
    if ps == [] then [] else [PhotoResponse(ps[0].id, ps[0].storageUrl)] + MapPhotos(ps[1..])
  }

  /** `mapReportEntityToReportResponse`: an anonymous report has neither reporter nor reporter id. */
  function MapReport(e: ReportEntity): (r: ReportResponse)
    ensures r.id == e.id && r.title == e.title && r.description == e.description
    ensures r.category == e.category && r.status == e.status && r.isAnonymous == e.isAnonymous
    ensures r.location == MapLocation(e.location)
    ensures e.isAnonymous ==> r.reporterId.None? && r.reporter.None?
    ensures !e.isAnonymous ==> r.reporterId == e.reporterId && r.reporter == MapUser(e.reporter, None)
    ensures r.assigneeId == e.assigneeId && r.assignee == MapUser(e.assignee, None)
    ensures r.photos == MapPhotos(e.photos)
  {
    ReportResponse(e.id, e.title, e.description, e.category, MapLocation(e.location), e.isAnonymous,
                   e.status,
                   if e.isAnonymous then None else e.reporterId,
                   if e.isAnonymous then None else MapUser(e.reporter, None),
                   e.assigneeId, MapUser(e.assignee, None), MapPhotos(e.photos))
  }

  // ------------------------------------------------------------------ properties

  /** A number is made of a sign, digits and a dot only, so it holds no space. */
  lemma NumberHasNoSpace(t: string)
    requires ParseNumber(t).Some?
    ensures ' ' !in t && ')' !in t
  {
    var u := if t[0] == '-' then t[1..] else t;
    UnsignedDecimalChars(u);
    forall i | 0 <= i < |t|
      ensures t[i] != ' ' && t[i] != ')'
    {
      if t[0] == '-' && i > 0 {
        assert t[i] == u[i - 1];
      } else if t[0] != '-' {
        assert t[i] == u[i];
      }
    }
  }

  /** Reading the WKT text of a point gives back its two numbers, longitude first. */
  lemma WktRoundTrip(lon: string, lat: string)
    requires ParseNumber(lon).Some? && ParseNumber(lat).Some?
    ensures ParseWkt(WktPoint(lon, lat)) == Some(Point(ParseNumber(lat).value, ParseNumber(lon).value))
  {
    NumberHasNoSpace(lon);
    NumberHasNoSpace(lat);
    var s := WktPoint(lon, lat);
    assert s[..6] == "POINT(";
    assert s[6..|s| - 1] == lon + [' '] + lat;
    SplitJoined(lon, lat, ' ');
  }

  /** The mapper test's point: `POINT(10 20)` is longitude 10, latitude 20. */
  lemma PointTenTwenty()
    ensures MapLocation(WktText("POINT(10 20)")) == Some(Point(20.0, 10.0))
  {
    TenTwentyText();
    TenTwentyNumbers();
  }

  lemma TenTwentyText()
    ensures WktPoint("10", "20") == "POINT(10 20)"
  {
  }

  lemma TenTwentyNumbers()
    ensures ParseWkt(WktPoint("10", "20")) == Some(Point(20.0, 10.0))
  {
    ParseTen();
    ParseTwenty();
    WktRoundTrip("10", "20");
  }

  lemma ParseTen()
    ensures ParseNumber("10") == Some(10.0)
  {
    DecimalTwoDigits('1', '0');
    assert "10" == ['1', '0'];
  }

  lemma ParseTwenty()
    ensures ParseNumber("20") == Some(20.0)
  {
    DecimalTwoDigits('2', '0');
    assert "20" == ['2', '0'];
  }

  lemma DecimalTwoDigits(a: char, b: char)
    requires IsDigit(a) && IsDigit(b)
    ensures ParseNumber([a, b]) == Some((10 * DigitValue(a) + DigitValue(b)) as real)
  {
    var t := [a, b];
    assert '.' !in t;
    assert t[..1] == [a];
    assert DigitsValue([a]) == DigitValue(a) by {
      assert [a][..0] == [];
    }
  }

  /** Whole numbers written by `toString` are read back, with or without a minus sign. */
  lemma ParseNumberOfNatString(n: nat)
    ensures ParseNumber(NatToString(n)) == Some(n as real)
    ensures ParseNumber("-" + NatToString(n)) == Some(-(n as real))
  {
    var s := NatToString(n);
    NatToStringValue(n);
    assert '.' !in s by {
      assert forall i :: 0 <= i < |s| ==> IsDigit(s[i]);
    }
    assert ("-" + s)[1..] == s;
  }

  /**
   * Masking is complete: the reporter of an anonymous report, whoever it is, has no effect
   * on the response.
   */
  lemma AnonymousReporterHidden(e: ReportEntity, reporterId: Option<int>, reporter: Option<UserEntity>)
    requires e.isAnonymous
    ensures MapReport(e.(reporterId := reporterId, reporter := reporter)) == MapReport(e)
  {
  }

  /** The user of the mapper test: one role, `Manager` in `Dep1`. */
  lemma UserWithOneRole(id: int, username: string, email: string, first: string, last: string)
    ensures var r := MapUser(Some(UserEntity(id, username, email, first, last,
                                             [UserRoleEntity(1, "Manager", "Dep1")])), None);
            && r.Some? && |r.value.roles| == 1
            && r.value.roles[0] == RoleResponse("Manager", "Dep1")
  {
  }

  /** An unsigned decimal is made of digits and at most a dot. */
  lemma UnsignedDecimalChars(t: string)
    requires UnsignedDecimal(t).Some?
    ensures forall i :: 0 <= i < |t| ==> IsDigit(t[i]) || t[i] == '.'
  {
    if '.' in t {
      var k := IndexOf(t, '.');
      forall i | 0 <= i < |t|
        ensures IsDigit(t[i]) || t[i] == '.'
      {
        if i < k {
          assert t[i] == t[..k][i];
        } else if i > k {
          assert t[i] == t[k + 1..][i - k - 1];
        }
      }
    }
  }
}

=== FILE: municipality_user_controller.dfy ===
/** The input checks of `assignRole` (server/src/controllers/municipalityUserController.ts). */
module AssignRoleInput {
  import opened Wrappers
  import opened Text
  import opened Errors

  /** The call made to the service once every check passes. */
  datatype AssignCall = AssignCall(userId: int, role: string)

  const InvalidUserId: string := "Invalid user ID"
  const RoleRequired: string := "Role is required"
  const InvalidRole: string := "Invalid role specified"

  /**
   * `parseInt(req.params.id)` must be a number, `req.body.role` must be truthy and one of the
   * role values; `roleValues` stands for `Object.values(UserRole)`.
   */
  function AssignRole(idParam: string, role: Option<string>, roleValues: set<string>): (r: Result<AssignCall, AppError>)
    ensures ParseInt(idParam).None? ==> r == Err(BadRequest(InvalidUserId))
    ensures ParseInt(idParam).Some? && (role.None? || role == Some("")) ==> r == Err(BadRequest(RoleRequired))
    ensures r == Err(BadRequest(InvalidRole)) <==>
              ParseInt(idParam).Some? && role.Some? && role.value != "" && role.value !in roleValues
    ensures r.Ok? <==> ParseInt(idParam).Some? && role.Some? && role.value != "" && role.value in roleValues
    ensures r.Ok? ==> r.value == AssignCall(ParseInt(idParam).value, role.value)
  {
    var userId := ParseInt(idParam);
    if userId.None? then Err(BadRequest(InvalidUserId))
    else if role.None? || role.value == "" then Err(BadRequest(RoleRequired))
    else if role.value !in roleValues then Err(BadRequest(InvalidRole))
    else Ok(AssignCall(userId.value, role.value))
  }

  /** A rendered numeric id is always accepted as the same id. */
  lemma NumericIdAccepted(id: nat, role: string, roleValues: set<string>)
    requires role != "" && role in roleValues
    ensures AssignRole(NatToString(id), Some(role), roleValues) == Ok(AssignCall(id, role))
  {
    ParseIntOfNatString(id);
  }
}

=== FILE: municipality_user_home.dfy ===
/**
 * The report dashboard of municipality users (client/src/components/MunicipalityUserHome.jsx):
 * the status badge colours, the role-to-category lookup, the status and category filters
 * each kind of user starts with and is held to, the newest-first ordering of loaded reports,
 * and how the outcome of accepting a report is read.
 */
module MunicipalityHome {
  import opened Wrappers
  import opened Text
  import opened ReportStatuses
  import RoleMapping

  // ------------------------------------------------------------------ status badges

  datatype BadgeVariant = Success | Primary | Info | Warning | Danger | Secondary

  /** `status.replaceAll("_", " ").toLowerCase()` */
  function Normalize(status: string): (r: string)
    ensures |r| == |status|
    ensures forall i :: 0 <= i < |r| ==> r[i] == LowerChar(if status[i] == '_' then ' ' else status[i])
  {
    Lower(ReplaceAll(status, '_', ' '))
  }

  /** `getStatusBadgeVariant`: the colour of a status; a missing or unknown one is grey. */
  function StatusBadgeVariant(status: Option<string>): (v: BadgeVariant)
    ensures status.None? ==> v == Secondary
    ensures status.Some? ==>
              && (v == Success <==> Normalize(status.value) == "resolved")
              && (v == Primary <==> Normalize(status.value) == "assigned")
              && (v == Info <==> Normalize(status.value) == "in progress")
              && (v == Warning <==> Normalize(status.value) == "pending approval")
              && (v == Danger <==> Normalize(status.value) == "rejected")
  {
    if status.None? then Secondary
    else
      var n := Normalize(status.value);
      if n == "resolved" then Success
      else if n == "assigned" then Primary
      else if n == "in progress" then Info
      else if n == "pending approval" then Warning
      else if n == "rejected" then Danger
      else Secondary
  }

  // ------------------------------------------------------------------ role categories

  /**
   * This component's own role-to-category table. It differs from the shared one in
   * `RoleMapping` for the road maintenance role.
   */
  function HomeMapping(): map<string, string> {
    map[
      "water network staff member" := "Water Supply - Drinking Water",
      "sewer system staff member" := "Sewer System",
      "road maintenance staff member" := "Road Signs and Traffic Lights",
      "traffic management staff member" := "Road Signs and Traffic Lights",
      "electrical staff member" := "Public Lighting",
      "building maintenance staff member" := "Architectural Barriers",
      "accessibility staff member" := "Architectural Barriers",
      "recycling program staff member" := "Waste",
      "parks maintenance staff member" := "Public Green Areas and Playgrounds"
    ]
  }

  /** `getDepartmentCategory`: the category of a role, looked up in lower case. */
  function DepartmentCategory(roleName: Option<string>): (r: Option<string>)
    ensures r.Some? <==> roleName.Some? && roleName.value != [] && Lower(roleName.value) in HomeMapping()
    ensures r.Some? ==> r.value == HomeMapping()[Lower(roleName.value)]
  {
    if roleName.None? || roleName.value == [] then None
    else if Lower(roleName.value) in HomeMapping() then Some(HomeMapping()[Lower(roleName.value)])
    else None
  }

  /** `formatStatusForApi`: no status filter for an empty choice or "All Statuses". */
  function StatusForApi(uiStatus: Option<string>): (r: Option<string>)
    ensures r.None? <==> uiStatus.None? || uiStatus.value == "" || uiStatus.value == "All Statuses"
    ensures r.Some? ==> r == uiStatus
  {
    if uiStatus.None? || uiStatus.value == "" || uiStatus.value == "All Statuses" then None else uiStatus
  }

  // ------------------------------------------------------------------ filters

  /** The statuses offered to administrators and public relations officers. */
  const AllStatuses: seq<string> :=
    ["Pending Approval", "Assigned", "In Progress", "Suspended", "Rejected", "Resolved"]

  /** The statuses offered to technical staff. */
  const StaffStatuses: seq<string> := ["Assigned", "In Progress", "Suspended", "Resolved"]

  /** What the dashboard derives from the user's role name and starts its filters with. */
  datatype Setup = Setup(
    isAdministrator: bool,
    isPublicRelations: bool,
    isStaffMember: bool,
    departmentCategory: Option<string>,
    availableStatuses: seq<string>,
    categoryFilter: string,
    statusFilter: string)

  function SetupFor(roleName: Option<string>): (s: Setup)
    ensures s.isStaffMember <==>
              roleName.Some? && roleName.value != []
              && Lower(roleName.value) != "administrator"
              && Lower(roleName.value) != "municipal public relations officer"
    ensures s.isAdministrator <==> roleName.Some? && Lower(roleName.value) == "administrator"
    ensures s.isPublicRelations <==> roleName.Some? && Lower(roleName.value) == "municipal public relations officer"
    ensures s.isStaffMember ==> !s.isAdministrator && !s.isPublicRelations
    ensures s.availableStatuses == (if s.isStaffMember then StaffStatuses else AllStatuses)
    ensures s.departmentCategory == (if s.isStaffMember then DepartmentCategory(roleName) else None)
    ensures s.categoryFilter == (if s.departmentCategory.Some? then s.departmentCategory.value else "")
    ensures s.statusFilter == (if s.isAdministrator || s.isPublicRelations then "Pending Approval" else "")
  {
    var userRole := if roleName.Some? then Lower(roleName.value) else "";
    var isAdministrator := userRole == "administrator";
    var isPublicRelations := userRole == "municipal public relations officer";
    var isStaff := userRole != "" && !isAdministrator && !isPublicRelations;
    var category := if isStaff then DepartmentCategory(roleName) else None;
    Setup(isAdministrator, isPublicRelations, isStaff, category,
          if isStaff then StaffStatuses else AllStatuses,
          if category.Some? then category.value else "",
          if isAdministrator || isPublicRelations then "Pending Approval" else "")
  }

  /**
   * The synchronising effect: a staff member's category is pinned to the department's and a
   * status outside the staff list is cleared; for administrators and public relations
   * officers a category equal to the (missing) department category is cleared.
   */
  function Synchronise(roleName: Option<string>, categoryFilter: string, statusFilter: string)
    : (r: (string, string))
    ensures var s := SetupFor(roleName);
            s.isStaffMember ==>
              r.0 == (if s.departmentCategory.Some? then s.departmentCategory.value else "")
              && r.1 == (if statusFilter in StaffStatuses || statusFilter == "" then statusFilter else "")
              && (r.1 in StaffStatuses || r.1 == "")
    ensures !SetupFor(roleName).isStaffMember ==> r == (categoryFilter, statusFilter)
  {
    var s := SetupFor(roleName);
    if s.isStaffMember && !s.isPublicRelations && !s.isAdministrator then
      (if Some(categoryFilter) != s.departmentCategory
       then (if s.departmentCategory.Some? then s.departmentCategory.value else "")
       else categoryFilter,
       if statusFilter !in StaffStatuses && statusFilter != "" then "" else statusFilter)
    else if s.isAdministrator || s.isPublicRelations then
      (if Some(categoryFilter) == s.departmentCategory then "" else categoryFilter, statusFilter)
    else (categoryFilter, statusFilter)
  }

  // ------------------------------------------------------------------ loaded reports

  datatype ReportRow = ReportRow(id: int, title: string, category: string, status: string, createdAt: int)

  predicate NewestFirst(rows: seq<ReportRow>) {
    forall i, j :: 0 <= i < j < |rows| ==> rows[i].createdAt >= rows[j].createdAt
  }

  /** `formattedReports.sort((a, b) => b.createdAt - a.createdAt)`, in place. */
  method SortNewestFirst(a: array<ReportRow>)
    modifies a
    ensures NewestFirst(a[..])
    ensures multiset(a[..]) == multiset(old(a[..]))
  {
    if a.Length == 0 {
      return;
    }
    var i := 1;
    while i < a.Length
      invariant 1 <= i <= a.Length
      invariant NewestFirst(a[..i])
      invariant multiset(a[..]) == multiset(old(a[..]))
    {
      InsertAt(a, i);
      i := i + 1;
    }
  }

  /** Moves `a[i]` left past every older row, so that `a[..i + 1]` is newest first. */
  method InsertAt(a: array<ReportRow>, i: int)
    requires 1 <= i < a.Length && NewestFirst(a[..i])
    modifies a
    ensures NewestFirst(a[..i + 1])
    ensures multiset(a[..]) == multiset(old(a[..]))
  {
    var j := i;
    while j > 0 && a[j - 1].createdAt < a[j].createdAt
      invariant 0 <= j <= i
      invariant multiset(a[..]) == multiset(old(a[..]))
      invariant forall p, q :: 0 <= p < q <= i && q != j ==> a[p].createdAt >= a[q].createdAt
      invariant 0 < j < i ==> a[j - 1].createdAt >= a[j + 1].createdAt
    {
      SwapDown(a, j);
      j := j - 1;
    }
  }

  /** Exchanges `a[j - 1]` and `a[j]`. */
  method SwapDown(a: array<ReportRow>, j: int)
    requires 0 < j < a.Length
    modifies a
    ensures a[j - 1] == old(a[j]) && a[j] == old(a[j - 1])
    ensures forall k :: 0 <= k < a.Length && k != j - 1 && k != j ==> a[k] == old(a[k])
    ensures multiset(a[..]) == multiset(old(a[..]))
  {
    a[j - 1], a[j] := a[j], a[j - 1];
  }

  // ------------------------------------------------------------------ accepting a report

  datatype Assignee = Assignee(id: int, username: string)

  /** The body `updateReportStatus` resolves with. */
  datatype UpdateResult = UpdateResult(error: Option<string>, assignee: Option<Assignee>)

  datatype AcceptOutcome = Rethrown(message: string) | NoOfficerFound | Accepted(assignee: Assignee)

  /**
   * `handleAcceptReport`, given what the status update returned (`Ok`, possibly `null`) or
   * threw (`Err`): errors are rethrown, a result without assignee means no officer was found.
   */
  function AcceptReport(call: Result<Option<UpdateResult>, string>): (r: AcceptOutcome)
    ensures call.Err? ==> r == Rethrown(call.error)
    ensures r.Accepted? <==>
              call.Ok? && call.value.Some? && call.value.value.assignee.Some?
              && (call.value.value.error.None? || call.value.value.error.value == "")
    ensures r.Accepted? ==> r.assignee == call.value.value.assignee.value
    ensures (call.Ok? && (call.value.None? || (call.value.value.assignee.None?
             && (call.value.value.error.None? || call.value.value.error.value == ""))))
              ==> r == NoOfficerFound
    ensures call.Ok? && call.value.Some? && call.value.value.error.Some? && call.value.value.error.value != "" ==>
              r == Rethrown(call.value.value.error.value)
  {
    match call
    case Err(e) => Rethrown(e)
    case Ok(None) => NoOfficerFound
    case Ok(Some(result)) =>
      if result.error.Some? && result.error.value != "" then Rethrown(result.error.value)
      else if result.assignee.None? then NoOfficerFound
      else Accepted(result.assignee.value)
  }

  // ------------------------------------------------------------------ properties

  /** Normalising twice is normalising once. */
  lemma NormalizeIdempotent(s: string)
    ensures Normalize(Normalize(s)) == Normalize(s)
  {
  }

  /** The badge ignores case and treats `_` as a space. */
  lemma BadgeIgnoresSpelling(s: string)
    ensures StatusBadgeVariant(Some(s)) == StatusBadgeVariant(Some(Normalize(s)))
  {
    NormalizeIdempotent(s);
  }

  /** The enum spelling and the wire spelling of a pending status are both shown in yellow. */
  lemma PendingBadge(status: string)
    requires status == "PENDING_APPROVAL" || status == Wire(PendingApproval)
    ensures StatusBadgeVariant(Some(status)) == Warning
  {
    if status == "PENDING_APPROVAL" {
      NormalizeEnumSpelling(status);
    } else {
      NormalizeWireSpelling(status);
    }
  }

  lemma NormalizeEnumSpelling(status: string)
    requires status == "PENDING_APPROVAL"
    ensures Normalize(status) == "pending approval"
  {
  }

  lemma NormalizeWireSpelling(status: string)
    requires status == Wire(PendingApproval)
    ensures Normalize(status) == "pending approval"
  {
  }

  /** A status whose normalised form is none of the five coloured spellings is grey. */
  lemma GreyBadges(status: string)
    requires Normalize(status) != "resolved" && Normalize(status) != "assigned"
    requires Normalize(status) != "in progress" && Normalize(status) != "pending approval"
    requires Normalize(status) != "rejected"
    ensures StatusBadgeVariant(Some(status)) == Secondary
  {
  }

  /** The two statuses the colour table leaves out, external maintenance and suspended, are grey. */
  lemma UnmappedStatusesGrey()
    ensures StatusBadgeVariant(Some(Wire(InExternalMaintenance))) == Secondary
    ensures StatusBadgeVariant(Some(Wire(Suspended))) == Secondary
  {
    assert |Normalize(Wire(InExternalMaintenance))| == 23;
    assert |Normalize(Wire(Suspended))| == 9;
    GreyBadges(Wire(InExternalMaintenance));
    GreyBadges(Wire(Suspended));
  }

  /** The category lookup does not care about the case of the role name. */
  lemma CategoryCaseInsensitive(roleName: string)
    ensures DepartmentCategory(Some(roleName)) == DepartmentCategory(Some(Lower(roleName)))
  {
    assert Lower(Lower(roleName)) == Lower(roleName);
  }

  /** The two role tables of the client disagree on the road maintenance role. */
  lemma RoadMaintenanceDisagreement()
    ensures HomeMapping()["road maintenance staff member"] == "Road Signs and Traffic Lights"
    ensures RoleMapping.BaseMapping()["road maintenance staff member"] == "Roads and Urban Furnishings"
  {
  }

  /** Staff only ever filter by the four statuses of work in hand, all of them real statuses. */
  lemma StaffStatusesAreStatuses()
    ensures forall s :: s in StaffStatuses ==> s in AllStatuses && Parse(s).Some?
    ensures "Pending Approval" !in StaffStatuses && "Rejected" !in StaffStatuses
  {
    assert Parse("Assigned") == Some(Assigned);
    assert Parse("In Progress") == Some(InProgress);
    assert Parse("Suspended") == Some(Suspended);
    assert Parse("Resolved") == Some(ReportStatus.Resolved);
  }

  /** Administrators and public relations officers start on the pending reports. */
  lemma ReviewersStartOnPending(roleName: string)
    requires Lower(roleName) == "administrator" || Lower(roleName) == "municipal public relations officer"
    ensures var s := SetupFor(Some(roleName));
            && !s.isStaffMember && s.statusFilter == "Pending Approval" && s.categoryFilter == ""
            && s.availableStatuses == AllStatuses
  {
  }

  /** For everyone but technical staff the filters are left as chosen. */
  lemma ReviewerFiltersKept(roleName: Option<string>, categoryFilter: string, statusFilter: string)
    requires !SetupFor(roleName).isStaffMember
    ensures Synchronise(roleName, categoryFilter, statusFilter) == (categoryFilter, statusFilter)
  {
  }

  /** Synchronising a second time changes nothing. */
  lemma SynchroniseIdempotent(roleName: Option<string>, categoryFilter: string, statusFilter: string)
    ensures var r := Synchronise(roleName, categoryFilter, statusFilter);
            Synchronise(roleName, r.0, r.1) == r
  {
  }
}

=== FILE: municipality_user_repository.dfy ===
/**
 * The municipality-user table (server/src/repositories/municipalityUserRepository.ts): the
 * staff accounts of the municipality, stored in the same user table as citizens and
 * administrators, but never created, read, changed or deleted through this repository when
 * their role is citizen or administrator.
 *
 * `Create`, `Update` and `Delete` specify the three writes on a table value;
 * `MunicipalityUserRepository` holds the table and applies them in place.
 */
module MunicipalityUsers {
  import opened Wrappers
  import opened Text
  import opened Errors
  import opened UserRoles
  import Listing

  /** A stored user row. There is no plaintext password field. */
  datatype User = User(
    id: int,
    username: string,
    email: string,
    firstName: string,
    lastName: string,
    role: string,
    passwordHash: string,
    createdAt: int,
    updatedAt: Option<int>)

  /** The data `createMunicipalityUser` receives: the row's fields plus a plaintext password. */
  datatype NewUser = NewUser(
    username: string,
    email: string,
    firstName: string,
    lastName: string,
    role: string,
    password: string)

  /** The `Partial<...>` of `updateMunicipalityUser`: each field is either given or left alone. */
  datatype UserPatch = UserPatch(
    username: Option<string>,
    email: Option<string>,
    firstName: Option<string>,
    lastName: Option<string>,
    role: Option<string>)

  /** What the password utility returns for a password; how it is computed is not modelled. */
  datatype PasswordData = PasswordData(salt: string, hash: string)

  const CannotCreate := "Cannot create Citizen or Administrator through municipality user repository"
  const CannotModify := "Municipality user not found or cannot be modified"
  const CannotDelete := "Municipality user not found or cannot be deleted"
  const CannotQuery := "Cannot query Citizen or Administrator through municipality user repository"

  /** A role this repository may handle: anything but citizen and administrator. */
  predicate IsMunicipalRole(role: string) {
    role != Citizen && role != Administrator
  }

  /** The stored form of a password: salt and hash joined by a colon. */
  function StoredPassword(pw: PasswordData): (r: string)
    ensures |r| == |pw.salt| + 1 + |pw.hash|
    ensures r[..|pw.salt|] == pw.salt && r[|pw.salt|] == ':' && r[|pw.salt| + 1..] == pw.hash
  {
    pw.salt + ":" + pw.hash
  }

  /** `findMunicipalityUserById`: the row, unless it is missing or a citizen or administrator. */
  function FindById(users: map<int, User>, id: int): (r: Option<User>)
    ensures r.Some? <==> id in users && IsMunicipalRole(users[id].role)
    ensures r.Some? ==> r.value == users[id]
  {
    if id !in users || users[id].role == Citizen || users[id].role == Administrator then None
    else Some(users[id])
  }

  /** `isMunicipalityUser`: written as its own query, it agrees with `FindById`. */
  function IsMunicipalityUser(users: map<int, User>, id: int): (r: bool)
    ensures r <==> FindById(users, id).Some?
  {
    id in users && users[id].role != Citizen && users[id].role != Administrator
  }

  /** `createMunicipalityUser` on a table whose next id is `nextId`. */
  function Create(users: map<int, User>, nextId: int, data: NewUser, pw: PasswordData, now: int)
    : (r: Result<User, AppError>)
    ensures r.Err? <==> !IsMunicipalRole(data.role)
    ensures r.Err? ==> r.error == Generic(CannotCreate)
    ensures r.Ok? ==>
              && r.value.id == nextId
              && r.value.username == data.username && r.value.email == data.email
              && r.value.firstName == data.firstName && r.value.lastName == data.lastName
              && r.value.role == data.role
              && r.value.createdAt == now && r.value.updatedAt.None?
    ensures r.Ok? ==> r.value.passwordHash == StoredPassword(pw)
  {
    if data.role == Citizen || data.role == Administrator then Err(Generic(CannotCreate))
    else
      var u := User(nextId, data.username, data.email, data.firstName, data.lastName, data.role,
                    StoredPassword(pw), now, None);
      Ok(u)
  }

  /** The row after `patch` is applied at time `now`. */
  function Patched(u: User, patch: UserPatch, now: int): (r: User)
    ensures r.id == u.id && r.createdAt == u.createdAt && r.passwordHash == u.passwordHash
    ensures r.updatedAt == Some(now)
    ensures patch.username.Some? ==> r.username == patch.username.value
    ensures patch.username.None? ==> r.username == u.username
    ensures patch.email.Some? ==> r.email == patch.email.value
    ensures patch.email.None? ==> r.email == u.email
    ensures patch.firstName.Some? ==> r.firstName == patch.firstName.value
    ensures patch.firstName.None? ==> r.firstName == u.firstName
    ensures patch.lastName.Some? ==> r.lastName == patch.lastName.value
    ensures patch.lastName.None? ==> r.lastName == u.lastName
    ensures patch.role.Some? ==> r.role == patch.role.value
    ensures patch.role.None? ==> r.role == u.role
  {
    u.(username := patch.username.GetOr(u.username),
       email := patch.email.GetOr(u.email),
       firstName := patch.firstName.GetOr(u.firstName),
       lastName := patch.lastName.GetOr(u.lastName),
       role := patch.role.GetOr(u.role),
       updatedAt := Some(now))
  }

  /** `updateMunicipalityUser`: the row as stored after the update. */
  function Update(users: map<int, User>, id: int, patch: UserPatch, now: int): (r: Result<User, AppError>)
    ensures r.Err? <==> FindById(users, id).None?
    ensures r.Err? ==> r.error == Generic(CannotModify)
    ensures r.Ok? ==> r.value == Patched(users[id], patch, now)
  {
    if FindById(users, id).None? then Err(Generic(CannotModify))
    else Ok(Patched(users[id], patch, now))
  }

  /** `deleteMunicipalityUser`: the table without the row. */
  function Delete(users: map<int, User>, id: int): (r: Result<map<int, User>, AppError>)
    ensures r.Err? <==> FindById(users, id).None?
    ensures r.Err? ==> r.error == Generic(CannotDelete)
    ensures r.Ok? ==> id in users && r.value.Keys == users.Keys - {id}
    ensures r.Ok? ==> forall k :: k in r.value ==> r.value[k] == users[k]
  {
    if FindById(users, id).None? then Err(Generic(CannotDelete))
    else Ok(users - {id})
  }

  /** Every row is stored under its own id, and `nextId` is above every id. */
  predicate TableValid(users: map<int, User>, nextId: int) {
    forall id :: id in users ==> users[id].id == id && id < nextId
  }

  // ------------------------------------------------------------------ properties

  /** A stored password splits at its colon back into the salt and the hash. */
  lemma StoredPasswordSplits(pw: PasswordData)
    ensures ':' !in pw.salt ==> Split(StoredPassword(pw), ':')[0] == pw.salt
    ensures ':' !in pw.salt && ':' !in pw.hash ==> Split(StoredPassword(pw), ':') == [pw.salt, pw.hash]
  {
    if ':' !in pw.salt {
      var s := StoredPassword(pw);
      assert s == pw.salt + [':'] + pw.hash;
      assert Split(s, ':')[0] == s[..IndexOf(s, ':')];
      if ':' !in pw.hash {
        SplitJoined(pw.salt, pw.hash, ':');
      }
    }
  }

  /** A created row can be found again under its id, and it is a municipality user. */
  lemma CreatedIsFound(users: map<int, User>, nextId: int, data: NewUser, pw: PasswordData, now: int)
    requires Create(users, nextId, data, pw, now).Ok?
    ensures var u := Create(users, nextId, data, pw, now).value;
            && FindById(users[nextId := u], nextId) == Some(u)
            && IsMunicipalityUser(users[nextId := u], nextId)
  {
  }

  /**
   * Neither update nor delete can reach a citizen or administrator row; both leave such a
   * row, and every row of another id, as it was.
   */
  lemma SystemRowsUntouchable(users: map<int, User>, id: int, patch: UserPatch, now: int)
    requires id in users && !IsMunicipalRole(users[id].role)
    ensures Update(users, id, patch, now) == Err(Generic(CannotModify))
    ensures Delete(users, id) == Err(Generic(CannotDelete))
  {
  }

  /**
   * The guard looks at the role stored before the update only: a patch may give a
   * municipality user the citizen role, after which the row is out of this repository's reach.
   */
  lemma UpdateCanLeaveMunicipalScope(users: map<int, User>, id: int, now: int)
    requires FindById(users, id).Some?
    ensures var r := Update(users, id, UserPatch(None, None, None, None, Some(Citizen)), now);
            && r.Ok?
            && FindById(users[id := r.value], id).None?
            && Delete(users[id := r.value], id).Err?
  {
  }

  /** Deleting is final: the id can be neither found nor deleted again. */
  lemma DeletedIsGone(users: map<int, User>, id: int)
    requires Delete(users, id).Ok?
    ensures FindById(Delete(users, id).value, id).None?
    ensures Delete(Delete(users, id).value, id) == Err(Generic(CannotDelete))
  {
  }

  // ------------------------------------------------------------------ the repository

  class MunicipalityUserRepository {
    var users: map<int, User>
    var nextId: int

    constructor ()
      ensures users == map[] && nextId == 1
      ensures TableValid(users, nextId)
    {
      users := map[];
      nextId := 1;
    }

    method CreateMunicipalityUser(data: NewUser, pw: PasswordData, now: int) returns (r: Result<User, AppError>)
      requires TableValid(users, nextId)
      modifies this
      ensures r == Create(old(users), old(nextId), data, pw, now)
      ensures r.Err? ==> users == old(users) && nextId == old(nextId)
      ensures r.Ok? ==> old(nextId) !in old(users) && users == old(users)[old(nextId) := r.value]
      ensures TableValid(users, nextId)
    {
      r := Create(users, nextId, data, pw, now);
      if r.Ok? {
        users := users[nextId := r.value];
        nextId := nextId + 1;
      }
    }

    method FindMunicipalityUserById(id: int) returns (r: Option<User>)
      ensures r == FindById(users, id)
    {
      r := FindById(users, id);
    }

    method UpdateMunicipalityUser(id: int, patch: UserPatch, now: int) returns (r: Result<User, AppError>)
      requires TableValid(users, nextId)
      modifies this
      ensures r == Update(old(users), id, patch, now)
      ensures users == (if r.Ok? then old(users)[id := r.value] else old(users))
      ensures nextId == old(nextId)
      ensures TableValid(users, nextId)
    {
      r := Update(users, id, patch, now);
      if r.Ok? {
        users := users[id := r.value];
      }
    }

    method DeleteMunicipalityUser(id: int) returns (r: Result<(), AppError>)
      requires TableValid(users, nextId)
      modifies this
      ensures r.Err? <==> Delete(old(users), id).Err?
      ensures r.Err? ==> r.error == Generic(CannotDelete) && users == old(users)
      ensures r.Ok? ==> users == old(users) - {id}
      ensures nextId == old(nextId)
      ensures TableValid(users, nextId)
    {
      var d := Delete(users, id);
      if d.Err? {
        return Err(d.error);
      }
      users := d.value;
      assert users == old(users) - {id};
      r := Ok(());
    }

    /** `findAllMunicipalityUsers`: every row that is not a citizen or administrator, newest first. */
    method FindAllMunicipalityUsers() returns (rows: seq<User>)
      requires TableValid(users, nextId)
      ensures forall u :: u in rows <==> u in users.Values && IsMunicipalRole(u.role)
      ensures forall i, j :: 0 <= i < j < |rows| ==> rows[i].id != rows[j].id && rows[i].createdAt >= rows[j].createdAt
    {
      var ids;
      ids, rows := Listing.SelectNewestFirst(users, (u: User) => IsMunicipalRole(u.role), (u: User) => u.createdAt);
    }

    /** `findUsersByRole`: refused for citizen and administrator, else that role's rows, newest first. */
    method FindUsersByRole(role: string) returns (r: Result<seq<User>, AppError>)
      requires TableValid(users, nextId)
      ensures r.Err? <==> !IsMunicipalRole(role)
      ensures r.Err? ==> r.error == Generic(CannotQuery)
      ensures r.Ok? ==> forall u :: u in r.value <==> u in users.Values && u.role == role
      ensures r.Ok? ==> forall i, j :: 0 <= i < j < |r.value| ==>
                r.value[i].id != r.value[j].id && r.value[i].createdAt >= r.value[j].createdAt
    {
      if role == Citizen || role == Administrator {
        return Err(Generic(CannotQuery));
      }
      var ids, rows := Listing.SelectNewestFirst(users, (u: User) => u.role == role, (u: User) => u.createdAt);
      r := Ok(rows);
    }
  }
}

=== FILE: register.dfy ===
/**
 * The citizen registration form (client/src/pages/register.jsx): the checks run in a fixed
 * order and stop at the first failure; only a form passing all of them is sent, as a
 * citizen registration; a failed call clears both password fields and explains the failure.
 */
module Registration {
  import opened Wrappers
  import opened Text

  const FirstNameMissing := "Please enter your first name"
  const LastNameMissing := "Please enter your last name"
  const EmailMissing := "Please enter your email"
  const EmailInvalid := "Please enter a valid email address"
  const UsernameMissing := "Please enter a username"
  const UsernameShort := "Username must be at least 3 characters long"
  const PasswordMissing := "Please enter a password"
  const PasswordShort := "Password must be at least 6 characters long"
  const PasswordsDiffer := "Passwords do not match"

  const Registered := "Account created successfully! Redirecting to login..."
  const Duplicate := "Username or email already exists. Please try another."
  const InvalidData := "Invalid registration data. Please check your input."
  const Offline := "No internet connection. Please check your network."
  const RegistrationFailed := "Registration failed. Please try again later."

  // ------------------------------------------------------------------ the email pattern

  /** A character `[^\s@]` accepts. */
  predicate EmailChar(c: char) {
    !IsSpace(c) && c != '@'
  }

  predicate EmailChars(s: string) {
    forall i :: 0 <= i < |s| ==> EmailChar(s[i])
  }

  /**
   * `^[^\s@]+@[^\s@]+\.[^\s@]+$`, read left to right: a non-empty local part up to the one
   * `@`, then a domain without `@` or whitespace holding a dot that is neither its first
   * nor its last character.
   */
  predicate ValidEmail(s: string) {
    '@' in s &&
    var k := IndexOf(s, '@');
    var domain := s[k + 1..];
    && k > 0 && EmailChars(s[..k]) && EmailChars(domain)
    && exists j :: 0 < j < |domain| - 1 && domain[j] == '.'
  }

  /** The language of the pattern: three non-empty runs joined by `@` and `.`. */
  ghost predicate MatchesPattern(s: string) {
    exists a, b, c ::
      && a != [] && b != [] && c != [] && EmailChars(a) && EmailChars(b) && EmailChars(c)
      && s == a + "@" + b + "." + c
  }

  /** The left-to-right check accepts exactly the language of the pattern. */
  lemma ValidEmailMatchesPattern(s: string)
    ensures ValidEmail(s) <==> MatchesPattern(s)
  {
    if ValidEmail(s) {
      ValidEmailMatches(s);
    }
    if MatchesPattern(s) {
      var a, b, c :| && a != [] && b != [] && c != [] && EmailChars(a) && EmailChars(b) && EmailChars(c)
                     && s == a + "@" + b + "." + c;
      PatternIsValid(a, b, c);
    }
  }

  lemma ValidEmailMatches(s: string)
    requires ValidEmail(s)
    ensures MatchesPattern(s)
  {
    var k := IndexOf(s, '@');
    var domain := s[k + 1..];
    var j :| 0 < j < |domain| - 1 && domain[j] == '.';
    var a, b, c := s[..k], domain[..j], domain[j + 1..];
    assert EmailChars(b) by {
      forall i | 0 <= i < |b| ensures EmailChar(b[i]) {
        assert b[i] == domain[i];
      }
    }
    assert EmailChars(c) by {
      forall i | 0 <= i < |c| ensures EmailChar(c[i]) {
        assert c[i] == domain[j + 1 + i];
      }
    }
    assert domain == b + "." + c;
    assert s == a + "@" + b + "." + c;
  }

  lemma PatternIsValid(a: string, b: string, c: string)
    requires a != [] && b != [] && c != [] && EmailChars(a) && EmailChars(b) && EmailChars(c)
    ensures ValidEmail(a + "@" + b + "." + c)
  {
    var s := a + "@" + b + "." + c;
    assert s[|a|] == '@';
    var k := IndexOf(s, '@');
    assert s[..|a|] == a;
    if k != |a| {
      assert false;
    }
    var domain := s[k + 1..];
    assert domain == b + "." + c;
    assert domain[|b|] == '.';
    assert EmailChars(domain) by {
      forall i | 0 <= i < |domain| ensures EmailChar(domain[i]) {
        if i < |b| {
          assert domain[i] == b[i];
        } else if i > |b| {
          assert domain[i] == c[i - |b| - 1];
        }
      }
    }
  }

  // ------------------------------------------------------------------ the checks

  datatype Form = Form(
    firstName: string,
    lastName: string,
    email: string,
    username: string,
    password: string,
    confirmPassword: string)

  /** The name and email checks, which run first, all pass. */
  predicate PersonalDetailsPass(f: Form) {
    !IsBlank(f.firstName) && !IsBlank(f.lastName) && ValidEmail(f.email)
  }

  /** Both username checks pass. */
  predicate UsernamePasses(f: Form) {
    !IsBlank(f.username) && |f.username| >= 3
  }

  /** The message of the first check the form fails, or `None` when it passes them all. */
  function Validate(f: Form): (r: Option<string>)
    ensures r.None? <==>
              && !IsBlank(f.firstName) && !IsBlank(f.lastName) && ValidEmail(f.email)
              && !IsBlank(f.username) && |f.username| >= 3
              && !IsBlank(f.password) && |f.password| >= 6
              && f.password == f.confirmPassword
    ensures IsBlank(f.firstName) ==> r == Some(FirstNameMissing)
    ensures !IsBlank(f.firstName) && IsBlank(f.lastName) ==> r == Some(LastNameMissing)
    ensures !IsBlank(f.firstName) && !IsBlank(f.lastName) && IsBlank(f.email) ==> r == Some(EmailMissing)
    ensures (!IsBlank(f.firstName) && !IsBlank(f.lastName) && !IsBlank(f.email) && !ValidEmail(f.email))
              ==> r == Some(EmailInvalid)
    ensures PersonalDetailsPass(f) && IsBlank(f.username) ==> r == Some(UsernameMissing)
    ensures PersonalDetailsPass(f) && !IsBlank(f.username) && |f.username| < 3 ==> r == Some(UsernameShort)
    ensures PersonalDetailsPass(f) && UsernamePasses(f) && IsBlank(f.password) ==> r == Some(PasswordMissing)
    ensures (PersonalDetailsPass(f) && UsernamePasses(f) && !IsBlank(f.password) && |f.password| < 6)
              ==> r == Some(PasswordShort)
    ensures (PersonalDetailsPass(f) && UsernamePasses(f) && !IsBlank(f.password) && |f.password| >= 6
             && f.password != f.confirmPassword)
              ==> r == Some(PasswordsDiffer)
    ensures r.Some? && ValidEmail(f.email) ==>
              r.value in {FirstNameMissing, LastNameMissing, UsernameMissing, UsernameShort,
                          PasswordMissing, PasswordShort, PasswordsDiffer}
  {
    ValidEmailNotBlank(f.email);
    if Trim(f.firstName) == [] then Some(FirstNameMissing)
    else if Trim(f.lastName) == [] then Some(LastNameMissing)
    else if Trim(f.email) == [] then Some(EmailMissing)
    else if !ValidEmail(f.email) then Some(EmailInvalid)
    else if Trim(f.username) == [] then Some(UsernameMissing)
    else if |f.username| < 3 then Some(UsernameShort)
    else if Trim(f.password) == [] then Some(PasswordMissing)
    else if |f.password| < 6 then Some(PasswordShort)
    else if f.password != f.confirmPassword then Some(PasswordsDiffer)
    else None
  }

  /** A valid email is never blank, so the emptiness check only words the failure differently. */
  lemma ValidEmailNotBlank(s: string)
    ensures ValidEmail(s) ==> !IsBlank(s)
  {
    if ValidEmail(s) {
      var k := IndexOf(s, '@');
      assert EmailChar(s[..k][0]);
      assert s[..k][0] == s[0];
    }
  }

  /**
   * The length rules count the untrimmed text: two letters padded with a space pass the
   * username checks, and a password of five letters and a space passes the password checks.
   */
  lemma LengthsCountSpaces()
    ensures var u := "ab ";
            !IsBlank(u) && |u| >= 3
    ensures var p := "abcde ";
            !IsBlank(p) && |p| >= 6
  {
    assert !IsSpace("ab "[0]);
    assert !IsSpace("abcde "[0]);
  }

  // ------------------------------------------------------------------ the request

  /** The body sent to the registration endpoint. */
  datatype Payload = Payload(
    username: string,
    email: string,
    password: string,
    firstName: string,   // sent as `first_name`
    lastName: string,    // sent as `last_name`
    role: string)

  /** The payload of a form: the untrimmed fields, always with role `Citizen`. */
  function PayloadOf(f: Form): (p: Payload)
    ensures p.role == "Citizen"
    ensures p.username == f.username && p.email == f.email && p.password == f.password
    ensures p.firstName == f.firstName && p.lastName == f.lastName
  {
    Payload(f.username, f.email, f.password, f.firstName, f.lastName, "Citizen")
  }

  /** How a failed registration call failed. */
  datatype ApiFailure = ApiFailure(status: int, message: string)

  /** The message shown for a failed call; `online` is the browser's connectivity flag. */
  function FailureMessage(e: ApiFailure, online: bool): (m: string)
    ensures e.status == 409 ==> m == Duplicate
    ensures e.status == 400 ==> m == (if e.message != "" then e.message else InvalidData)
    ensures e.status != 409 && e.status != 400 && !online ==> m == Offline
    ensures e.status != 409 && e.status != 400 && online ==>
              m == (if e.message != "" then e.message else RegistrationFailed)
  {
    if e.status == 409 then Duplicate
    else if e.status == 400 then (if e.message != "" then e.message else InvalidData)
    else if !online then Offline
    else if e.message != "" then e.message
    else RegistrationFailed
  }

  /** The page's state: the form fields and the two banners. */
  class RegisterPage {
    var form: Form
    var error: string
    var success: string

    constructor (form: Form)
      ensures this.form == form && error == "" && success == ""
    {
      this.form := form;
      error := "";
      success := "";
    }

    /**
     * `handleRegister`, with `call` the outcome the registration call would have for the
     * payload. Returns the payload when the call is made.
     */
    method HandleRegister(call: Result<(), ApiFailure>, online: bool) returns (sent: Option<Payload>)
      modifies this
      ensures sent.Some? <==> Validate(old(form)).None?
      ensures sent.Some? ==> sent.value == PayloadOf(old(form))
      ensures Validate(old(form)).Some? ==>
                form == old(form) && error == Validate(old(form)).value && success == ""
      ensures sent.Some? && call.Ok? ==> form == old(form) && error == "" && success == Registered
      ensures sent.Some? && call.Err? ==>
                && form == old(form).(password := "", confirmPassword := "")
                && error == FailureMessage(call.error, online) && success == ""
    {
      error := "";
      success := "";
      var failure := Validate(form);
      if failure.Some? {
        error := failure.value;
        return None;
      }
      sent := Some(PayloadOf(form));
      match call
      case Ok(_) =>
        success := Registered;
      case Err(e) =>
        form := form.(password := "", confirmPassword := "");
        error := FailureMessage(e, online);
    }
  }
}

=== FILE: report_handler.dfy ===
/**
 * The bot's entry points (server/src/telegramBot/reportHandler.ts): `/newreport` opens a
 * session for the chat, each kind of update is forwarded to the wizard when the chat's
 * session is at a step that accepts it, and `/link` checks its argument before asking the
 * user repository to link the Telegram account.
 *
 * `Dispatch` states what one update does to the table of sessions, seen as a map from chat
 * id to session state; the `ReportHandler` methods are proved to change the session objects
 * and the table exactly as `Dispatch` says.
 */
module ReportHandlers {
  import opened Wrappers
  import opened Text
  import opened Errors
  import opened TelegramSessions
  import opened ReportWizards

  /** The updates the bot reacts to. */
  datatype Update =
    | NewReport(username: Option<string>)
    | LocationMessage(location: Option<Coords>)
    | TextMessage(text: Option<string>)
    | CallbackQuery(data: Option<string>, username: Option<string>)
    | PhotoMessage(photo: Option<Download>, text: Option<string>)

  datatype Outcome = Outcome(sessions: map<int, SessionState>, reply: Reply)

  /** A username JavaScript treats as present (neither undefined nor ""). */
  predicate HasUsername(username: Option<string>) {
    username.Some? && username.value != ""
  }

  /** The table after the wizard's effect on chat `chat`. */
  function Apply(view: map<int, SessionState>, chat: int, e: Effect): (r: Outcome)
    ensures e.drop ==> r.sessions == view - {chat}
    ensures !e.drop ==> r.sessions == view[chat := e.state]
    ensures r.reply == e.reply
  {
    Outcome(if e.drop then view - {chat} else view[chat := e.state], e.reply)
  }

  /** What one update from chat `chat` does to the sessions. */
  function Dispatch(view: map<int, SessionState>, chat: int, u: Update, env: Env): (r: Outcome)
    ensures r.sessions.Keys <= view.Keys + {chat}
  {
    match u
    case NewReport(username) =>
      if !HasUsername(username) then Outcome(view, UsernameRequired)
      else if env.userByTelegram(username.value).None? then Outcome(view, NotRegistered)
      else Outcome(view[chat := SessionState(WaitingLocation, EmptyData)], AskLocation)
    case LocationMessage(location) =>
      if chat !in view || view[chat].step != WaitingLocation then Outcome(view, Silent)
      else Apply(view, chat, LocationEffect(view[chat], location, env))
    case TextMessage(text) =>
      if chat !in view then Outcome(view, Silent)
      else Apply(view, chat, TextEffect(view[chat], text, env))
    case CallbackQuery(data, username) =>
      if chat !in view then Outcome(view, Silent)
      else Apply(view, chat, CallbackEffect(view[chat], data, username, env))
    case PhotoMessage(photo, text) =>
      if chat !in view || view[chat].step != WaitingPhotos then Outcome(view, Silent)
      else Apply(view, chat, PhotoEffect(view[chat], photo, text))
  }

  // ------------------------------------------------------------------ properties

  /** An update from one chat never touches another chat's session. */
  lemma OtherChatsUntouched(view: map<int, SessionState>, chat: int, u: Update, env: Env, other: int)
    requires other != chat
    ensures var r := Dispatch(view, chat, u, env).sessions;
            (other in r <==> other in view) && (other in view ==> r[other] == view[other])
  {
  }

  /** Without a session, only `/newreport` can change anything. */
  lemma NoSessionNoChange(view: map<int, SessionState>, chat: int, u: Update, env: Env)
    requires chat !in view && !u.NewReport?
    ensures Dispatch(view, chat, u, env) == Outcome(view, Silent)
  {
  }

  /**
   * `/newreport` opens a fresh session at the location step, replacing any session the chat
   * had, exactly when the chat has a username that belongs to a registered user.
   */
  lemma NewReportOpensFreshSession(view: map<int, SessionState>, chat: int, username: Option<string>, env: Env)
    ensures var r := Dispatch(view, chat, NewReport(username), env);
            && (r.sessions != view ==> r.sessions == view[chat := SessionState(WaitingLocation, EmptyData)])
            && (r.sessions == view[chat := SessionState(WaitingLocation, EmptyData)] <==>
                  (HasUsername(username) && env.userByTelegram(username.value).Some?)
                  || (chat in view && view[chat] == SessionState(WaitingLocation, EmptyData)))
            && (!HasUsername(username) ==> r == Outcome(view, UsernameRequired))
  {
  }

  /** Location messages reach the wizard only at the location step, photo messages only at the photo step. */
  lemma StepGuards(view: map<int, SessionState>, chat: int, location: Option<Coords>, photo: Option<Download>,
                   text: Option<string>, env: Env)
    requires chat in view
    ensures view[chat].step != WaitingLocation ==>
              Dispatch(view, chat, LocationMessage(location), env) == Outcome(view, Silent)
    ensures view[chat].step != WaitingPhotos ==>
              Dispatch(view, chat, PhotoMessage(photo, text), env) == Outcome(view, Silent)
  {
  }

  /** A session disappears only after `confirm_no` or a report the service created. */
  lemma SessionRemovedOnlyOnFinish(view: map<int, SessionState>, chat: int, u: Update, env: Env)
    requires chat in view
    ensures var r := Dispatch(view, chat, u, env).sessions;
            chat !in r <==>
              && u.CallbackQuery? && view[chat].step == WaitingConfirmation && u.data.Some?
              && (|| u.data.value == "confirm_no"
                  || (u.data.value == "confirm_yes"
                      && CallbackEffect(view[chat], u.data, u.username, env).sent.Some?
                      && env.createReport(CallbackEffect(view[chat], u.data, u.username, env).sent.value,
                                          env.userByTelegram(u.username.value).value).Ok?))
  {
    if u.CallbackQuery? {
      DroppedOnlyByCancelOrSubmit(view[chat], u.data, u.username, env);
    }
  }

  /** Any number of photos at the photo step are all kept: the table records no cap. */
  lemma PhotosAccumulate(view: map<int, SessionState>, chat: int, b: Buffer, env: Env)
    requires chat in view && view[chat].step == WaitingPhotos
    ensures var r := Dispatch(view, chat, PhotoMessage(Some(Downloaded(b)), None), env).sessions;
            chat in r && r[chat].step == WaitingPhotos && r[chat].data.photos == view[chat].data.photos + [b]
  {
  }

  // ------------------------------------------------------------------ /link

  datatype LinkOutcome = LinkOutcome(reply: Reply, code: Option<string>)

  /** `/^\d{6}$/`: exactly six ASCII digits. */
  predicate SixDigits(code: string) {
    |code| == 6 && AllDigits(code)
  }

  /**
   * `/link <code>`: the repository is asked (with the trimmed code) only when the message
   * splits on single spaces into exactly two parts and the code is six digits; `code` is what
   * the repository was given. Every exception it throws gets the same reply.
   */
  function LinkAccount(username: Option<string>, text: Option<string>,
                       verify: (string, string) -> Result<string, AppError>): (r: LinkOutcome)
    ensures !HasUsername(username) ==> r == LinkOutcome(LinkUsernameRequired, None)
    ensures r.code.Some? <==>
              && HasUsername(username) && text.Some? && text.value != ""
              && |Split(text.value, ' ')| == 2 && SixDigits(Trim(Split(text.value, ' ')[1]))
    ensures r.code.Some? ==> r.code.value == Trim(Split(text.value, ' ')[1])
    ensures r.code.Some? ==>
              r.reply == (match verify(username.value, r.code.value)
                          case Ok(message) => Linked(message)
                          case Err(_) => LinkFailed)
  {
    if !HasUsername(username) then LinkOutcome(LinkUsernameRequired, None)
    else if text.None? || text.value == "" then LinkOutcome(Silent, None)
    else
      var parts := Split(text.value, ' ');
      if |parts| != 2 then LinkOutcome(LinkFormat, None)
      else
        var code := Trim(parts[1]);
        if code == "" || !SixDigits(code) then LinkOutcome(LinkCodeFormat, None)
        else match verify(username.value, code)
          case Ok(message) => LinkOutcome(Linked(message), Some(code))
          case Err(_) => LinkOutcome(LinkFailed, Some(code))
  }

  /**
   * A second space makes a third part, so `/link  123456` (or any word followed by two
   * spaces) is refused before the repository is asked.
   */
  lemma DoubleSpaceRefused(username: string, command: string, code: string,
                           verify: (string, string) -> Result<string, AppError>)
    requires username != "" && ' ' !in command
    ensures LinkAccount(Some(username), Some(command + "  " + code), verify) == LinkOutcome(LinkFormat, None)
  {
    var t := command + "  " + code;
    assert t[|command|] == ' ';
    var k := IndexOf(t, ' ');
    assert t[..|command|] == command;
    if k != |command| {
      assert false;
    }
    var rest := t[k + 1..];
    assert rest[0] == ' ';
    assert IndexOf(rest, ' ') == 0;
    assert |Split(rest, ' ')| >= 2;
  }

  // ------------------------------------------------------------------ the handler

  /** The `ReportHandler`: the session table and the wizard that removes entries from it. */
  class ReportHandler {
    const store: SessionStore
    const wizard: ReportWizard

    ghost predicate Valid()
      reads this, store, wizard
    {
      wizard.store == store && store.Valid()
    }

    constructor ()
      ensures Valid() && fresh(store) && store.sessions == map[]
    {
      var s := new SessionStore();
      store := s;
      wizard := new ReportWizard(s);
    }

    method StartReport(chatId: int, username: Option<string>, env: Env) returns (reply: Reply)
      requires Valid()
      modifies store
      ensures Valid()
      ensures var r := Dispatch(old(store.View()), chatId, NewReport(username), env);
              store.View() == r.sessions && reply == r.reply
    {
      if !HasUsername(username) {
        return UsernameRequired;
      }
      var user := env.userByTelegram(username.value);
      if user.None? {
        return NotRegistered;
      }
      var session := new UserSession(WaitingLocation, EmptyData);
      store.Put(chatId, session);
      reply := AskLocation;
    }

    method HandleLocation(chatId: int, location: Option<Coords>, env: Env) returns (reply: Reply)
      requires Valid()
      modifies if chatId in store.sessions then {store.sessions[chatId]} else {}
      ensures Valid()
      ensures var r := Dispatch(old(store.View()), chatId, LocationMessage(location), env);
              store.View() == r.sessions && reply == r.reply
    {
      if chatId !in store.sessions || store.sessions[chatId].step != WaitingLocation {
        return Silent;
      }
      var session := store.sessions[chatId];
      reply := wizard.HandleLocation(session, location, env);
      SessionUpdated(store, chatId, old(store.View()));
    }

    method HandleText(chatId: int, text: Option<string>, env: Env) returns (reply: Reply)
      requires Valid()
      modifies if chatId in store.sessions then {store.sessions[chatId]} else {}
      ensures Valid()
      ensures var r := Dispatch(old(store.View()), chatId, TextMessage(text), env);
              store.View() == r.sessions && reply == r.reply
    {
      if chatId !in store.sessions {
        return Silent;
      }
      var session := store.sessions[chatId];
      reply := wizard.HandleText(session, text, env);
      SessionUpdated(store, chatId, old(store.View()));
    }

    method HandlePhotos(chatId: int, photo: Option<Download>, text: Option<string>, env: Env) returns (reply: Reply)
      requires Valid()
      modifies if chatId in store.sessions then {store.sessions[chatId]} else {}
      ensures Valid()
      ensures var r := Dispatch(old(store.View()), chatId, PhotoMessage(photo, text), env);
              store.View() == r.sessions && reply == r.reply
    {
      if chatId !in store.sessions || store.sessions[chatId].step != WaitingPhotos {
        return Silent;
      }
      var session := store.sessions[chatId];
      reply := wizard.HandlePhotos(session, photo, text);
      SessionUpdated(store, chatId, old(store.View()));
    }

    method HandleCallbackQuery(chatId: int, data: Option<string>, username: Option<string>, env: Env)
      returns (reply: Reply, sent: Option<CreateRequest>)
      requires Valid()
      modifies store, if chatId in store.sessions then {store.sessions[chatId]} else {}
      ensures Valid()
      ensures var r := Dispatch(old(store.View()), chatId, CallbackQuery(data, username), env);
              store.View() == r.sessions && reply == r.reply
      ensures chatId in old(store.View()) ==> sent == CallbackEffect(old(store.View())[chatId], data, username, env).sent
      ensures chatId !in old(store.View()) ==> sent.None?
    {
      if chatId !in store.sessions {
        return Silent, None;
      }
      var session := store.sessions[chatId];
      reply, sent := wizard.HandleCallbackQuery(chatId, session, data, username, env);
      if chatId in store.sessions {
        SessionUpdated(store, chatId, old(store.View()));
      } else {
        SessionRemoved(store, chatId, old(store.View()), old(store.sessions));
      }
    }
  }

  /**
   * After the session of `chat` changed in place, the table differs from `before` at that
   * chat only, provided every other session object kept its state.
   */
  lemma SessionUpdated(store: SessionStore, chat: int, before: map<int, SessionState>)
    requires chat in store.sessions && store.Valid()
    requires store.sessions.Keys == before.Keys
    requires forall c :: c in before && c != chat ==> store.sessions[c].State() == before[c]
    ensures store.View() == before[chat := store.sessions[chat].State()]
  {
    var after := store.View();
    forall c | c in after
      ensures after[c] == before[chat := store.sessions[chat].State()][c]
    {
    }
  }

  lemma SessionRemoved(store: SessionStore, chat: int, before: map<int, SessionState>, oldSessions: map<int, UserSession>)
    requires store.sessions == oldSessions - {chat}
    requires oldSessions.Keys == before.Keys
    requires forall c :: c in before && c != chat ==> store.sessions[c].State() == before[c]
    ensures store.View() == before - {chat}
  {
  }
}

=== FILE: report_service.dfy ===
/**
 * The report lifecycle of the report service, as its integration tests pin it down
 * (server/src/test/integration/services/reportServiceIntegrationTest.test.ts): a public
 * relations officer approves a pending report (it becomes Assigned to a member of staff) or
 * rejects it with a reason; staff list the reports assigned to them, newest first; everyone
 * lists reports, but only public relations officers see those still pending approval.
 *
 * The table of reports is the `reports` field of `ReportService`; `Approve` and `Reject`
 * specify the two updates on values, and the methods apply them in place.
 */
module ReportLifecycle {
  import opened Wrappers
  import opened Text
  import opened Errors
  import opened ReportStatuses
  import Listing

  datatype Report = Report(
    id: int,
    reporterId: int,
    title: string,
    description: string,
    category: string,
    status: ReportStatus,
    assigneeId: Option<int>,
    rejectionReason: Option<string>,
    isAnonymous: bool,
    createdAt: int)

  /** A report id as received: a number, or `NaN` when the path segment was not numeric. */
  datatype ReportId = Id(value: int) | NaN

  const InvalidReportId := "Invalid report ID"
  const ReportNotFound := "Report not found"
  const InvalidCategory := "Invalid category"
  const RejectionReasonRequired := "Rejection reason is required"
  const PendingOnlyForPro := "Only Municipal Public Relations Officers can view pending reports"

  function CannotApprove(s: ReportStatus): string {
    "Cannot approve report with status " + Wire(s)
  }

  function CannotReject(s: ReportStatus): string {
    "Cannot reject report with status " + Wire(s)
  }

  /**
   * How status, assignee and rejection reason go together: exactly rejected reports carry a
   * reason, and neither a pending nor a rejected report has an assignee.
   */
  predicate Consistent(r: Report) {
    && (r.status == Rejected <==> r.rejectionReason.Some?)
    && (r.status == PendingApproval ==> r.assigneeId.None?)
    && (r.status == Rejected ==> r.assigneeId.None?)
  }

  /** Every report is stored under its own id. */
  predicate KeyedById(table: map<int, Report>) {
    forall id :: id in table ==> table[id].id == id
  }

  /** Every report is stored under its own id and is consistent. */
  predicate TableValid(table: map<int, Report>) {
    KeyedById(table) && forall id :: id in table ==> Consistent(table[id])
  }

  /** The report `reportId` names, or the error the lookup throws. */
  function Lookup(table: map<int, Report>, reportId: ReportId): (r: Result<Report, AppError>)
    ensures reportId.NaN? ==> r == Err(BadRequest(InvalidReportId))
    ensures reportId.Id? && reportId.value !in table ==> r == Err(NotFound(ReportNotFound))
    ensures r.Ok? <==> reportId.Id? && reportId.value in table
    ensures r.Ok? ==> r.value == table[reportId.value]
  {
    if reportId.NaN? then Err(BadRequest(InvalidReportId))
    else if reportId.value !in table then Err(NotFound(ReportNotFound))
    else Ok(table[reportId.value])
  }

  /**
   * `approveReport`: a pending report becomes Assigned to `assignee` (chosen by category
   * routing, which is not part of this model), loses any rejection reason and takes
   * `newCategory` when one is given, which must be a known category.
   */
  function Approve(table: map<int, Report>, reportId: ReportId, newCategory: Option<string>,
                   categories: set<string>, assignee: int): (r: Result<Report, AppError>)
    ensures Lookup(table, reportId).Err? ==> r == Err(Lookup(table, reportId).error)
    ensures Lookup(table, reportId).Ok? && Lookup(table, reportId).value.status != PendingApproval ==>
              r == Err(BadRequest(CannotApprove(Lookup(table, reportId).value.status)))
    ensures r.Ok? <==>
              && reportId.Id? && reportId.value in table
              && table[reportId.value].status == PendingApproval
              && (newCategory.None? || newCategory.value in categories)
    ensures (r.Err? && reportId.Id? && reportId.value in table && table[reportId.value].status == PendingApproval)
              ==> r == Err(BadRequest(InvalidCategory))
    ensures r.Ok? ==>
              var old_ := table[reportId.value];
              && r.value.status == Assigned && r.value.assigneeId == Some(assignee)
              && r.value.rejectionReason.None?
              && r.value.category == newCategory.GetOr(old_.category)
              && r.value.(status := old_.status, assigneeId := old_.assigneeId,
                          rejectionReason := old_.rejectionReason, category := old_.category) == old_
    ensures r.Ok? ==> Consistent(r.value)
  {
    match Lookup(table, reportId)
    case Err(e) => Err(e)
    case Ok(report) =>
      if report.status != PendingApproval then Err(BadRequest(CannotApprove(report.status)))
      else if newCategory.Some? && newCategory.value !in categories then Err(BadRequest(InvalidCategory))
      else Ok(report.(status := Assigned, assigneeId := Some(assignee), rejectionReason := None,
                      category := newCategory.GetOr(report.category)))
  }

  /**
   * `rejectReport`: a pending report becomes Rejected with the given reason, which must not
   * be blank, and has no assignee.
   */
  function Reject(table: map<int, Report>, reportId: ReportId, reason: string): (r: Result<Report, AppError>)
    ensures Lookup(table, reportId).Err? ==> r == Err(Lookup(table, reportId).error)
    ensures Lookup(table, reportId).Ok? && Lookup(table, reportId).value.status != PendingApproval ==>
              r == Err(BadRequest(CannotReject(Lookup(table, reportId).value.status)))
    ensures r.Ok? <==>
              && reportId.Id? && reportId.value in table
              && table[reportId.value].status == PendingApproval && !IsBlank(reason)
    ensures (r.Err? && reportId.Id? && reportId.value in table && table[reportId.value].status == PendingApproval)
              ==> r == Err(BadRequest(RejectionReasonRequired))
    ensures r.Ok? ==>
              var old_ := table[reportId.value];
              && r.value.status == Rejected && r.value.rejectionReason == Some(reason)
              && r.value.assigneeId.None?
              && r.value.(status := old_.status, assigneeId := old_.assigneeId,
                          rejectionReason := old_.rejectionReason) == old_
    ensures r.Ok? ==> Consistent(r.value)
  {
    match Lookup(table, reportId)
    case Err(e) => Err(e)
    case Ok(report) =>
      if report.status != PendingApproval then Err(BadRequest(CannotReject(report.status)))
      else if Trim(reason) == [] then Err(BadRequest(RejectionReasonRequired))
      else Ok(report.(status := Rejected, rejectionReason := Some(reason), assigneeId := None))
  }

  /** The reports a caller may list with the given filters. */
  predicate Visible(r: Report, callerIsPro: bool, status: Option<ReportStatus>, category: Option<string>) {
    && (callerIsPro || r.status != PendingApproval)
    && (status.None? || r.status == status.value)
    && (category.None? || r.category == category.value)
  }

  /** The reports assigned to `assignee`, narrowed to `status` when one is given. */
  predicate AssignedTo(r: Report, assignee: int, status: Option<ReportStatus>) {
    r.assigneeId == Some(assignee) && (status.None? || r.status == status.value)
  }

  // ------------------------------------------------------------------ properties

  /** Approval and rejection keep every report of the table consistent. */
  lemma UpdatesKeepTableValid(table: map<int, Report>, reportId: ReportId, newCategory: Option<string>,
                              categories: set<string>, assignee: int, reason: string)
    requires TableValid(table)
    ensures var a := Approve(table, reportId, newCategory, categories, assignee);
            a.Ok? ==> TableValid(table[reportId.value := a.value])
    ensures var j := Reject(table, reportId, reason);
            j.Ok? ==> TableValid(table[reportId.value := j.value])
  {
  }

  /** Once approved, a report can no longer be rejected (nor approved again). */
  lemma ApprovedIsFinalForReview(table: map<int, Report>, id: int, newCategory: Option<string>,
                                 categories: set<string>, assignee: int, reason: string, assignee2: int)
    requires Approve(table, Id(id), newCategory, categories, assignee).Ok?
    ensures var t := table[id := Approve(table, Id(id), newCategory, categories, assignee).value];
            && Reject(t, Id(id), reason) == Err(BadRequest(CannotReject(Assigned)))
            && Approve(t, Id(id), None, categories, assignee2) == Err(BadRequest(CannotApprove(Assigned)))
  {
  }

  /** Once rejected, a report can no longer be approved (nor rejected again). */
  lemma RejectedIsFinalForReview(table: map<int, Report>, id: int, reason: string, newCategory: Option<string>,
                                 categories: set<string>, assignee: int, reason2: string)
    requires Reject(table, Id(id), reason).Ok?
    ensures var t := table[id := Reject(table, Id(id), reason).value];
            && Approve(t, Id(id), newCategory, categories, assignee) == Err(BadRequest(CannotApprove(Rejected)))
            && Reject(t, Id(id), reason2) == Err(BadRequest(CannotReject(Rejected)))
  {
  }

  /** The two failure messages on a reviewed report name its status exactly. */
  lemma CannotReviewMessages()
    ensures CannotApprove(Assigned) == "Cannot approve report with status Assigned"
    ensures CannotReject(InProgress) == "Cannot reject report with status In Progress"
  {
  }

  // ------------------------------------------------------------------ the service

  class ReportService {
    var reports: map<int, Report>

    constructor (reports: map<int, Report>)
      ensures this.reports == reports
    {
      this.reports := reports;
    }

    method ApproveReport(reportId: ReportId, newCategory: Option<string>, categories: set<string>, assignee: int)
      returns (r: Result<Report, AppError>)
      modifies this
      ensures r == Approve(old(reports), reportId, newCategory, categories, assignee)
      ensures reports == (if r.Ok? then old(reports)[reportId.value := r.value] else old(reports))
      ensures TableValid(old(reports)) ==> TableValid(reports)
    {
      r := Approve(reports, reportId, newCategory, categories, assignee);
      if r.Ok? {
        reports := reports[reportId.value := r.value];
      }
    }

    method RejectReport(reportId: ReportId, reason: string) returns (r: Result<Report, AppError>)
      modifies this
      ensures r == Reject(old(reports), reportId, reason)
      ensures reports == (if r.Ok? then old(reports)[reportId.value := r.value] else old(reports))
      ensures TableValid(old(reports)) ==> TableValid(reports)
    {
      r := Reject(reports, reportId, reason);
      if r.Ok? {
        reports := reports[reportId.value := r.value];
      }
    }

    /**
     * `getMyAssignedReports`: exactly the reports assigned to `assignee` (with `status` when
     * given), each once, newest first.
     */
    method GetMyAssignedReports(assignee: int, status: Option<ReportStatus>) returns (rs: seq<Report>)
      requires KeyedById(reports)
      ensures forall r :: r in rs <==> r in reports.Values && AssignedTo(r, assignee, status)
      ensures forall i, j :: 0 <= i < j < |rs| ==>
                rs[i].id != rs[j].id && rs[i].createdAt >= rs[j].createdAt
      ensures forall i, j :: 0 <= i < j < |rs| && rs[i].createdAt == rs[j].createdAt ==> rs[i].id < rs[j].id
    {
      var ids;
      ids, rs := Listing.SelectNewestFirst(reports, (r: Report) => AssignedTo(r, assignee, status),
                                           (r: Report) => r.createdAt);
    }

    /**
     * `getAllReports`: a caller who is not a public relations officer never sees a report
     * pending approval, and asking for that status is refused; the filters narrow the list.
     */
    method GetAllReports(callerIsPro: bool, status: Option<ReportStatus>, category: Option<string>)
      returns (r: Result<seq<Report>, AppError>)
      requires KeyedById(reports)
      ensures r.Err? <==> !callerIsPro && status == Some(PendingApproval)
      ensures r.Err? ==> r.error == InsufficientRights(PendingOnlyForPro)
      ensures r.Ok? ==> forall x :: x in r.value <==> x in reports.Values && Visible(x, callerIsPro, status, category)
      ensures r.Ok? && !callerIsPro ==> forall x :: x in r.value ==> x.status != PendingApproval
      ensures r.Ok? ==> forall i, j :: 0 <= i < j < |r.value| ==> r.value[i].id != r.value[j].id
      ensures r.Ok? ==> |r.value| == |set k | k in reports && Visible(reports[k], callerIsPro, status, category)|
    {
      if !callerIsPro && status == Some(PendingApproval) {
        return Err(InsufficientRights(PendingOnlyForPro));
      }
      var keep := (x: Report) => Visible(x, callerIsPro, status, category);
      var ids, rs := Listing.SelectNewestFirst(reports, keep, (x: Report) => x.createdAt);
      assert Listing.Selected(reports, keep)
          == (set k | k in reports && Visible(reports[k], callerIsPro, status, category));
      r := Ok(rs);
    }
  }
}

=== FILE: report_status.dfy ===
/** The report status enumeration and its wire strings (server/src/models/dto/ReportStatus.ts). */
module ReportStatuses {
  import opened Wrappers

  datatype ReportStatus =
    | PendingApproval
    | Assigned
    | InProgress
    | Suspended
    | Rejected
    | Resolved
    | InExternalMaintenance

  /** The members in declaration order, as `Object.values(ReportStatus)` lists them. */
  const AllStatuses: seq<ReportStatus> :=
    [PendingApproval, Assigned, InProgress, Suspended, Rejected, Resolved, InExternalMaintenance]

  /** The string value of each member, exactly as it travels over HTTP and is stored. */
  function Wire(s: ReportStatus): string {
    match s
    case PendingApproval => "Pending Approval"
    case Assigned => "Assigned"
    case InProgress => "In Progress"
    case Suspended => "Suspended"
    case Rejected => "Rejected"
    case Resolved => "Resolved"
    case InExternalMaintenance => "In External Maintenance"
  }

  /** Reads a wire string back: `Object.values(ReportStatus).includes(w)` plus the member it names. */
  function Parse(w: string): (r: Option<ReportStatus>)
    ensures r.Some? ==> Wire(r.value) == w
    ensures r.None? ==> forall s :: Wire(s) != w
  {
    if w == "Pending Approval" then Some(PendingApproval)
    else if w == "Assigned" then Some(Assigned)
    else if w == "In Progress" then Some(InProgress)
    else if w == "Suspended" then Some(Suspended)
    else if w == "Rejected" then Some(Rejected)
    else if w == "Resolved" then Some(Resolved)
    else if w == "In External Maintenance" then Some(InExternalMaintenance)
    else None
  }

  /** Parsing is the inverse of the wire mapping for every member. */
  lemma ParseWire(s: ReportStatus)
    ensures Parse(Wire(s)) == Some(s)
  {
  }

  /** Distinct members travel as distinct strings. */
  lemma WireInjective(a: ReportStatus, b: ReportStatus)
    requires a != b
    ensures Wire(a) != Wire(b)
  {
    ParseWire(a);
    ParseWire(b);
  }

  /** The wire mapping is the inverse of parsing on every accepted string. */
  lemma WireParse(w: string)
    requires Parse(w).Some?
    ensures Wire(Parse(w).value) == w
  {
  }

  /** Exactly seven statuses, each listed once, with pairwise distinct wire strings. */
  lemma SevenDistinctStatuses()
    ensures |AllStatuses| == 7
    ensures forall s :: s in AllStatuses
    ensures forall i, j :: 0 <= i < j < |AllStatuses| ==> Wire(AllStatuses[i]) != Wire(AllStatuses[j])
  {
    forall s ensures s in AllStatuses {
      match s
      case PendingApproval => assert s == AllStatuses[0];
      case Assigned => assert s == AllStatuses[1];
      case InProgress => assert s == AllStatuses[2];
      case Suspended => assert s == AllStatuses[3];
      case Rejected => assert s == AllStatuses[4];
      case Resolved => assert s == AllStatuses[5];
      case InExternalMaintenance => assert s == AllStatuses[6];
    }
  }

  /** The spelling of the two multi-word ends of the enumeration. */
  lemma ExactSpelling()
    ensures Wire(PendingApproval) == "Pending Approval"
    ensures Wire(InExternalMaintenance) == "In External Maintenance"
    ensures Parse("PENDING_APPROVAL") == None && Parse("pending approval") == None
  {
  }
}

=== FILE: report_validation.dfy ===
/** The location checks on report creation (server/src/middleware/reportValidation.ts). */
module CreateReportValidation {
  import opened Wrappers
  import opened Errors

  /** A JSON field as `typeof` sees it: absent, a number, or any other kind of value. */
  datatype Field = Absent | Number(value: real) | NonNumber

  /** `req.body.location`: falsy, a non-object, or an object with two fields. */
  datatype LocationValue = Falsy | NonObject | Object(latitude: Field, longitude: Field)

  /** The request body; only `location` is inspected. */
  datatype CreateBody = CreateBody(
    location: LocationValue,
    title: Option<string>,
    description: Option<string>,
    category: Option<string>)

  const LocationRequired: string := "Location is required and must be an object"
  const LocationNumeric: string := "Location must include numeric latitude and longitude"
  const LatitudeRange: string := "Latitude must be between -90 and 90"
  const LongitudeRange: string := "Longitude must be between -180 and 180"

  predicate InLatitudeRange(lat: real) { -90.0 <= lat <= 90.0 }

  predicate InLongitudeRange(lon: real) { -180.0 <= lon <= 180.0 }

  /** The checks in source order; the first that fails is passed to `next` as a BadRequestError. */
  function ValidateCreateReport(body: CreateBody): (v: Verdict)
    ensures v.Next? <==>
              && body.location.Object?
              && body.location.latitude.Number? && body.location.longitude.Number?
              && InLatitudeRange(body.location.latitude.value)
              && InLongitudeRange(body.location.longitude.value)
    ensures !body.location.Object? ==> v == Fail(BadRequest(LocationRequired))
    ensures (body.location.Object? && !(body.location.latitude.Number? && body.location.longitude.Number?))
              ==> v == Fail(BadRequest(LocationNumeric))
    ensures v == Fail(BadRequest(LatitudeRange)) <==>
              body.location.Object? && body.location.latitude.Number? && body.location.longitude.Number?
              && !InLatitudeRange(body.location.latitude.value)
    ensures v == Fail(BadRequest(LongitudeRange)) <==>
              body.location.Object? && body.location.latitude.Number? && body.location.longitude.Number?
              && InLatitudeRange(body.location.latitude.value)
              && !InLongitudeRange(body.location.longitude.value)
  {
    match body.location
    case Falsy => Fail(BadRequest(LocationRequired))
    case NonObject => Fail(BadRequest(LocationRequired))
    case Object(lat, lon) =>
      if !lat.Number? || !lon.Number? then Fail(BadRequest(LocationNumeric))
      else if lat.value < -90.0 || lat.value > 90.0 then Fail(BadRequest(LatitudeRange))
      else if lon.value < -180.0 || lon.value > 180.0 then Fail(BadRequest(LongitudeRange))
      else Next
  }

  /** Title, description and category never influence the verdict. */
  lemma OnlyLocationInspected(a: CreateBody, b: CreateBody)
    requires a.location == b.location
    ensures ValidateCreateReport(a) == ValidateCreateReport(b)
  {
  }

  /** Both bounds are inclusive, and the first point just outside each is refused. */
  lemma BoundsInclusive(title: Option<string>)
    ensures ValidateCreateReport(CreateBody(Object(Number(90.0), Number(180.0)), title, None, None)).Next?
    ensures ValidateCreateReport(CreateBody(Object(Number(-90.0), Number(-180.0)), title, None, None)).Next?
    ensures ValidateCreateReport(CreateBody(Object(Number(90.5), Number(0.0)), title, None, None)) == Fail(BadRequest(LatitudeRange))
    ensures ValidateCreateReport(CreateBody(Object(Number(0.0), Number(-180.5)), title, None, None)) == Fail(BadRequest(LongitudeRange))
  {
  }
}

=== FILE: report_wizard.dfy ===
/**
 * The report wizard of the Telegram bot (server/src/telegramBot/reportWizard.ts): one handler
 * per kind of update, each of which checks the session's step, reads the message and advances
 * the session in place.
 *
 * Each handler is specified by a function from the session's state before the update to an
 * `Effect` (the state after it, the reply, whether the session is removed, and the report
 * request sent, if any); the `ReportWizard` methods mutate the session step by step as the
 * source does and are proved to produce exactly that effect. The outside world (location
 * validation, geocoding, the user lookup, report creation) is the `Env` parameter.
 */
module ReportWizards {
  import opened Wrappers
  import opened Text
  import opened Errors
  import opened TelegramSessions
  import CreateReportValidation

  datatype Geocoded = Geocoded(location: Coords, address: string)

  /** The request `saveReport` hands to `reportService.createReport`. */
  datatype CreateRequest = CreateRequest(
    title: string,
    description: string,
    category: Option<string>,
    location: Option<Coords>,
    address: Option<string>,
    photos: seq<Buffer>,
    isAnonymous: bool)

  /**
   * The answers of the services the wizard calls; an `AppError` is the error thrown.
   * `validateLocation` answers `None` when the location is accepted.
   */
  datatype Env = Env(
    categories: seq<string>,
    parseCoordinates: string -> Option<Coords>,
    validateLocation: Coords -> Option<AppError>,
    reverseGeocode: Coords -> Result<string, AppError>,
    geocodeAddress: string -> Result<Geocoded, AppError>,
    userByTelegram: string -> Option<int>,
    createReport: (CreateRequest, int) -> Result<int, AppError>)

  /** The outcome of one update. */
  datatype Effect = Effect(state: SessionState, reply: Reply, drop: bool, sent: Option<CreateRequest>)

  /** An update that keeps the session (possibly changed) and sends nothing to the report service. */
  function Keep(state: SessionState, reply: Reply): Effect {
    Effect(state, reply, false, None)
  }

  /** The photo part of a photo message, once downloaded. */
  datatype Download = Downloaded(buffer: Buffer) | DownloadFailed

  // ------------------------------------------------------------------ location

  /** A failed location check is reported as outside Turin when it is a bad request. */
  function LocationErrorReply(e: AppError): (r: Reply)
    ensures r == OutsideTurin <==> e.BadRequest?
    ensures r == OutsideTurin || r == LocationCheckFailed
  {
    if e.BadRequest? then OutsideTurin else LocationCheckFailed
  }

  /**
   * `processCoordinates` (and the body of `handleLocation`): validate, store the location,
   * reverse-geocode, advance. The location is stored before geocoding, so a geocoding error
   * leaves it set without advancing.
   */
  function CoordinatesEffect(s: SessionState, c: Coords, env: Env): (e: Effect)
    ensures !e.drop && e.sent.None?
    ensures env.validateLocation(c).Some? ==> e.state == s
    ensures env.validateLocation(c).None? ==> e.state.data.location == Some(c)
    ensures e.state.step == WaitingTitle || e.state.step == s.step
    ensures e.state.step != s.step ==> e.reply == AskTitle
    ensures e.state.data.(location := s.data.location, address := s.data.address) == s.data
    ensures env.validateLocation(c).None? && env.reverseGeocode(c).Ok? ==>
              e == Keep(SessionState(WaitingTitle, s.data.(location := Some(c), address := Some(env.reverseGeocode(c).value))), AskTitle)
    ensures env.validateLocation(c).None? && env.reverseGeocode(c).Err? ==>
              e.state == s.(data := s.data.(location := Some(c)))
              && e.reply == LocationErrorReply(env.reverseGeocode(c).error)
  {
    match env.validateLocation(c)
    case Some(err) => Keep(s, LocationErrorReply(err))
    case None =>
      var located := s.data.(location := Some(c));
      match env.reverseGeocode(c)
      case Err(err) => Keep(SessionState(s.step, located), LocationErrorReply(err))
      case Ok(address) => Keep(SessionState(WaitingTitle, located.(address := Some(address))), AskTitle)
  }

  /** `handleLocation`: a message without a location is answered and changes nothing. */
  function LocationEffect(s: SessionState, location: Option<Coords>, env: Env): (e: Effect)
    ensures location.None? ==> e == Keep(s, InvalidLocation)
    ensures location.Some? ==> e == CoordinatesEffect(s, location.value, env)
  {
    if location.None? then Keep(s, InvalidLocation) else CoordinatesEffect(s, location.value, env)
  }

  /** `processAddress`: geocode the trimmed text; no location validation on this path. */
  function AddressEffect(s: SessionState, text: string, env: Env): (e: Effect)
    ensures !e.drop && e.sent.None?
    ensures env.geocodeAddress(Trim(text)).Err? ==> e == Keep(s, AddressNotFound)
    ensures env.geocodeAddress(Trim(text)).Ok? ==>
              var g := env.geocodeAddress(Trim(text)).value;
              e.state == SessionState(WaitingTitle, s.data.(location := Some(g.location), address := Some(g.address)))
  {
    match env.geocodeAddress(Trim(text))
    case Err(_) => Keep(s, AddressNotFound)
    case Ok(g) => Keep(SessionState(WaitingTitle, s.data.(location := Some(g.location), address := Some(g.address))), AskTitle)
  }

  /** `handleLocationInput`: coordinates when the text parses as coordinates, an address otherwise. */
  function LocationInputEffect(s: SessionState, text: string, env: Env): (e: Effect)
    ensures env.parseCoordinates(text).Some? ==> e == CoordinatesEffect(s, env.parseCoordinates(text).value, env)
    ensures env.parseCoordinates(text).None? ==> e == AddressEffect(s, text, env)
  {
    match env.parseCoordinates(text)
    case Some(c) => CoordinatesEffect(s, c, env)
    case None => AddressEffect(s, text, env)
  }

  // ------------------------------------------------------------------ title, description

  /** `handleTitleInput`: a blank title is refused; otherwise the text is stored untrimmed. */
  function TitleEffect(s: SessionState, text: string): (e: Effect)
    ensures IsBlank(text) ==> e == Keep(s, TitleEmpty)
    ensures !IsBlank(text) ==> e == Keep(SessionState(WaitingDescription, s.data.(title := Some(text))), AskDescription)
  {
    if Trim(text) == [] then Keep(s, TitleEmpty)
    else Keep(SessionState(WaitingDescription, s.data.(title := Some(text))), AskDescription)
  }

  /** `handleDescriptionInput`: a blank description is refused; otherwise it is stored untrimmed. */
  function DescriptionEffect(s: SessionState, text: string): (e: Effect)
    ensures IsBlank(text) ==> e == Keep(s, DescriptionEmpty)
    ensures !IsBlank(text) ==> e == Keep(SessionState(WaitingCategory, s.data.(description := Some(text))), ChooseCategory)
  {
    if Trim(text) == [] then Keep(s, DescriptionEmpty)
    else Keep(SessionState(WaitingCategory, s.data.(description := Some(text))), ChooseCategory)
  }

  // ------------------------------------------------------------------ photos

  /** `handlePhotosComplete`: leaving the photo step needs at least one photo. */
  function PhotosCompleteEffect(s: SessionState): (e: Effect)
    ensures !e.drop && e.sent.None? && e.state.data == s.data
    ensures |s.data.photos| == 0 ==> e == Keep(s, NeedPhoto)
    ensures |s.data.photos| > 0 ==> e == Keep(s.(step := WaitingAnonymous), AskAnonymous)
  {
    if |s.data.photos| == 0 then Keep(s, NeedPhoto)
    else Keep(s.(step := WaitingAnonymous), AskAnonymous)
  }

  /**
   * `handlePhotos`: each downloaded photo is appended, with no upper bound; reaching three
   * only changes the reply. A failed download escapes the handler and changes nothing.
   */
  function PhotoEffect(s: SessionState, photo: Option<Download>, text: Option<string>): (e: Effect)
    ensures !e.drop && e.sent.None? && e.state.step == s.step
    ensures photo.Some? && photo.value.Downloaded? ==>
              e.state.data == s.data.(photos := s.data.photos + [photo.value.buffer])
    ensures !(photo.Some? && photo.value.Downloaded?) ==> e.state == s
    ensures e.reply == PhotoLimitReached ==> |e.state.data.photos| >= 3
  {
    match photo
    case Some(Downloaded(buffer)) =>
      var photos := s.data.photos + [buffer];
      Keep(s.(data := s.data.(photos := photos)),
           if |photos| >= 3 then PhotoLimitReached else PhotoReceived(|photos|))
    case Some(DownloadFailed) => Keep(s, Silent)
    case None => Keep(s, if text.Some? && text.value != "" then SendPhotosOrDone else Silent)
  }

  // ------------------------------------------------------------------ text

  /** `handleText`: empty text is ignored; otherwise the step decides what the text means. */
  function TextEffect(s: SessionState, text: Option<string>, env: Env): (e: Effect)
    ensures !e.drop && e.sent.None?
    ensures (text.None? || text.value == "") ==> e == Keep(s, Silent)
    ensures text.Some? && text.value != "" ==>
              match s.step
              case WaitingLocation => e == LocationInputEffect(s, text.value, env)
              case WaitingTitle => e == TitleEffect(s, text.value)
              case WaitingDescription => e == DescriptionEffect(s, text.value)
              case WaitingPhotos => e == (if text.value == "Fatto" then PhotosCompleteEffect(s) else Keep(s, Silent))
              case _ => e == Keep(s, Silent)
  {
    if text.None? || text.value == "" then Keep(s, Silent)
    else
      var t := text.value;
      match s.step
      case WaitingLocation => LocationInputEffect(s, t, env)
      case WaitingTitle => TitleEffect(s, t)
      case WaitingDescription => DescriptionEffect(s, t)
      case WaitingPhotos => if t == "Fatto" then PhotosCompleteEffect(s) else Keep(s, Silent)
      case _ => Keep(s, Silent)
  }

  // ------------------------------------------------------------------ callbacks

  /** `categories[Number.parseInt(data.split('_')[1])]`, undefined when out of range or NaN. */
  function CategoryOf(data: string, categories: seq<string>): (r: Option<string>)
    requires StartsWith(data, "cat_")
    ensures |Split(data, '_')| >= 2
    ensures var index := ParseInt(Split(data, '_')[1]);
            r.Some? <==> index.Some? && 0 <= index.value < |categories|
    ensures r.Some? ==> r == Some(categories[ParseInt(Split(data, '_')[1]).value])
    ensures r.Some? ==> r.value in categories
  {
    assert data[3] == "cat_"[3];
    var parts := Split(data, '_');
    var index := ParseInt(parts[1]);
    if index.Some? && 0 <= index.value < |categories| then Some(categories[index.value]) else None
  }

  /** `handleAnonymous`: `anon_yes`/`anon_no` set the flag and show the summary; anything else is ignored. */
  function AnonymousEffect(s: SessionState, data: string): (e: Effect)
    ensures !e.drop && e.sent.None?
    ensures data == "anon_yes" ==> e == Keep(SessionState(WaitingConfirmation, s.data.(isAnonymous := Some(true))), Summary)
    ensures data == "anon_no" ==> e == Keep(SessionState(WaitingConfirmation, s.data.(isAnonymous := Some(false))), Summary)
    ensures data != "anon_yes" && data != "anon_no" ==> e == Keep(s, Silent)
  {
    if data == "anon_yes" then Keep(SessionState(WaitingConfirmation, s.data.(isAnonymous := Some(true))), Summary)
    else if data == "anon_no" then Keep(SessionState(WaitingConfirmation, s.data.(isAnonymous := Some(false))), Summary)
    else Keep(s, Silent)
  }

  /**
   * The request built from the collected data: title and description trimmed, a missing
   * anonymity choice read as `false`. `None` when the title or the description is missing
   * (`.trim()` on `undefined` throws).
   */
  function SubmitRequest(d: ReportData): (r: Option<CreateRequest>)
    ensures r.Some? <==> d.title.Some? && d.description.Some?
    ensures r.Some? ==>
              && r.value.title == Trim(d.title.value)
              && r.value.description == Trim(d.description.value)
              && r.value.isAnonymous == (d.isAnonymous == Some(true))
              && r.value.photos == d.photos
              && r.value.category == d.category && r.value.location == d.location
              && r.value.address == d.address
  {
    if d.title.None? || d.description.None? then None
    else Some(CreateRequest(Trim(d.title.value), Trim(d.description.value), d.category, d.location,
                            d.address, d.photos, d.isAnonymous.GetOr(false)))
  }

  /** The bad-request message is about the location itself. */
  predicate NamesLocation(m: string) {
    Contains(m, "Location is required") || Contains(m, "Location must include")
  }

  /** `handleSaveReportError`: how a failed `createReport` is explained to the citizen. */
  function SaveErrorReply(err: AppError): (r: SaveFailure)
    ensures err.BadRequest? && NamesLocation(err.message) ==> r == LocationInvalid
    ensures (err.BadRequest? && !NamesLocation(err.message) && Contains(err.message, "Invalid coordinates"))
              ==> r == CoordinatesInvalid
    ensures (err.BadRequest? && !NamesLocation(err.message) && !Contains(err.message, "Invalid coordinates")
             && Contains(err.message, "outside Turin city boundaries"))
              ==> r == OutsideBoundaries
    ensures (err.BadRequest? && !NamesLocation(err.message) && !Contains(err.message, "Invalid coordinates")
             && !Contains(err.message, "outside Turin city boundaries")
             && Contains(err.message, "Photos must contain"))
              ==> r == PhotoCountInvalid
    ensures (err.BadRequest? && !NamesLocation(err.message) && !Contains(err.message, "Invalid coordinates")
             && !Contains(err.message, "outside Turin city boundaries")
             && !Contains(err.message, "Photos must contain")
             && Contains(err.message, "unsupported format"))
              ==> r == UnsupportedPhotoFormat
    ensures (err.BadRequest? && !NamesLocation(err.message) && !Contains(err.message, "Invalid coordinates")
             && !Contains(err.message, "outside Turin city boundaries")
             && !Contains(err.message, "Photos must contain")
             && !Contains(err.message, "unsupported format")
             && Contains(err.message, "not a valid image data URI"))
              ==> r == PhotoInvalid
    ensures (err.BadRequest? && !NamesLocation(err.message) && !Contains(err.message, "Invalid coordinates")
             && !Contains(err.message, "outside Turin city boundaries")
             && !Contains(err.message, "Photos must contain")
             && !Contains(err.message, "unsupported format")
             && !Contains(err.message, "not a valid image data URI"))
              ==> r == Echo(err.message)
    ensures err.BadRequest? <==>
              r in {LocationInvalid, CoordinatesInvalid, OutsideBoundaries, PhotoCountInvalid,
                    UnsupportedPhotoFormat, PhotoInvalid} || r.Echo?
    ensures r.Echo? ==> err == BadRequest(r.message)
    ensures err.Unauthorized? <==> r == NotAuthorized
    ensures err.InsufficientRights? <==> r == InsufficientPermissions
    ensures err.NotFound? <==> r == ResourceNotFound
    ensures err.Generic? <==> r == TryAgainLater
  {
    match err
    case BadRequest(m) =>
      if NamesLocation(m) then LocationInvalid
      else if Contains(m, "Invalid coordinates") then CoordinatesInvalid
      else if Contains(m, "outside Turin city boundaries") then OutsideBoundaries
      else if Contains(m, "Photos must contain") then PhotoCountInvalid
      else if Contains(m, "unsupported format") then UnsupportedPhotoFormat
      else if Contains(m, "not a valid image data URI") then PhotoInvalid
      else Echo(m)
    case Unauthorized(_) => NotAuthorized
    case InsufficientRights(_) => InsufficientPermissions
    case NotFound(_) => ResourceNotFound
    case Generic(_) => TryAgainLater
  }

  /**
   * `saveReport`: look the user up, build the request, create the report. The session is
   * removed only when the report was created; any failure keeps it as it is.
   */
  function SaveEffect(s: SessionState, username: Option<string>, env: Env): (e: Effect)
    ensures e.state == s
    ensures e.sent == (if username.Some? && env.userByTelegram(username.value).Some? then SubmitRequest(s.data) else None)
    ensures e.drop <==>
              e.sent.Some? && env.createReport(e.sent.value, env.userByTelegram(username.value).value).Ok?
    ensures e.drop ==> e.reply == ReportCreated(env.createReport(e.sent.value, env.userByTelegram(username.value).value).value)
    ensures !e.drop ==> e.reply.SaveFailed?
  {
    var user := if username.Some? then env.userByTelegram(username.value) else None;
    if user.None? then Keep(s, SaveFailed(TryAgainLater))
    else match SubmitRequest(s.data)
      case None => Keep(s, SaveFailed(TryAgainLater))
      case Some(request) =>
        match env.createReport(request, user.value)
        case Ok(id) => Effect(s, ReportCreated(id), true, Some(request))
        case Err(err) => Effect(s, SaveFailed(SaveErrorReply(err)), false, Some(request))
  }

  /** `handleConfirmation`: `confirm_yes` submits, `confirm_no` removes the session, anything else is ignored. */
  function ConfirmationEffect(s: SessionState, data: string, username: Option<string>, env: Env): (e: Effect)
    ensures e.state == s
    ensures data == "confirm_yes" ==> e == SaveEffect(s, username, env)
    ensures data == "confirm_no" ==> e == Effect(s, Cancelled, true, None)
    ensures data != "confirm_yes" && data != "confirm_no" ==> e == Keep(s, Silent)
  {
    if data == "confirm_yes" then SaveEffect(s, username, env)
    else if data == "confirm_no" then Effect(s, Cancelled, true, None)
    else Keep(s, Silent)
  }

  /** The callback prefixes each step listens to. */
  predicate Listens(step: WizardStep, data: string) {
    || (step == WaitingCategory && StartsWith(data, "cat_"))
    || (step == WaitingPhotos && data == "done")
    || (step == WaitingAnonymous && StartsWith(data, "anon_"))
    || (step == WaitingConfirmation && StartsWith(data, "confirm_"))
  }

  /** `handleCallbackQuery`: a button press acts only when its prefix belongs to the current step. */
  function CallbackEffect(s: SessionState, data: Option<string>, username: Option<string>, env: Env): (e: Effect)
    ensures data.None? || !Listens(s.step, data.value) ==> e == Keep(s, Silent)
    ensures data.Some? && s.step == WaitingCategory && StartsWith(data.value, "cat_") ==>
              e == Keep(SessionState(WaitingPhotos, s.data.(category := CategoryOf(data.value, env.categories))), AskPhotos)
    ensures data.Some? && s.step == WaitingPhotos && data.value == "done" ==> e == PhotosCompleteEffect(s)
    ensures data.Some? && s.step == WaitingAnonymous && StartsWith(data.value, "anon_") ==>
              e == AnonymousEffect(s, data.value)
    ensures data.Some? && s.step == WaitingConfirmation && StartsWith(data.value, "confirm_") ==>
              e == ConfirmationEffect(s, data.value, username, env)
  {
    if data.None? then Keep(s, Silent)
    else
      var d := data.value;
      if StartsWith(d, "cat_") && s.step == WaitingCategory then
        Keep(SessionState(WaitingPhotos, s.data.(category := CategoryOf(d, env.categories))), AskPhotos)
      else if d == "done" && s.step == WaitingPhotos then PhotosCompleteEffect(s)
      else if StartsWith(d, "anon_") && s.step == WaitingAnonymous then AnonymousEffect(s, d)
      else if StartsWith(d, "confirm_") && s.step == WaitingConfirmation then ConfirmationEffect(s, d, username, env)
      else Keep(s, Silent)
  }

  // ------------------------------------------------------------------ properties

  /** A string differing from `p` at position `i` does not start with `p`. */
  lemma NotPrefix(s: string, p: string, i: nat)
    requires i < |p| && (i >= |s| || s[i] != p[i])
    ensures !StartsWith(s, p)
  {
    if |p| <= |s| {
      assert s[..|p|][i] == s[i];
    }
  }

  /** The button built for the category at `index` (`cat_<index>`) selects exactly that category. */
  lemma CategoryButtonRoundTrip(categories: seq<string>, index: nat)
    requires index < |categories|
    ensures StartsWith("cat_" + NatToString(index), "cat_")
    ensures CategoryOf("cat_" + NatToString(index), categories) == Some(categories[index])
  {
    var data := "cat_" + NatToString(index);
    assert data[..4] == "cat_";
    assert data == "cat" + ['_'] + NatToString(index);
    assert '_' !in NatToString(index) by {
      forall i | 0 <= i < |NatToString(index)| ensures NatToString(index)[i] != '_' {
        assert IsDigit(NatToString(index)[i]);
      }
    }
    SplitJoined("cat", NatToString(index), '_');
    ParseIntOfNatString(index);
  }

  /** The address path advances on a geocoding success whatever `validateLocation` would say. */
  lemma AddressPathSkipsValidation(s: SessionState, text: string, env: Env, g: Geocoded)
    requires s.step == WaitingLocation && text != ""
    requires env.parseCoordinates(text).None? && env.geocodeAddress(Trim(text)) == Ok(g)
    ensures var e := TextEffect(s, Some(text), env);
            e.state == SessionState(WaitingTitle, s.data.(location := Some(g.location), address := Some(g.address)))
    ensures forall v: Coords -> Option<AppError> ::
              TextEffect(s, Some(text), env.(validateLocation := v)) == TextEffect(s, Some(text), env)
  {
  }

  /** Title, then description: blank text re-prompts, other text is kept verbatim and advances one step. */
  lemma TitleThenDescription(s: SessionState, title: string, description: string, env: Env)
    requires s.step == WaitingTitle && !IsBlank(title) && !IsBlank(description)
    ensures var e1 := TextEffect(s, Some(title), env);
            var e2 := TextEffect(e1.state, Some(description), env);
            && e2.state.step == WaitingCategory
            && e2.state.data == s.data.(title := Some(title), description := Some(description))
  {
    assert title != [] && description != [];
  }

  /** Pressing "Done" or typing "Fatto" behave alike in the photo step. */
  lemma DoneButtonMatchesFatto(s: SessionState, username: Option<string>, env: Env)
    requires s.step == WaitingPhotos
    ensures CallbackEffect(s, Some("done"), username, env) == TextEffect(s, Some("Fatto"), env)
    ensures CallbackEffect(s, Some("done"), username, env).state.step ==
              (if |s.data.photos| == 0 then WaitingPhotos else WaitingAnonymous)
  {
    NotPrefix("done", "cat_", 0);
  }

  /** The session is removed only by `confirm_no` or by a submission the report service accepted. */
  lemma DroppedOnlyByCancelOrSubmit(s: SessionState, data: Option<string>, username: Option<string>, env: Env)
    ensures var e := CallbackEffect(s, data, username, env);
            e.drop <==>
              && s.step == WaitingConfirmation && data.Some?
              && (|| data.value == "confirm_no"
                  || (data.value == "confirm_yes" && e.sent.Some?
                      && env.createReport(e.sent.value, env.userByTelegram(username.value).value).Ok?))
  {
    if data.Some? && s.step == WaitingConfirmation {
      var d := data.value;
      if d == "confirm_yes" || d == "confirm_no" {
        assert StartsWith(d, "confirm_");
        NotPrefix(d, "cat_", 1);
        NotPrefix(d, "anon_", 0);
      }
    }
  }

  /** A submitted request carries the trimmed title and description and a definite anonymity flag. */
  lemma SubmittedRequestShape(s: SessionState, username: Option<string>, env: Env)
    requires s.step == WaitingConfirmation
    requires s.data.title.Some? && s.data.description.Some?
    requires username.Some? && env.userByTelegram(username.value).Some?
    ensures var e := CallbackEffect(s, Some("confirm_yes"), username, env);
            && e.sent.Some?
            && e.sent.value.title == Trim(s.data.title.value)
            && e.sent.value.description == Trim(s.data.description.value)
            && e.sent.value.isAnonymous == (s.data.isAnonymous == Some(true))
  {
    assert StartsWith("confirm_yes", "confirm_");
    NotPrefix("confirm_yes", "cat_", 1);
    NotPrefix("confirm_yes", "anon_", 0);
  }

  /** The anonymity buttons set the flag and move to the confirmation step. */
  lemma AnonymityChoice(s: SessionState, yes: bool, username: Option<string>, env: Env)
    requires s.step == WaitingAnonymous
    ensures var e := CallbackEffect(s, Some(if yes then "anon_yes" else "anon_no"), username, env);
            e.state == SessionState(WaitingConfirmation, s.data.(isAnonymous := Some(yes))) && !e.drop
  {
    var d := if yes then "anon_yes" else "anon_no";
    assert StartsWith(d, "anon_");
    NotPrefix(d, "cat_", 0);
  }

  /** The state after a run of successfully downloaded photos. */
  function AfterPhotos(s: SessionState, buffers: seq<Buffer>): SessionState
    decreases |buffers|
  {
    if buffers == [] then s
    else AfterPhotos(PhotoEffect(s, Some(Downloaded(buffers[0])), None).state, buffers[1..])
  }

  /** There is no cap on photos: every downloaded photo is kept, however many came before. */
  lemma {:induction false} PhotosHaveNoCap(s: SessionState, buffers: seq<Buffer>)
    ensures AfterPhotos(s, buffers) == s.(data := s.data.(photos := s.data.photos + buffers))
    decreases |buffers|
  {
    if buffers != [] {
      var next := PhotoEffect(s, Some(Downloaded(buffers[0])), None).state;
      PhotosHaveNoCap(next, buffers[1..]);
      assert s.data.photos + [buffers[0]] + buffers[1..] == s.data.photos + buffers;
    }
  }

  /** The create-report middleware's location messages are reported as an invalid location. */
  lemma MiddlewareLocationErrorsRecognised()
    ensures SaveErrorReply(BadRequest(CreateReportValidation.LocationRequired)) == LocationInvalid
    ensures SaveErrorReply(BadRequest(CreateReportValidation.LocationNumeric)) == LocationInvalid
  {
    assert StartsWith(CreateReportValidation.LocationRequired, "Location is required");
    assert StartsWith(CreateReportValidation.LocationNumeric, "Location must include");
  }

  // ------------------------------------------------------------------ the wizard

  /** The `ReportWizard` object; `store` is where its `removeSession` callback deletes sessions. */
  class ReportWizard {
    const store: SessionStore

    constructor (store: SessionStore)
      ensures this.store == store
    {
      this.store := store;
    }

    method HandleLocation(session: UserSession, location: Option<Coords>, env: Env) returns (reply: Reply)
      modifies session
      ensures session.State() == LocationEffect(old(session.State()), location, env).state
      ensures reply == LocationEffect(old(session.State()), location, env).reply
    {
      if location.None? {
        return InvalidLocation;
      }
      reply := ProcessCoordinates(session, location.value, env);
    }

    method ProcessCoordinates(session: UserSession, c: Coords, env: Env) returns (reply: Reply)
      modifies session
      ensures session.State() == CoordinatesEffect(old(session.State()), c, env).state
      ensures reply == CoordinatesEffect(old(session.State()), c, env).reply
    {
      var invalid := env.validateLocation(c);
      if invalid.Some? {
        return LocationErrorReply(invalid.value);
      }
      session.data := session.data.(location := Some(c));
      var address := env.reverseGeocode(c);
      if address.Err? {
        return LocationErrorReply(address.error);
      }
      session.data := session.data.(address := Some(address.value));
      session.step := WaitingTitle;
      reply := AskTitle;
    }

    method ProcessAddress(session: UserSession, text: string, env: Env) returns (reply: Reply)
      modifies session
      ensures session.State() == AddressEffect(old(session.State()), text, env).state
      ensures reply == AddressEffect(old(session.State()), text, env).reply
    {
      var geocoded := env.geocodeAddress(Trim(text));
      if geocoded.Err? {
        return AddressNotFound;
      }
      session.data := session.data.(location := Some(geocoded.value.location));
      session.data := session.data.(address := Some(geocoded.value.address));
      session.step := WaitingTitle;
      reply := AskTitle;
    }

    method HandleText(session: UserSession, text: Option<string>, env: Env) returns (reply: Reply)
      modifies session
      ensures session.State() == TextEffect(old(session.State()), text, env).state
      ensures reply == TextEffect(old(session.State()), text, env).reply
    {
      if text.None? || text.value == "" {
        return Silent;
      }
      var t := text.value;
      if session.step == WaitingLocation {
        if env.parseCoordinates(t).Some? {
          reply := ProcessCoordinates(session, env.parseCoordinates(t).value, env);
        } else {
          reply := ProcessAddress(session, t, env);
        }
        return;
      }
      reply := Silent;
      if session.step == WaitingTitle {
        if Trim(t) == [] {
          return TitleEmpty;
        }
        session.data := session.data.(title := Some(t));
        session.step := WaitingDescription;
        reply := AskDescription;
      } else if session.step == WaitingDescription {
        if Trim(t) == [] {
          return DescriptionEmpty;
        }
        session.data := session.data.(description := Some(t));
        session.step := WaitingCategory;
        reply := ChooseCategory;
      } else if session.step == WaitingPhotos && t == "Fatto" {
        reply := PhotosComplete(session);
      }
    }

    method PhotosComplete(session: UserSession) returns (reply: Reply)
      modifies session
      ensures session.State() == PhotosCompleteEffect(old(session.State())).state
      ensures reply == PhotosCompleteEffect(old(session.State())).reply
    {
      if |session.data.photos| == 0 {
        return NeedPhoto;
      }
      session.step := WaitingAnonymous;
      reply := AskAnonymous;
    }

    method HandlePhotos(session: UserSession, photo: Option<Download>, text: Option<string>) returns (reply: Reply)
      modifies session
      ensures session.State() == PhotoEffect(old(session.State()), photo, text).state
      ensures reply == PhotoEffect(old(session.State()), photo, text).reply
    {
      if photo.Some? {
        if photo.value.DownloadFailed? {
          return Silent;
        }
        session.data := session.data.(photos := session.data.photos + [photo.value.buffer]);
        if |session.data.photos| >= 3 {
          reply := PhotoLimitReached;
        } else {
          reply := PhotoReceived(|session.data.photos|);
        }
      } else if text.Some? && text.value != "" {
        reply := SendPhotosOrDone;
      } else {
        reply := Silent;
      }
    }

    /**
     * `handleCallbackQuery` for the session of chat `chatId`; `confirm_no` and a successful
     * submission remove that chat's session from the store.
     */
    method HandleCallbackQuery(chatId: int, session: UserSession, data: Option<string>, username: Option<string>, env: Env)
      returns (reply: Reply, sent: Option<CreateRequest>)
      requires store.Valid() && chatId in store.sessions && store.sessions[chatId] == session
      modifies session, store
      ensures store.Valid()
      ensures var e := CallbackEffect(old(session.State()), data, username, env);
              && session.State() == e.state && reply == e.reply && sent == e.sent
              && store.sessions == (if e.drop then old(store.sessions) - {chatId} else old(store.sessions))
    {
      sent := None;
      if data.None? {
        return Silent, None;
      }
      var d := data.value;
      if StartsWith(d, "cat_") && session.step == WaitingCategory {
        session.data := session.data.(category := CategoryOf(d, env.categories));
        session.step := WaitingPhotos;
        reply := AskPhotos;
      } else if d == "done" && session.step == WaitingPhotos {
        reply := PhotosComplete(session);
      } else if StartsWith(d, "anon_") && session.step == WaitingAnonymous {
        reply := HandleAnonymous(session, d);
      } else if StartsWith(d, "confirm_") && session.step == WaitingConfirmation {
        reply, sent := HandleConfirmation(chatId, session, d, username, env);
      } else {
        reply := Silent;
      }
    }

    method HandleAnonymous(session: UserSession, data: string) returns (reply: Reply)
      modifies session
      ensures session.State() == AnonymousEffect(old(session.State()), data).state
      ensures reply == AnonymousEffect(old(session.State()), data).reply
    {
      if data == "anon_yes" {
        session.data := session.data.(isAnonymous := Some(true));
      } else if data == "anon_no" {
        session.data := session.data.(isAnonymous := Some(false));
      } else {
        return Silent;
      }
      session.step := WaitingConfirmation;
      reply := Summary;
    }

    method HandleConfirmation(chatId: int, session: UserSession, data: string, username: Option<string>, env: Env)
      returns (reply: Reply, sent: Option<CreateRequest>)
      requires store.Valid() && chatId in store.sessions && store.sessions[chatId] == session
      modifies store
      ensures store.Valid()
      ensures var e := ConfirmationEffect(session.State(), data, username, env);
              && reply == e.reply && sent == e.sent
              && store.sessions == (if e.drop then old(store.sessions) - {chatId} else old(store.sessions))
    {
      sent := None;
      if data == "confirm_yes" {
        reply, sent := SaveReport(chatId, session, username, env);
      } else if data == "confirm_no" {
        reply := Cancelled;
        store.Remove(chatId);
      } else {
        reply := Silent;
      }
    }

    method SaveReport(chatId: int, session: UserSession, username: Option<string>, env: Env)
      returns (reply: Reply, sent: Option<CreateRequest>)
      requires store.Valid() && chatId in store.sessions && store.sessions[chatId] == session
      modifies store
      ensures store.Valid()
      ensures var e := SaveEffect(session.State(), username, env);
              && reply == e.reply && sent == e.sent
              && store.sessions == (if e.drop then old(store.sessions) - {chatId} else old(store.sessions))
    {
      ghost var e := SaveEffect(session.State(), username, env);
      var user := if username.Some? then env.userByTelegram(username.value) else None;
      if user.None? {
        return SaveFailed(TryAgainLater), None;
      }
      var request := SubmitRequest(session.data);
      if request.None? {
        return SaveFailed(TryAgainLater), None;
      }
      sent := request;
      var created := env.createReport(request.value, user.value);
      if created.Err? {
        assert e == Effect(session.State(), SaveFailed(SaveErrorReply(created.error)), false, sent);
        return SaveFailed(SaveErrorReply(created.error)), sent;
      }
      reply := ReportCreated(created.value);
      assert e == Effect(session.State(), reply, true, sent);
      store.Remove(chatId);
    }
  }
}

=== FILE: role_mapping.dfy ===
/**
 * The client's role-to-category table (client/src/utils/roleMapping.js): which report
 * category each technical staff role handles, narrowed to the categories the server knows.
 */
module RoleMapping {

  /** The nine roles and the category each one handles. */
  function BaseMapping(): map<string, string> {
    map[
      "water network staff member" := "Water Supply - Drinking Water",
      "sewer system staff member" := "Sewer System",
      "road maintenance staff member" := "Roads and Urban Furnishings",
      "traffic management staff member" := "Road Signs and Traffic Lights",
      "electrical staff member" := "Public Lighting",
      "building maintenance staff member" := "Architectural Barriers",
      "accessibility staff member" := "Architectural Barriers",
      "recycling program staff member" := "Waste",
      "parks maintenance staff member" := "Public Green Areas and Playgrounds"
    ]
  }

  /** A role survives the filter: the list is empty, or it names the role's category. */
  predicate Keeps(allCategories: seq<string>, category: string) {
    |allCategories| == 0 || category in allCategories
  }

  /** The entries of `mapping` whose category survives the filter, unchanged. */
  function Filter(mapping: map<string, string>, allCategories: seq<string>): (r: map<string, string>)
    ensures forall role :: role in r <==> role in mapping && Keeps(allCategories, mapping[role])
    ensures forall role :: role in r ==> r[role] == mapping[role]
  {
    map role | role in mapping && Keeps(allCategories, mapping[role]) :: mapping[role]
  }

  /** `getRoleDepartmentMapping(allCategories)`: one pass over the roles of the base table. */
  method GetRoleDepartmentMapping(allCategories: seq<string>) returns (filtered: map<string, string>)
    ensures filtered == Filter(BaseMapping(), allCategories)
  {
    var base := BaseMapping();
    var pending := base.Keys;
    filtered := map[];
    while pending != {}
      invariant pending <= base.Keys
      invariant forall role :: role in filtered <==>
                  role in base && role !in pending && Keeps(allCategories, base[role])
      invariant forall role :: role in filtered ==> filtered[role] == base[role]
      decreases pending
    {
      if forall role :: role !in pending {
        assert false;
      }
      var role :| role in pending;
      var category := base[role];
      if |allCategories| == 0 || category in allCategories {
        filtered := filtered[role := category];
      }
      pending := pending - {role};
    }
  }

  // ------------------------------------------------------------------ properties

  /** With no categories known, every role of the base table is kept. */
  lemma EmptyListKeepsAll(mapping: map<string, string>)
    ensures Filter(mapping, []) == mapping
  {
  }

  /** Filtering never adds a role and never changes a category. */
  lemma FilterIsRestriction(mapping: map<string, string>, allCategories: seq<string>)
    ensures Filter(mapping, allCategories).Keys <= mapping.Keys
    ensures Filter(mapping, allCategories) == mapping - (mapping.Keys - Filter(mapping, allCategories).Keys)
  {
  }

  /** Filtering twice with the same list is filtering once. */
  lemma FilterIdempotent(mapping: map<string, string>, allCategories: seq<string>)
    ensures Filter(Filter(mapping, allCategories), allCategories) == Filter(mapping, allCategories)
  {
  }

  /** The nine roles of the base table; two of them share the Architectural Barriers category. */
  lemma NineRoles()
    ensures BaseMapping().Keys == {
      "water network staff member", "sewer system staff member", "road maintenance staff member",
      "traffic management staff member", "electrical staff member",
      "building maintenance staff member", "accessibility staff member",
      "recycling program staff member", "parks maintenance staff member"}
    ensures BaseMapping()["building maintenance staff member"] == BaseMapping()["accessibility staff member"]
  {
  }

  /** A list naming only Waste keeps exactly the recycling role. */
  lemma OnlyWaste()
    ensures Filter(BaseMapping(), ["Waste"]) == map["recycling program staff member" := "Waste"]
  {
  }
}

=== FILE: telegram_link_modal.dfy ===
/**
 * The countdown of the Telegram link code (client/src/components/TelegramLinkModal.jsx):
 * once a second the remaining time is recomputed from the expiry instant, shown as
 * minutes:seconds, and when it reaches zero the code and its expiry are forgotten.
 */
module TelegramLinkCountdown {
  import opened Wrappers
  import opened Text

  /** `secs.toString().padStart(2, '0')` */
  function PadTwo(s: string): (r: string)
    ensures |s| < 2 ==> r == ['0'] + s
    ensures |s| >= 2 ==> r == s
  {
    if |s| < 2 then ['0'] + s else s
  }

  /** `formatTime(seconds)`: whole minutes, a colon, and the seconds in two digits. */
  function FormatTime(seconds: nat): (r: string)
    ensures r == NatToString(seconds / 60) + ":" + PadTwo(NatToString(seconds % 60))
    ensures |PadTwo(NatToString(seconds % 60))| == 2 && AllDigits(PadTwo(NatToString(seconds % 60)))
  {
    var secs := NatToString(seconds % 60);
    assert |secs| <= 2 by {
      if seconds % 60 >= 10 {
        assert NatToString(seconds % 60) == NatToString(seconds % 60 / 10) + [DigitChar(seconds % 60 % 10)];
      }
    }
    NatToString(seconds / 60) + ":" + PadTwo(secs)
  }

  /** Reads `m:ss` back as a number of seconds. */
  function ParseTime(t: string): (r: Option<nat>)
  {
    var parts := Split(t, ':');
    if |parts| == 2 && parts[0] != [] && AllDigits(parts[0]) && |parts[1]| == 2 && AllDigits(parts[1])
    then Some(60 * DigitsValue(parts[0]) + DigitsValue(parts[1]))
    else None
  }

  /** The two-digit field shows a number below 60, and reading the text back gives `seconds`. */
  lemma FormatTimeRoundTrip(seconds: nat)
    ensures ParseTime(FormatTime(seconds)) == Some(seconds)
    ensures DigitsValue(PadTwo(NatToString(seconds % 60))) == seconds % 60 < 60
  {
    var m := NatToString(seconds / 60);
    var s := PadTwo(NatToString(seconds % 60));
    FormatTimeSplits(seconds);
    assert DigitsValue(m) == seconds / 60 by {
      NatToStringValue(seconds / 60);
    }
    PadTwoValue(seconds % 60);
  }

  /** The colon is the only separator in the rendered time. */
  lemma FormatTimeSplits(seconds: nat)
    ensures Split(FormatTime(seconds), ':') == [NatToString(seconds / 60), PadTwo(NatToString(seconds % 60))]
  {
    var m := NatToString(seconds / 60);
    var s := PadTwo(NatToString(seconds % 60));
    assert ':' !in m by {
      assert forall i :: 0 <= i < |m| ==> IsDigit(m[i]);
    }
    assert ':' !in s by {
      assert forall i :: 0 <= i < |s| ==> IsDigit(s[i]);
    }
    assert FormatTime(seconds) == m + [':'] + s;
    SplitJoined(m, s, ':');
  }

  /** Padding with a leading zero keeps the value. */
  lemma PadTwoValue(n: nat)
    requires n < 60
    ensures AllDigits(PadTwo(NatToString(n)))
    ensures DigitsValue(PadTwo(NatToString(n))) == n
  {
    NatToStringValue(n);
    var s := NatToString(n);
    if |s| < 2 {
      var p := ['0'] + s;
      assert p[..|p| - 1] == ['0'];
      assert DigitsValue(['0']) == 0 by {
        assert ['0'][..0] == [];
      }
      assert s[..0] == [];
    }
  }

  /** `Math.max(0, Math.floor((expiry - now) / 1000))`, in whole seconds. */
  function Remaining(expiry: int, now: int): (r: nat)
    ensures r == 0 <==> expiry - now < 1000
    ensures r * 1000 <= if expiry - now < 0 then 0 else expiry - now
    ensures expiry - now >= 0 ==> expiry - now < (r + 1) * 1000
  {
    if expiry - now < 1000 then 0 else (expiry - now) / 1000
  }

  /** Time only runs down: a later instant never shows more time left. */
  lemma RemainingMonotone(expiry: int, now: int, later: int)
    requires now <= later
    ensures Remaining(expiry, later) <= Remaining(expiry, now)
  {
    if expiry - later >= 1000 {
      DivMonotone(expiry - later, expiry - now);
    }
  }

  lemma DivMonotone(a: int, b: int)
    requires 0 <= a <= b
    ensures a / 1000 <= b / 1000
  {
  }

  /** The modal's code, its expiry instant and the seconds shown. */
  class Countdown {
    var code: Option<string>
    var expiresAt: Option<int>
    var timeLeft: nat

    constructor ()
      ensures code.None? && expiresAt.None? && timeLeft == 0
    {
      code := None;
      expiresAt := None;
      timeLeft := 0;
    }

    /** A code has been issued (or loaded) together with its expiry. */
    method SetCode(c: string, expiry: int)
      modifies this
      ensures code == Some(c) && expiresAt == Some(expiry) && timeLeft == old(timeLeft)
    {
      code := Some(c);
      expiresAt := Some(expiry);
    }

    /** One tick of the interval, which runs only while an expiry is set. */
    method Tick(now: int)
      requires expiresAt.Some?
      modifies this
      ensures timeLeft == Remaining(old(expiresAt).value, now)
      ensures timeLeft == 0 ==> code.None? && expiresAt.None?
      ensures timeLeft > 0 ==> code == old(code) && expiresAt == old(expiresAt)
    {
      var remaining := Remaining(expiresAt.value, now);
      timeLeft := remaining;
      if remaining == 0 {
        code := None;
        expiresAt := None;
      }
    }
  }
}

=== FILE: telegram_session.dfy ===
/**
 * The state the Telegram bot keeps per chat while a citizen files a report: the wizard step,
 * the data collected so far, and the module-level table of sessions keyed by chat id
 * (server/src/telegramBot/reportHandler.ts). The messages the bot sends are named by `Reply`.
 */
module TelegramSessions {
  import opened Wrappers
  import opened Errors

  /** The wizard's steps, in the order a report is collected. */
  datatype WizardStep =
    | WaitingLocation
    | WaitingTitle
    | WaitingDescription
    | WaitingCategory
    | WaitingPhotos
    | WaitingAnonymous
    | WaitingConfirmation

  datatype Coords = Coords(latitude: real, longitude: real)

  /** A downloaded photo. */
  type Buffer = seq<bv8>

  /**
   * What the wizard has collected. A missing `photos` array and an empty one are treated
   * alike everywhere in the source, so both are the empty sequence here.
   */
  datatype ReportData = ReportData(
    location: Option<Coords>,
    address: Option<string>,
    title: Option<string>,
    description: Option<string>,
    category: Option<string>,
    photos: seq<Buffer>,
    isAnonymous: Option<bool>)

  /** The `data: {}` of a new session. */
  const EmptyData := ReportData(None, None, None, None, None, [], None)

  datatype SessionState = SessionState(step: WizardStep, data: ReportData)

  /** How `saveReport` explains a failed submission. */
  datatype SaveFailure =
    | LocationInvalid          // "Invalid location."
    | CoordinatesInvalid       // "Invalid coordinates. Latitude must be between ..."
    | OutsideBoundaries        // "The location must be within the boundaries of Turin."
    | PhotoCountInvalid        // "You must attach between 1 and 3 valid photos."
    | UnsupportedPhotoFormat   // "Unsupported photo format. ..."
    | PhotoInvalid             // "Invalid photo."
    | Echo(message: string)    // "Error: " followed by the server's own message
    | NotAuthorized            // "Not authorized to create reports."
    | InsufficientPermissions  // "Insufficient permissions."
    | ResourceNotFound         // "Resource not found."
    | TryAgainLater            // "Error creating the report. Please try again later."

  /** The messages the bot sends back to the chat. */
  datatype Reply =
    | Silent                        // nothing is sent
    | InvalidLocation               // a location message without a location
    | OutsideTurin                  // the location failed validation with a bad-request error
    | LocationCheckFailed           // any other error while checking the location
    | AddressNotFound               // geocoding the typed address failed
    | AskTitle
    | TitleEmpty
    | AskDescription
    | DescriptionEmpty
    | ChooseCategory                // the keyboard of `cat_<index>` buttons
    | AskPhotos
    | PhotoReceived(count: nat)     // "Photo received (count/3)."
    | PhotoLimitReached             // three or more photos
    | SendPhotosOrDone              // text while photos are expected
    | NeedPhoto                     // "Done" with no photo
    | AskAnonymous
    | Summary                       // the confirmation summary with Confirm/Cancel buttons
    | Cancelled
    | ReportCreated(id: int)
    | SaveFailed(failure: SaveFailure)
    | UsernameRequired              // `/newreport` without a Telegram username
    | NotRegistered                 // `/newreport` for a username no user has linked
    | AskLocation
    | LinkUsernameRequired          // `/link` without a Telegram username
    | LinkFormat                    // "Correct format: /link <code>"
    | LinkCodeFormat                // "The code must be 6 numeric digits."
    | Linked(message: string)       // the repository's own answer
    | LinkFailed                    // "Error linking the account. Try again later."

  /** One chat's session, mutated in place by the wizard. */
  class UserSession {
    var step: WizardStep
    var data: ReportData

    constructor (step: WizardStep, data: ReportData)
      ensures this.step == step && this.data == data
    {
      this.step := step;
      this.data := data;
    }

    function State(): SessionState
      reads this
    {
      SessionState(step, data)
    }
  }

  /** The `userSessions` map: at most one session per chat. */
  class SessionStore {
    var sessions: map<int, UserSession>

    constructor ()
      ensures sessions == map[]
    {
      sessions := map[];
    }

    /** Every chat has its own session object. */
    ghost predicate Valid()
      reads this
    {
      forall a, b :: a in sessions && b in sessions && a != b ==> sessions[a] != sessions[b]
    }

    /** The sessions' current states by chat. */
    function View(): map<int, SessionState>
      reads this, sessions.Values
    {
      map c | c in sessions :: sessions[c].State()
    }

    /** `userSessions.set(chatId, session)` with a session object no other chat holds. */
    method Put(chatId: int, session: UserSession)
      requires Valid() && session !in sessions.Values
      modifies this
      ensures Valid()
      ensures sessions == old(sessions)[chatId := session]
      ensures View() == old(View())[chatId := session.State()]
    {
      sessions := sessions[chatId := session];
    }

    /** `userSessions.delete(chatId)`, the wizard's `removeSession` callback. */
    method Remove(chatId: int)
      requires Valid()
      modifies this
      ensures Valid()
      ensures sessions == old(sessions) - {chatId}
      ensures View() == old(View()) - {chatId}
    {
      sessions := sessions - {chatId};
    }
  }
}

=== FILE: text.dfy ===
/**
 * The string primitives of JavaScript that the core relies on: `String.prototype.trim`,
 * the `\s` class of regular expressions, `toLowerCase`/`toUpperCase` on ASCII letters,
 * decimal rendering of numbers (`toString`) and `parseInt`.
 */
module Text {
  import opened Wrappers

  /** The characters JavaScript's `trim` removes and `\s` matches (WhiteSpace and LineTerminator). */
  predicate IsSpace(c: char) {
    || c == ' ' || c == '\t' || c == '\n' || c == '\U{000B}' || c == '\U{000C}' || c == '\r'
    || c == '\U{00A0}' || c == '\U{1680}' || ('\U{2000}' <= c <= '\U{200A}')
    || c == '\U{2028}' || c == '\U{2029}' || c == '\U{202F}' || c == '\U{205F}'
    || c == '\U{3000}' || c == '\U{FEFF}'
  }

  /** A string made only of whitespace (the empty string included). */
  predicate IsBlank(s: string) {
    forall i :: 0 <= i < |s| ==> IsSpace(s[i])
  }

  /** The first position at or after `i` that holds no whitespace (`|s|` when there is none). */
  function SkipSpaces(s: string, i: nat): (k: nat)
    requires i <= |s|
    ensures i <= k <= |s|
    ensures forall j :: i <= j < k ==> IsSpace(s[j])
    ensures k == |s| || !IsSpace(s[k])
    decreases |s| - i
  {
    if i < |s| && IsSpace(s[i]) then SkipSpaces(s, i + 1) else i
  }

  /** The position just after the last non-whitespace character before `j` (0 when there is none). */
  function SkipSpacesBack(s: string, j: nat): (k: nat)
    requires j <= |s|
    ensures k <= j
    ensures forall i :: k <= i < j ==> IsSpace(s[i])
    ensures k == 0 || !IsSpace(s[k - 1])
  {
    if j > 0 && IsSpace(s[j - 1]) then SkipSpacesBack(s, j - 1) else j
  }

  /** Whitespace at every position of a range makes that slice blank. */
  lemma BlankSlice(s: string, i: nat, j: nat)
    requires i <= j <= |s|
    requires forall k :: i <= k < j ==> IsSpace(s[k])
    ensures IsBlank(s[i..j])
  {
    assert forall k :: 0 <= k < j - i ==> s[i..j][k] == s[i + k];
  }

  /** `s.trimStart()`: drops the leading whitespace and nothing else. */
  function TrimStart(s: string): (r: string)
    ensures |r| <= |s| && r == s[|s| - |r|..]
    ensures r == [] || !IsSpace(r[0])
    ensures IsBlank(s[..|s| - |r|])
    ensures r == [] <==> IsBlank(s)
  {
    var k := SkipSpaces(s, 0);
    BlankSlice(s, 0, k);
    assert s[0..k] == s[..k];
    s[k..]
  }

  /** `s.trim()`: whitespace dropped from both ends; nothing is left exactly when `s` is blank. */
  function Trim(s: string): (r: string)
    ensures |r| <= |s|
    ensures r == [] || (!IsSpace(r[0]) && !IsSpace(r[|r| - 1]))
    ensures r == [] <==> IsBlank(s)
  {
    var i := SkipSpaces(s, 0);
    if i == |s| then
      BlankSlice(s, 0, |s|);
      assert s[0..|s|] == s;
      []
    else
      var j := SkipSpacesBack(s, |s|);
      assert !IsSpace(s[i]);
      s[i..j]
  }

  /** What `Trim` keeps is a contiguous part of `s` with only whitespace around it. */
  lemma TrimIsMiddle(s: string)
    ensures exists i, j :: 0 <= i <= j <= |s| && Trim(s) == s[i..j] && IsBlank(s[..i]) && IsBlank(s[j..])
  {
    var i := SkipSpaces(s, 0);
    var j := SkipSpacesBack(s, |s|);
    if i == |s| {
      BlankSlice(s, 0, |s|);
      assert s[0..|s|] == s[..|s|];
      assert Trim(s) == s[|s|..|s|];
      assert IsBlank(s[|s|..]);
    } else {
      assert !IsSpace(s[i]);
      BlankSlice(s, 0, i);
      assert s[0..i] == s[..i];
      BlankSlice(s, j, |s|);
      assert s[j..|s|] == s[j..];
      assert Trim(s) == s[i..j];
    }
  }

  /** A string with no whitespace at either end is its own trim. */
  lemma TrimOfTrimmed(s: string)
    requires s == [] || (!IsSpace(s[0]) && !IsSpace(s[|s| - 1]))
    ensures Trim(s) == s
  {
  }

  /** Splits `s` at every occurrence of `sep`, like `s.split(sep)`. */
  function Split(s: string, sep: char): (parts: seq<string>)
    ensures |parts| >= 1
    ensures forall i :: 0 <= i < |parts| ==> sep !in parts[i]
    ensures sep !in s <==> parts == [s]
    ensures sep in s ==> |parts| >= 2 && parts[0] == s[..IndexOf(s, sep)]
    decreases |s|
  {
    if sep !in s then [s]
    else
      var k := IndexOf(s, sep);
      [s[..k]] + Split(s[k + 1..], sep)
  }

  /** Two pieces joined by a separator neither contains split back into the two pieces. */
  lemma SplitJoined(a: string, b: string, sep: char)
    requires sep !in a && sep !in b
    ensures Split(a + [sep] + b, sep) == [a, b]
  {
    var s := a + [sep] + b;
    assert s[|a|] == sep;
    var k := IndexOf(s, sep);
    assert s[..|a|] == a;
    if k != |a| {
      assert false;
    }
    assert s[k + 1..] == b;
    assert Split(b, sep) == [b];
  }

  /** `parts.join(sep)` */
  function Join(parts: seq<string>, sep: string): string {
    if parts == [] then []
    else if |parts| == 1 then parts[0]
    else parts[0] + sep + Join(parts[1..], sep)
  }

  /** The index of the first occurrence of `c` in `s`. */
  function IndexOf(s: string, c: char): (k: nat)
    requires c in s
    ensures k < |s| && s[k] == c && c !in s[..k]
  {
    if s[0] == c then 0 else 1 + IndexOf(s[1..], c)
  }

  /** `s.split(sep).length`: one more than the number of separators. */
  function Count(s: string, c: char): nat {
    if s == [] then 0 else (if s[0] == c then 1 else 0) + Count(s[1..], c)
  }

  lemma {:induction false} SplitLength(s: string, sep: char)
    ensures |Split(s, sep)| == Count(s, sep) + 1
    decreases |s|
  {
    if sep in s {
      var k := IndexOf(s, sep);
      SplitLength(s[k + 1..], sep);
      CountAppend(s[..k + 1], s[k + 1..], sep);
      CountAbsent(s[..k], sep);
      CountAppend(s[..k], [sep], sep);
      assert s[..k + 1] == s[..k] + [sep];
      assert s == s[..k + 1] + s[k + 1..];
    } else {
      CountAbsent(s, sep);
    }
  }

  lemma {:induction false} CountAppend(a: string, b: string, c: char)
    ensures Count(a + b, c) == Count(a, c) + Count(b, c)
  {
    if a != [] {
      assert (a + b)[1..] == a[1..] + b;
      CountAppend(a[1..], b, c);
    } else {
      assert a + b == b;
    }
  }

  lemma {:induction false} CountAbsent(s: string, c: char)
    requires c !in s
    ensures Count(s, c) == 0
  {
    if s != [] {
      CountAbsent(s[1..], c);
    }
  }

  /** `s.startsWith(p)` */
  predicate StartsWith(s: string, p: string) {
    |p| <= |s| && s[..|p|] == p
  }

  /** `s.includes(p)`: `p` occurs somewhere in `s`. */
  predicate Contains(s: string, p: string)
    decreases |s|
  {
    StartsWith(s, p) || (s != [] && Contains(s[1..], p))
  }

  /** ASCII part of `toLowerCase`. */
  function LowerChar(c: char): char {
    if 'A' <= c <= 'Z' then (c as int + 32) as char else c
  }

  /** ASCII part of `toUpperCase`. */
  function UpperChar(c: char): char {
    if 'a' <= c <= 'z' then (c as int - 32) as char else c
  }

  /** `s.toLowerCase()` on ASCII letters. */
  function Lower(s: string): (r: string)
    ensures |r| == |s| && forall i :: 0 <= i < |s| ==> r[i] == LowerChar(s[i])
  {
    if s == [] then [] else [LowerChar(s[0])] + Lower(s[1..])
  }

  /** `s.replaceAll(from, to)` for single characters. */
  function ReplaceAll(s: string, from: char, to: char): (r: string)
    ensures |r| == |s|
    ensures forall i :: 0 <= i < |s| ==> r[i] == (if s[i] == from then to else s[i])
  {
    if s == [] then [] else [if s[0] == from then to else s[0]] + ReplaceAll(s[1..], from, to)
  }

  // ---------------------------------------------------------------- decimal numbers

  predicate IsDigit(c: char) {
    '0' <= c <= '9'
  }

  predicate AllDigits(s: string) {
    forall i :: 0 <= i < |s| ==> IsDigit(s[i])
  }

  function DigitChar(d: nat): (c: char)
    requires d < 10
    ensures IsDigit(c)
  {
    ('0' as int + d) as char
  }

  function DigitValue(c: char): (d: nat)
    requires IsDigit(c)
    ensures d < 10 && DigitChar(d) == c
  {
    c as int - '0' as int
  }

  /** `n.toString()` for a non-negative integer. */
  function NatToString(n: nat): (s: string)
    ensures |s| >= 1 && AllDigits(s)
    ensures n < 10 <==> |s| == 1
  {
    if n < 10 then [DigitChar(n)] else NatToString(n / 10) + [DigitChar(n % 10)]
  }

  /** The value of a string of decimal digits, most significant first. */
  function DigitsValue(s: string): nat
    requires AllDigits(s)
  {
    if s == [] then 0 else DigitsValue(s[..|s| - 1]) * 10 + DigitValue(s[|s| - 1])
  }

  /** Reading back the decimal rendering of a number gives the number. */
  lemma {:induction false} NatToStringValue(n: nat)
    ensures DigitsValue(NatToString(n)) == n
  {
    if n >= 10 {
      var s := NatToString(n);
      assert s[..|s| - 1] == NatToString(n / 10);
      NatToStringValue(n / 10);
    }
  }

  /** The longest prefix of `s` made of decimal digits. */
  function LeadingDigits(s: string): (d: string)
    ensures |d| <= |s| && d == s[..|d|] && AllDigits(d)
    ensures |d| == |s| || !IsDigit(s[|d|])
  {
    if s != [] && IsDigit(s[0]) then [s[0]] + LeadingDigits(s[1..]) else []
  }

  lemma {:induction false} LeadingDigitsOfDigits(s: string)
    requires AllDigits(s)
    ensures LeadingDigits(s) == s
  {
    if s != [] {
      LeadingDigitsOfDigits(s[1..]);
    }
  }

  /**
   * `parseInt(s)` in base 10: leading whitespace is skipped, one optional sign is read, then
   * as many decimal digits as follow; `None` stands for `NaN` (no digit at all).
   */
  function ParseInt(s: string): (r: Option<int>)
    ensures r.None? <==> LeadingDigits(Unsigned(TrimStart(s))) == []
  {
    var t := TrimStart(s);
    var digits := LeadingDigits(Unsigned(t));
    if digits == [] then None
    else if t[0] == '-' then Some(0 - DigitsValue(digits) as int)
    else Some(DigitsValue(digits))
  }

  /** The text after an optional leading sign. */
  function Unsigned(t: string): string {
    if t != [] && (t[0] == '-' || t[0] == '+') then t[1..] else t
  }

  /** `parseInt(n.toString()) === n`: ids rendered by `toString` are read back unchanged. */
  lemma ParseIntOfNatString(n: nat)
    ensures ParseInt(NatToString(n)) == Some(n)
  {
    NatToStringValue(n);
    ParseIntOfDigits(NatToString(n));
  }

  /** A non-empty run of digits is read whole. */
  lemma ParseIntOfDigits(s: string)
    requires s != [] && AllDigits(s)
    ensures ParseInt(s) == Some(DigitsValue(s))
  {
    assert IsDigit(s[0]);
    TrimStartOfTrimmed(s);
    assert Unsigned(s) == s;
    LeadingDigitsOfDigits(s);
  }

  /** Text that does not start with whitespace is its own `trimStart`. */
  lemma TrimStartOfTrimmed(s: string)
    requires s == [] || !IsSpace(s[0])
    ensures TrimStart(s) == s
  {
    assert SkipSpaces(s, 0) == 0;
  }
}

=== FILE: user_details.dfy ===
/**
 * Editing a municipality user's roles (client/src/components/UserDetails.jsx): a role is
 * removed by position, added from the department/role catalogue at most once per
 * department-role id, and the role choices offered for a department are its distinct roles.
 */
module UserDetailsEditing {
  import opened Wrappers

  /** One role of the user being edited. */
  datatype RoleEntry = RoleEntry(departmentRoleId: int, departmentName: string, roleName: string)

  /** One entry of the department/role catalogue. */
  datatype CatalogueEntry = CatalogueEntry(id: int, department: string, role: string)

  /** No department-role id appears twice. */
  predicate DistinctIds(roles: seq<RoleEntry>) {
    forall i, j :: 0 <= i < j < |roles| ==> roles[i].departmentRoleId != roles[j].departmentRoleId
  }

  // ------------------------------------------------------------------ removing

  /** `roles.filter((_, i) => i !== index)`, with `offset` the position of `roles[0]`. */
  function DropIndex(roles: seq<RoleEntry>, index: int, offset: int): (r: seq<RoleEntry>)
    decreases |roles|
  {
    if roles == [] then []
    else (if offset == index then [] else [roles[0]]) + DropIndex(roles[1..], index, offset + 1)
  }

  /** Removing position `index` drops exactly that entry; any other index changes nothing. */
  lemma {:induction false} DropIndexIsSlice(roles: seq<RoleEntry>, index: int, offset: int)
    ensures offset <= index < offset + |roles| ==>
              DropIndex(roles, index, offset) == roles[..index - offset] + roles[index - offset + 1..]
    ensures !(offset <= index < offset + |roles|) ==> DropIndex(roles, index, offset) == roles
    decreases |roles|
  {
    if roles != [] {
      DropIndexIsSlice(roles[1..], index, offset + 1);
      if offset == index {
        assert DropIndex(roles[1..], index, offset + 1) == roles[1..];
      } else if offset < index < offset + |roles| {
        assert roles[..index - offset] == [roles[0]] + roles[1..][..index - offset - 1];
        assert roles[index - offset + 1..] == roles[1..][index - offset..];
      }
    }
  }

  /** `handleRemoveRole(index)` on the role list. */
  function RemoveRole(roles: seq<RoleEntry>, index: int): (r: seq<RoleEntry>)
    ensures 0 <= index < |roles| ==> r == roles[..index] + roles[index + 1..]
    ensures !(0 <= index < |roles|) ==> r == roles
  {
    DropIndexIsSlice(roles, index, 0);
    DropIndex(roles, index, 0)
  }

  /** Removing keeps the ids distinct. */
  lemma RemoveKeepsDistinct(roles: seq<RoleEntry>, index: int)
    requires DistinctIds(roles)
    ensures DistinctIds(RemoveRole(roles, index))
  {
    if 0 <= index < |roles| {
      var r := RemoveRole(roles, index);
      forall i, j | 0 <= i < j < |r|
        ensures r[i].departmentRoleId != r[j].departmentRoleId
      {
        var i' := if i < index then i else i + 1;
        var j' := if j < index then j else j + 1;
        assert r[i] == roles[i'] && r[j] == roles[j'];
      }
    }
  }

  // ------------------------------------------------------------------ adding

  /** `catalogue.find(...)`: the first entry for this department and role. */
  function FindEntry(catalogue: seq<CatalogueEntry>, department: string, role: string): (r: Option<CatalogueEntry>)
    ensures r.None? <==> forall i :: 0 <= i < |catalogue| ==>
              !(catalogue[i].department == department && catalogue[i].role == role)
    ensures r.Some? ==> r.value.department == department && r.value.role == role
  {
    if catalogue == [] then None
    else if catalogue[0].department == department && catalogue[0].role == role then Some(catalogue[0])
    else
      assert forall i :: 1 <= i < |catalogue| ==> catalogue[i] == catalogue[1..][i - 1];
      FindEntry(catalogue[1..], department, role)
  }

  /** The entry found is the first matching one of the catalogue. */
  lemma {:induction false} FindEntryFirst(catalogue: seq<CatalogueEntry>, department: string, role: string)
    requires FindEntry(catalogue, department, role).Some?
    ensures exists i :: 0 <= i < |catalogue| && catalogue[i] == FindEntry(catalogue, department, role).value
                        && forall k :: 0 <= k < i ==>
                             !(catalogue[k].department == department && catalogue[k].role == role)
  {
    if !(catalogue[0].department == department && catalogue[0].role == role) {
      var tail := catalogue[1..];
      FindEntryFirst(tail, department, role);
      var i :| 0 <= i < |tail| && tail[i] == FindEntry(tail, department, role).value
               && forall k :: 0 <= k < i ==> !(tail[k].department == department && tail[k].role == role);
      assert catalogue[i + 1] == tail[i];
      forall k | 0 <= k < i + 1
        ensures !(catalogue[k].department == department && catalogue[k].role == role)
      {
        if k > 0 {
          assert catalogue[k] == tail[k - 1];
        }
      }
    } else {
      assert catalogue[0] == FindEntry(catalogue, department, role).value;
    }
  }

  /** `roles.some(r => r.department_role_id === id)` */
  predicate HasId(roles: seq<RoleEntry>, id: int) {
    exists i :: 0 <= i < |roles| && roles[i].departmentRoleId == id
  }

  /** The role list after `handleAddRole` with both selections made. */
  function AddRole(roles: seq<RoleEntry>, catalogue: seq<CatalogueEntry>, department: string, role: string)
    : (r: seq<RoleEntry>)
    ensures |r| == |roles| || |r| == |roles| + 1
    ensures r[..|roles|] == roles
    ensures |r| == |roles| + 1 <==> FindEntry(catalogue, department, role).Some?
                                    && !HasId(roles, FindEntry(catalogue, department, role).value.id)
    ensures |r| == |roles| + 1 ==>
              r[|roles|] == RoleEntry(FindEntry(catalogue, department, role).value.id, department, role)
  {
    match FindEntry(catalogue, department, role)
    case None => roles
    case Some(entry) =>
      if HasId(roles, entry.id) then roles
      else roles + [RoleEntry(entry.id, department, role)]
  }

  /** Adding keeps the ids distinct. */
  lemma AddKeepsDistinct(roles: seq<RoleEntry>, catalogue: seq<CatalogueEntry>, department: string, role: string)
    requires DistinctIds(roles)
    ensures DistinctIds(AddRole(roles, catalogue, department, role))
  {
    var r := AddRole(roles, catalogue, department, role);
    if |r| != |roles| {
      var id := FindEntry(catalogue, department, role).value.id;
      assert !HasId(roles, id);
    }
  }

  // ------------------------------------------------------------------ role choices

  /** The position of the first occurrence of `x` in `s`. */
  function FirstIndex(s: seq<string>, x: string): (k: nat)
    requires x in s
    ensures k < |s| && s[k] == x
    ensures forall j :: 0 <= j < k ==> s[j] != x
  {
    if s[0] == x then 0 else 1 + FirstIndex(s[1..], x)
  }

  /** Extending a sequence does not move the first occurrence of anything it already held. */
  lemma FirstIndexOfPrefix(s: seq<string>, n: nat, x: string)
    requires n <= |s| && x in s[..n]
    ensures x in s && FirstIndex(s, x) == FirstIndex(s[..n], x)
  {
    var k := FirstIndex(s[..n], x);
    assert s[k] == x;
  }

  /** The elements of `s` in order of first occurrence: `[...new Set(s)]`. */
  function Distinct(s: seq<string>): (r: seq<string>)
    ensures forall x :: x in r <==> x in s
    ensures forall i, j :: 0 <= i < j < |r| ==> r[i] != r[j]
    ensures forall i, j :: 0 <= i < j < |r| ==> FirstIndex(s, r[i]) < FirstIndex(s, r[j])
  {
    if s == [] then []
    else
      var p := s[..|s| - 1];
      var rest := Distinct(p);
      assert forall x :: x in s <==> x in p || x == s[|s| - 1];
      assert forall i :: 0 <= i < |rest| ==> FirstIndex(s, rest[i]) == FirstIndex(p, rest[i]) by {
        forall i | 0 <= i < |rest| ensures FirstIndex(s, rest[i]) == FirstIndex(p, rest[i]) {
          FirstIndexOfPrefix(s, |s| - 1, rest[i]);
        }
      }
      if s[|s| - 1] in rest then rest
      else
        assert FirstIndex(s, s[|s| - 1]) == |s| - 1;
        rest + [s[|s| - 1]]
  }

  /** The roles the catalogue lists for `department`, in catalogue order. */
  function RolesOf(catalogue: seq<CatalogueEntry>, department: string): (r: seq<string>)
    ensures forall x :: x in r <==> exists i :: 0 <= i < |catalogue| && catalogue[i].department == department
                                                && catalogue[i].role == x
  {
    if catalogue == [] then []
    else
      var rest := RolesOf(catalogue[1..], department);
      assert forall i :: 1 <= i < |catalogue| ==> catalogue[i] == catalogue[1..][i - 1];
      if catalogue[0].department == department then [catalogue[0].role] + rest else rest
  }

  /** Listing the roles distributes over concatenation, so catalogue order is kept. */
  lemma {:induction false} RolesOfSplits(a: seq<CatalogueEntry>, b: seq<CatalogueEntry>, department: string)
    ensures RolesOf(a + b, department) == RolesOf(a, department) + RolesOf(b, department)
  {
    if a == [] {
      assert a + b == b;
    } else {
      assert (a + b)[1..] == a[1..] + b;
      RolesOfSplits(a[1..], b, department);
    }
  }

  /** `availableRolesForDept`: nothing without a department, else its distinct roles. */
  function AvailableRolesForDept(catalogue: seq<CatalogueEntry>, department: string): (r: seq<string>)
    ensures department == "" ==> r == []
    ensures department != "" ==>
              && (forall i, j :: 0 <= i < j < |r| ==> r[i] != r[j])
              && (forall x :: x in r <==> exists i :: 0 <= i < |catalogue| && catalogue[i].department == department
                                                      && catalogue[i].role == x)
  {
    if department == "" then [] else Distinct(RolesOf(catalogue, department))
  }

  // ------------------------------------------------------------------ the form

  /** The edit form's role list and its two selections. */
  class RoleEditor {
    var roles: seq<RoleEntry>
    var newRoleDept: string
    var newRoleName: string

    constructor (roles: seq<RoleEntry>)
      ensures this.roles == roles && newRoleDept == "" && newRoleName == ""
    {
      this.roles := roles;
      newRoleDept := "";
      newRoleName := "";
    }

    method HandleRemoveRole(index: int)
      modifies this
      ensures DistinctIds(old(roles)) ==> DistinctIds(roles)
      ensures roles == RemoveRole(old(roles), index)
      ensures newRoleDept == old(newRoleDept) && newRoleName == old(newRoleName)
    {
      if DistinctIds(roles) {
        RemoveKeepsDistinct(roles, index);
      }
      roles := RemoveRole(roles, index);
    }

    /**
     * `handleAddRole`: nothing happens unless both a department and a role are selected;
     * otherwise the matching catalogue role is appended when not yet held, and both
     * selections are cleared either way.
     */
    method HandleAddRole(catalogue: seq<CatalogueEntry>)
      modifies this
      ensures DistinctIds(old(roles)) ==> DistinctIds(roles)
      ensures old(newRoleDept) == "" || old(newRoleName) == "" ==>
                roles == old(roles) && newRoleDept == old(newRoleDept) && newRoleName == old(newRoleName)
      ensures old(newRoleDept) != "" && old(newRoleName) != "" ==>
                && roles == AddRole(old(roles), catalogue, old(newRoleDept), old(newRoleName))
                && newRoleDept == "" && newRoleName == ""
    {
      if newRoleDept == "" || newRoleName == "" {
        return;
      }
      if DistinctIds(roles) {
        AddKeepsDistinct(roles, catalogue, newRoleDept, newRoleName);
      }
      roles := AddRole(roles, catalogue, newRoleDept, newRoleName);
      newRoleDept := "";
      newRoleName := "";
    }
  }
}

=== FILE: user_role.dfy ===
/** The hard-coded system roles and the role predicates (server/src/models/dto/UserRole.ts). */
module UserRoles {

  const Citizen: string := "citizen"
  const Administrator: string := "administrator"
  const PublicRelationsOfficer: string := "municipal public relations officer"
  const ExternalMaintainer: string := "external maintainer"
  const DepartmentDirector: string := "department director"

  /** Every role other than the four non-technical system roles is technical staff. */
  predicate IsTechnicalStaff(roleName: string) {
    && roleName != Citizen
    && roleName != Administrator
    && roleName != PublicRelationsOfficer
    && roleName != ExternalMaintainer
  }

  predicate IsAdmin(roleName: string) {
    roleName == Administrator
  }

  predicate IsCitizen(roleName: string) {
    roleName == Citizen
  }

  /** Technical staff is the complement of exactly four role names; the director is staff. */
  lemma TechnicalStaffComplement(roleName: string)
    ensures !IsTechnicalStaff(roleName) <==>
              roleName in {Citizen, Administrator, PublicRelationsOfficer, ExternalMaintainer}
    ensures IsTechnicalStaff(DepartmentDirector)
  {
  }

  /** Role names are compared case-sensitively. */
  lemma CaseSensitive()
    ensures !IsAdmin("Administrator") && IsTechnicalStaff("Administrator")
    ensures !IsCitizen("Citizen") && IsTechnicalStaff("Citizen")
  {
  }

  /** The three predicates never overlap. */
  lemma PredicatesDisjoint(roleName: string)
    ensures IsTechnicalStaff(roleName) ==> !IsAdmin(roleName) && !IsCitizen(roleName)
    ensures !(IsAdmin(roleName) && IsCitizen(roleName))
  {
  }
}

=== FILE: validate_report_update.dfy ===
/** The status/reason check on report updates (server/src/middleware/validateReportUpdate.ts). */
module ReportUpdateValidation {
  import opened Wrappers
  import opened Text
  import opened Errors
  import opened ReportStatuses

  /** The two fields of the request body the middleware reads; `None` is a missing field. */
  datatype UpdateBody = UpdateBody(status: Option<string>, reason: Option<string>)

  /** The message names the seven wire strings joined by ", " in declaration order. */
  function InvalidStatusMessage(): string {
    "Invalid status. Must be one of: " + Join(WireNames(AllStatuses), ", ")
  }

  function WireNames(statuses: seq<ReportStatus>): (names: seq<string>)
    ensures |names| == |statuses| && forall i :: 0 <= i < |statuses| ==> names[i] == Wire(statuses[i])
  {
    if statuses == [] then [] else [Wire(statuses[0])] + WireNames(statuses[1..])
  }

  const ReasonRequiredMessage: string := "Rejection reason is required when rejecting a report"

  /**
   * Valid status first, then a non-blank reason when the status is "Rejected"; `next()`
   * otherwise. The three cases below cover every body.
   */
  function ValidateReportUpdate(body: UpdateBody): (v: Verdict)
    ensures body.status.None? || Parse(body.status.value).None? ==> v == Fail(BadRequest(InvalidStatusMessage()))
    ensures body.status.Some? && Parse(body.status.value) == Some(Rejected)
            && (body.reason.None? || IsBlank(body.reason.value)) ==>
              v == Fail(BadRequest(ReasonRequiredMessage))
    ensures v.Next? <==>
              && body.status.Some? && Parse(body.status.value).Some?
              && (Parse(body.status.value) == Some(Rejected) ==> body.reason.Some? && !IsBlank(body.reason.value))
  {
    if body.status.None? then Fail(BadRequest(InvalidStatusMessage()))
    else
      match Parse(body.status.value)
      case None => Fail(BadRequest(InvalidStatusMessage()))
      case Some(status) =>
        if status == Rejected && (body.reason.None? || Trim(body.reason.value) == []) then
          Fail(BadRequest(ReasonRequiredMessage))
        else
          Next
  }

  /** Any valid status other than "Rejected" passes whatever the reason says. */
  lemma OtherStatusesIgnoreReason(s: ReportStatus, reason: Option<string>)
    requires s != Rejected
    ensures ValidateReportUpdate(UpdateBody(Some(Wire(s)), reason)) == Next
  {
    ParseWire(s);
  }
}

=== FILE: wrappers.dfy ===
/** Optional values and error-carrying results shared by every module of the model. */
module Wrappers {

  /** A value that may be absent: JavaScript's `undefined`/`null`. */
  datatype Option<+T> = None | Some(value: T) {
    function GetOr(default: T): T {
      match this
      case Some(v) => v
      case None => default
    }
  }

  /** The outcome of an operation that either returns a value or throws an error. */
  datatype Result<+T, +E> = Ok(value: T) | Err(error: E)
}
